=== FILE: README.md ===
# SSH / OpenProject monitor — a Dafny model of its data logic

The monitor is a Flask backend that reads the output of system commands (the
SSH journal, `netstat`, `w`, `psql` against the OpenProject database, the
OpenProject container log, `fail2ban-client`) and serves JSON summaries, plus
two React frontends that fetch those summaries and render dashboards. This
project models the parts of both that transform data:

- the backend's line parsers and aggregators: SSH log classification
  (`SshLog`), `netstat`/`w` parsing (`Netstat`), the OpenProject user table and
  failed/successful logins (`UserDirectory`), request tracking and active-user
  extraction from the OpenProject log (`OpActivity`), and the intrusion rules,
  fail2ban parsing and the summary arithmetic of the API (`Monitor`);
- the identity consolidation of the OpenProject section, which binds each
  directory user to the first matching live connection comparing ids both as
  numbers and as strings, drops connections that match no user, counts, sorts
  active-first and derives the badge (`Consolidation`, whose `UserKey` is a
  connection id sent either as a number or as a string);
- the grouping and ranking of security alerts by country (`SecurityAlerts`);
- the fetch handlers of the dashboard as pure `(state, outcome) -> state`
  transitions, with the all-or-nothing update of each domain and the schedule of
  refreshes (`Dashboard`); the legacy `frontend/src/components/Dashboard.js`
  has handlers textually identical to `Dashboard.jsx`, one line lower, and is
  modelled by the same members;
- the threshold classifiers, card state machines and views of the server-status
  cards (`ServerStatus`), the attack-trend charts (`AttackTrend`) and the
  fail2ban card (`Fail2banStats`).

Command outputs, the trusted-address list, the country lookup, the host-name
resolver and the current time are parameters. Shared building blocks: `Prelude`
(options, filters, windows), `Text` (Python/JavaScript string primitives),
`Lines` (the line-by-line reader and the geolocation step), `OrderedMap`
(insertion-ordered dictionaries, as Python dicts and JavaScript objects are),
`Sorting` (a stable descending sort), `JsValue` (the JavaScript value union
that `Dashboard` and `ServerStatus` read response bodies as).

## Model

| member | source | states |
|---|---|---|
| Lines.GeoOf | ssh_openproject_monitor.py:846-853 | an address reported as 'unknown' is located in 'Unknown' and untrusted; any other address gets the lookup's country and is trusted iff it is in the trusted list |
| Lines.Collect | ssh_openproject_monitor.py:71-72 | the line-by-line reader yields at most one record per line, each made by the line parser from one of the lines |
| Lines.CollectKeeps | ssh_openproject_monitor.py:71-72 | every line the parser accepts contributes its record |
| Lines.ParseLines | ssh_openproject_monitor.py:71 | an output without a newline is one line and yields exactly what the line parser makes of it (one record or none); any output yields at most one record more than it has newlines |
| Lines.ParseLinesAppend | ssh_openproject_monitor.py:71 | parsing is line-local: two outputs joined by a newline yield the records of the first followed by those of the second |
| Lines.ParseLinesAll | ssh_openproject_monitor.py:71-72 | a property of every record the line parser accepts holds of every parsed record |
| SshLog.AttackUser | ssh_openproject_monitor.py:78-79 | the user of an attack line is the whole word after the leftmost `user ` that a word follows; when there is none, the whole word after the leftmost such `for `; 'unknown' when neither pattern matches; always a word or 'unknown' |
| SshLog.SuccessUser | ssh_openproject_monitor.py:97-98 | the user of a login line is the whole word after the leftmost `for ` that a word follows, and 'unknown' when there is none |
| SshLog.ClassifyLine | ssh_openproject_monitor.py:72-113 | a line yields an attack iff it has an attack phrase and a `from a.b.c.d` address; a success iff it has no attack phrase, has 'Accepted' with 'password' or 'publickey', and an address; the ip is the dotted quad after the leftmost `from ` one follows, its last group taken whole; `publickey` auth iff the line contains 'publickey'; the user is the attack or login user of the line |
| SshLog.KeywordLineNotBlank | ssh_openproject_monitor.py:72-74 | a line carrying any keyword passes the `line.strip()` guard |
| SshLog.ParseSshLog | ssh_openproject_monitor.py:70-116 | a one-line journal output yields exactly that line's classification; every record has a dotted-quad ip and a word or 'unknown' user |
| SshLog.ParseSshLogAppend | ssh_openproject_monitor.py:71-72 | journal lines are classified one by one: two outputs joined by a newline yield the records of the first followed by those of the second |
| SshLog.AttacksAndSuccesses | ssh_openproject_monitor.py:754-755 | the attack and success lists split the records: their sizes add up to the number of records |
| SshLog.AttackTakesPriority | ssh_openproject_monitor.py:74-93 | a line with both an attack phrase and an accepted-login phrase is an attack |
| Netstat.ConnLine | ssh_openproject_monitor.py:210-235 | a `netstat` line yields a peer only with at least five fields, a remote field that splits at its last ':' into the ip and a colon-free port, and a non-loopback ip; the local port is what follows the fourth field's last ':'; country and trust come from the lookups; every other line yields nothing |
| Netstat.ParseConns | ssh_openproject_monitor.py:209-235 | a one-line `netstat` output yields exactly that line's peer, if any; no peer read is a loopback address |
| Netstat.ParseConnsAppend | ssh_openproject_monitor.py:209-210 | `netstat` lines are read one by one: two outputs joined by a newline yield the peers of the first followed by those of the second |
| Netstat.Merge | ssh_openproject_monitor.py:224-258 | the web list is the port-80 peers tagged HTTP followed by the port-443 peers tagged HTTPS, each in order |
| Netstat.WebConnections | ssh_openproject_monitor.py:201-271 | the web connections number the HTTP plus the HTTPS peers, the HTTP ones first, none of them loopback |
| Netstat.SshConnLine | ssh_openproject_monitor.py:287-309 | an SSH-port line yields a peer iff it contains 'ESTABLISHED' and passes the common peer rules |
| Netstat.SessionLine | ssh_openproject_monitor.py:318-338 | a `w` line yields a session iff it does not start with 'USER', has at least eight fields and a dotted-quad third field, which becomes the ip; the user, terminal and login time are the first, second and fourth fields; the country is the lookup's; trusted iff the ip is in the trusted set |
| Netstat.UserSessions | ssh_openproject_monitor.py:315-338 | a `w` output of at most two lines yields no session; every session read has a dotted-quad ip |
| Netstat.HeaderSkipped | ssh_openproject_monitor.py:316-317 | the first two lines of the `w` output never contribute a session, whatever they hold |
| Netstat.ActiveSshSessions | ssh_openproject_monitor.py:273-346 | the user sessions are those read from the `w` output; a one-line `netstat` output yields exactly that line's SSH peer, if any; no peer is loopback and every user session has a dotted-quad ip |
| Netstat.SshPeersAppend | ssh_openproject_monitor.py:286-287 | SSH peers are read line by line: two `netstat` outputs joined by a newline yield the peers of the first followed by those of the second |
| UserDirectory.Cells | ssh_openproject_monitor.py:391 | a row splits at every '\|' into as many cells as pieces, each piece stripped |
| UserDirectory.LoginOf | ssh_openproject_monitor.py:395 | the login is the login cell when it is non-empty, and otherwise a non-empty `user_{id}` default |
| UserDirectory.DisplayNameOfRow | ssh_openproject_monitor.py:395-407 | with the login defaulted the display name is never empty; it is "first last" when both name cells are filled and the login otherwise |
| UserDirectory.UserRow | ssh_openproject_monitor.py:389-417 | a line is accepted iff it contains '\|', has at least seven cells and an integer first cell, which becomes the id; login and display name follow the defaulting rules; the email is the fifth cell; `last_login` is absent iff the seventh cell is empty, and otherwise is that cell |
| UserDirectory.Directory | ssh_openproject_monitor.py:388-420 | the directory has one entry per id and each entry is stored under its own id |
| UserDirectory.LaterRowOverwrites | ssh_openproject_monitor.py:409 | the entry for an id is the last accepted row with that id |
| UserDirectory.DirectoryKeys | ssh_openproject_monitor.py:409 | an id is in the directory iff some accepted row carries it |
| UserDirectory.LoginRow | ssh_openproject_monitor.py:479-506 | a login line is accepted iff it contains '\|', has at least five cells and an integer first cell; the login is the second cell or `user_<id>`; the username is the full name when both name cells are filled, else the login, so never empty; the last login is the fifth cell |
| UserDirectory.FailedLine | ssh_openproject_monitor.py:436-457 | a line yields a failed-login record iff it contains 'Failed login', a quoted user after `Failed login for '` and a dotted quad after `from `; the user is the quote-free text of the leftmost such match up to its closing quote; the ip is the dotted quad after the leftmost `from ` one follows; the timestamp is the group of the leftmost `at ([0-9-]+ [0-9:]+)` match and 'unknown' when there is none (lines 442 and 447); the country is the lookup's |
| UserDirectory.QuotedUser | ssh_openproject_monitor.py:440 | the captured user contains no quote and is followed by the closing quote in the line |
| UserDirectory.StampGroup | ssh_openproject_monitor.py:442 | the group of an `at ([0-9-]+ [0-9:]+)` match is a date run, one space and a clock run, both non-empty; 'at ' and the group occur at the match, and the clock run is taken whole |
| UserDirectory.AtStamp | ssh_openproject_monitor.py:442 | the timestamp search finds nothing iff no position matches, and otherwise returns the group of the leftmost match |
| UserDirectory.StampNotUnknown | ssh_openproject_monitor.py:447 | a found timestamp has the date-space-clock shape, so it is never the 'unknown' default |
| OpActivity.ResolveQuadHost | ssh_openproject_monitor.py:155-165 | a host written `a.b.c.d` or `a.b.c.d:port` that the resolver cannot answer for is reported as `a.b.c.d` |
| OpActivity.ResolveQuadPort | ssh_openproject_monitor.py:159-163 | an unresolvable `a.b.c.d:port` host is reported as the address before the colon |
| OpActivity.ResolveQuadBare | ssh_openproject_monitor.py:159-163 | an unresolvable bare `a.b.c.d` host is reported as itself |
| OpActivity.DigitHostNamed | ssh_openproject_monitor.py:156 | a host that starts with a digit is neither 'unknown' nor 'localhost', so resolution is attempted |
| OpActivity.MatchNotBlank | ssh_openproject_monitor.py:132 | a line in which a keyword-led group matches contains the keyword and passes the `line.strip()` guard |
| OpActivity.Captured | ssh_openproject_monitor.py:137-143 | the group a search captures is the whole run of its class after the leftmost occurrence of the prefix that such a run follows |
| OpActivity.CapturedIsSearch | ssh_openproject_monitor.py:137-143 | a token captured after a prefix is the one the search returns, so each captured field is determined by the line |
| OpActivity.AccessLine | ssh_openproject_monitor.py:132-192 | an entry comes only from a line with 'INFO --', 'duration=', 'status=', 'method=' and matching status and method groups; such a line is dropped iff its duration token is present but not a float; the method and status are the leftmost matches' whole groups; the user is 'anonymous' iff there is no `user=` digits group and otherwise the leftmost one; the host, path and timestamp are the leftmost `host=`, `path=` and `[...` ` #` groups when the line has one, else 'unknown'; the duration is the leftmost `duration=` group if any; the ip is the host's resolution |
| OpActivity.AccessUser | ssh_openproject_monitor.py:142-151 | the user of a request line is 'anonymous' iff it has no `user=` digits group, and otherwise the whole digit run of the leftmost one |
| OpActivity.AccessHost | ssh_openproject_monitor.py:141-150 | the host of a request line is the whole non-space token after the leftmost `host=` when the line has one, and 'unknown' when it has none |
| OpActivity.AccessEntries | ssh_openproject_monitor.py:128-192 | a one-line log yields exactly that line's entry, if any; every parsed entry's user is 'anonymous' or a non-empty run of digits |
| OpActivity.AccessEntriesAppend | ssh_openproject_monitor.py:131-132 | request lines are parsed one by one: two logs joined by a newline yield the entries of the first followed by those of the second |
| OpActivity.AccessLineUser | ssh_openproject_monitor.py:142-151 | an accepted line's user is 'anonymous' or a non-empty run of digits |
| OpActivity.Record | ssh_openproject_monitor.py:167-175 | one more entry keeps the session table keyed by user id, never 'anonymous', with every counter at least 1, and adds at most one key |
| OpActivity.TrackSessions | ssh_openproject_monitor.py:167-175 | the session table is keyed by named user ids, every counter is at least 1, and there are no more sessions than entries (the table starts empty at line 129) |
| OpActivity.RecordRequests | ssh_openproject_monitor.py:174 | one more entry adds exactly one to its own named user's counter and leaves every other counter unchanged |
| OpActivity.RequestsCounted | ssh_openproject_monitor.py:167-175 | a named user's counter equals the number of its parsed request lines |
| OpActivity.PresentIffCounted | ssh_openproject_monitor.py:168-175 | a user has a session iff its counter is positive |
| OpActivity.SessionCountsRequests | ssh_openproject_monitor.py:168-175 | a user has a session iff it is not 'anonymous' and at least one of its lines was parsed, and then its counter is that number of lines |
| OpActivity.RecordGet | ssh_openproject_monitor.py:169-175 | after one more named entry, that user's session holds the entry's host, ip and timestamp; every other session is unchanged |
| OpActivity.SessionLastSeen | ssh_openproject_monitor.py:169-173 | a session's host, ip and last activity are those of its user's last parsed line |
| OpActivity.OpenProjectLogs | ssh_openproject_monitor.py:121-195 | the entries are those of the log; a named user has a session iff it has an entry, no two sessions share a user, and each session counts its user's entries and carries the host, ip and timestamp of that user's last entry; the sessions are listed in the order their users' first entries appear |
| OpActivity.TrackOrder | ssh_openproject_monitor.py:169-175 | the session dictionary's keys are exactly the named users with an entry, kept in the order of their first entries, since a later entry of a known user rewrites its session in place |
| OpActivity.SessionsInOrder | ssh_openproject_monitor.py:195 | `list(user_sessions.values())` lists the sessions in the order their users first appeared |
| OpActivity.SessionValues | ssh_openproject_monitor.py:195 | listing the session values keeps one session per distinct named user |
| OpActivity.UsersFeed | ssh_openproject_monitor.py:864-876 | the users feed serves one located record per session, in order, 'unknown' addresses located nowhere and untrusted |
| OpActivity.AccessFeed | ssh_openproject_monitor.py:843-855 | the access feed is the last 100 entries (all when fewer), in order, each located by its address |
| OpActivity.HostIp | ssh_openproject_monitor.py:547-553 | an address taken from a host is a dotted quad that, followed by ':', starts the host |
| OpActivity.HostIpOfQuad | ssh_openproject_monitor.py:550-553 | an `a.b.c.d:port` host yields `a.b.c.d`; a bare `a.b.c.d` host, having no colon, yields no address |
| OpActivity.UserNumber | ssh_openproject_monitor.py:532-539 | a line has a user number iff it has a `user=` digits group, and the number is the value of the whole digit run of the leftmost one |
| OpActivity.ActiveHit | ssh_openproject_monitor.py:538-555 | a line counts iff its user number exists and exceeds 2; its address, when there is one, is the dotted quad of its `host=` token |
| OpActivity.Hits | ssh_openproject_monitor.py:528-570 | a one-line log yields exactly that line's hit, if any; every counted line has an id above 2 and, when it has an address, a dotted-quad one |
| OpActivity.HitsAppend | ssh_openproject_monitor.py:528-529 | active-user lines are read one by one: two logs joined by a newline yield the hits of the first followed by those of the second |
| OpActivity.IpIndexGet | ssh_openproject_monitor.py:569-570 | `user_ips` holds for an id the address of its last line that carried one |
| OpActivity.LastKnownIp | ssh_openproject_monitor.py:577-589 | a reported address is 'unknown' or the address of one of the id's lines |
| OpActivity.Describe | ssh_openproject_monitor.py:558-589 | a described user keeps the line's id and timestamp and takes the id's last known address |
| OpActivity.DescribeAll | ssh_openproject_monitor.py:577-591 | one described record per active id, in the table's order |
| OpActivity.ActiveUsers | ssh_openproject_monitor.py:515-593 | one record per distinct id above 2, in order of first appearance; the name and login come from the directory with the `User {id}` and '' defaults; the address is 'unknown' or a dotted quad, and the location follows it |
| OpActivity.DescribedIds | ssh_openproject_monitor.py:561-591 | described records keep their distinct ids above 2 and their dotted-quad or 'unknown' addresses |
| OpActivity.ActiveUserIds | ssh_openproject_monitor.py:561 | an id is reported active iff some counted line carries it |
| OpActivity.ActiveUserLastLine | ssh_openproject_monitor.py:561-567 | a user's reported last activity is the timestamp of its last counted line |
| OpActivity.IndexedIdHasIp | ssh_openproject_monitor.py:578-580 | an id that `user_ips` holds is reported with a real address from one of its lines |
| OpActivity.UnknownNotQuad | ssh_openproject_monitor.py:546-569 | the 'unknown' placeholder is not a dotted quad, so it can never be stored as an address |
| OpActivity.UnindexedIdHasNoIp | ssh_openproject_monitor.py:586-589 | an id that `user_ips` lacks had no line with an address and is reported as 'unknown' |
| OpActivity.KnownIpIsLastLine | ssh_openproject_monitor.py:569-570 | a known address is that of the id's last line that carried one |
| OpActivity.LastKnownIpIsLast | ssh_openproject_monitor.py:569-589 | the address is 'unknown' iff none of the id's lines carried one, and otherwise it comes from the last line that did |
| OpActivity.ActiveUserLastIp | ssh_openproject_monitor.py:569-589 | a reported user's address is 'unknown' iff none of its lines carried an address, and otherwise it is that of its last line with one, even when later lines had none |
| Monitor.BannedIps | ssh_openproject_monitor.py:352-364 | the banned addresses are whole tokens of the `Banned IP list` line shaped like `(?:[0-9]{1,3}\.){3}[0-9]{1,3}`, at most one per token, each with its country; an empty output yields none |
| Monitor.Fail2ban | ssh_openproject_monitor.py:348-376 | the jail is 'Activo' iff its status command printed something, else 'Inactivo'; `total_banned` is the number of banned addresses |
| Monitor.BannedIpsOfList | ssh_openproject_monitor.py:356-364 | addresses printed after a header that holds none come back exactly and in order |
| Monitor.IntrusionRules | ssh_openproject_monitor.py:611-625 | a high ('critical') alert is raised iff active > registered, a medium ('warning') alert iff active > 0.8 × registered, written exactly as 5·active > 4·registered; there are at most two, high first |
| Monitor.HighImpliesMedium | ssh_openproject_monitor.py:613-625 | the high alert never comes alone, and both alerts are raised iff active > registered |
| Monitor.DetectIntruders | ssh_openproject_monitor.py:599-631 | the registered count is the directory's size, the active count the number of distinct recently active ids, and the two rules apply to them |
| Monitor.AlertCount | ssh_openproject_monitor.py:608-631 | there are at most two alerts, some iff the 80% rule fires, and the active count is the length of the active-user list |
| Monitor.EmptyDirectoryAlerts | ssh_openproject_monitor.py:604-625 | with an empty user table any recently active user raises both alerts |
| Monitor.EmptyTableNoUsers | ssh_openproject_monitor.py:388-420 | an empty user table lists nobody |
| Monitor.ApiSummary | ssh_openproject_monitor.py:746-787 | SSH failed and successful logins count the parsed attack and success records, which together number all records; OpenProject failed and successful logins count the parsed failed-login lines and login rows; SSH active connections add user sessions and network peers; total active connections add the web peers; blocked IPs equal `total_banned`; legacy fields equal their new twins; blocked users are 0; registered and active users come from the intrusion rules, and the alert count is the number of intrusion alerts |
| Monitor.AttackFeed | ssh_openproject_monitor.py:799-807 | the attack feed is the last 100 attack records (all when fewer), in order, each with its country |
| Monitor.SuccessFeed | ssh_openproject_monitor.py:816-825 | the login feed is the last 50 successful logins (all when fewer), in order, each located and marked trusted iff its address is in the trusted list |
| Monitor.AttackFeedComplete | ssh_openproject_monitor.py:807 | while there are at most 100 attacks the feed holds every one of them |
| Monitor.UsersDbFeed | ssh_openproject_monitor.py:953-955 | the users-db feed has one record per directory entry and no two share an id |
| Monitor.DistinctIds | ssh_openproject_monitor.py:409 | values stored under distinct keys equal to their own ids have distinct ids (the API serves these values at line 954) |
| Consolidation.KeyNamesOneId | frontend-react/src/components/OpenProjectSection.jsx:131 | a connection key, string or number, names at most one directory id |
| Consolidation.StringKeyParses | ssh_openproject_monitor.py:142-151 | a string key that matches an id is the decimal text of that id, the one the backend's `user=` digits give |
| Consolidation.FirstMatch | frontend-react/src/components/OpenProjectSection.jsx:130-132 | `find` returns the first connection whose key is the id's text or the id itself, and nothing iff no connection names the id |
| Consolidation.Bind | frontend-react/src/components/OpenProjectSection.jsx:128-140 | a user is active iff the connection list is present and some connection names it, and then the bound connection is one of the list |
| Consolidation.Consolidate | frontend-react/src/components/OpenProjectSection.jsx:127-141 | the mapped list has exactly one entry per directory user, in directory order, active iff some connection names that user |
| Consolidation.BindsFirstMatch | frontend-react/src/components/OpenProjectSection.jsx:130-133 | the bound connection is the first in list order that names the user, whatever later connections say |
| Consolidation.CompareIsRank | frontend-react/src/components/OpenProjectSection.jsx:142-149 | the comparator puts an entry first exactly when it ranks higher by (active, last activity), and ties exactly on equal ranks |
| Consolidation.UserList | frontend-react/src/components/OpenProjectSection.jsx:127-149 | the sorted list is a permutation of the mapped list; every active entry precedes every inactive one; within each group the last-activity date does not increase |
| Consolidation.UserListStable | frontend-react/src/components/OpenProjectSection.jsx:142-149 | entries the comparator ties keep their directory order |
| Consolidation.UserListCoversDirectory | frontend-react/src/components/OpenProjectSection.jsx:127-149 | every directory user appears in the rendered list, and nobody else does |
| Consolidation.Bound | frontend-react/src/components/OpenProjectSection.jsx:80-88 | the kept connections are exactly those naming some directory user, in order |
| Consolidation.Ghosts | frontend-react/src/components/OpenProjectSection.jsx:84-86 | the ghost connections are exactly those naming no directory user |
| Consolidation.ConnectedCount | frontend-react/src/components/OpenProjectSection.jsx:79-88 | "Conectados" is 0 when either list is absent, never more than the connections, and otherwise the number of connections naming a user |
| Consolidation.GhostsComplementCount | frontend-react/src/components/OpenProjectSection.jsx:79-88 | connected connections plus ghosts make up the whole connection list |
| Consolidation.NoGhostsCountAll | frontend-react/src/components/OpenProjectSection.jsx:79-88 | without ghosts every connection is counted |
| Consolidation.GhostNeverBound | frontend-react/src/components/OpenProjectSection.jsx:130-133 | a ghost connection is never bound to any listed user |
| Consolidation.TotalIsListLength | frontend-react/src/components/OpenProjectSection.jsx:127-149 | "Total Usuarios" is the number of rendered rows whatever the connections are (the total is shown at line 66) |
| Consolidation.BadgeOfUser | frontend-react/src/components/OpenProjectSection.jsx:221-233 | the badge is 'Conectado' iff some connection names the user, 'Actividad Reciente' iff none does and the last login is at most 24 hours before now, and never 'Actividad Reciente' without a last login (recency at lines 157-163) |
| Consolidation.ConnectedBadgesFirst | frontend-react/src/components/OpenProjectSection.jsx:142-146 | every 'Conectado' row sits above every other row (badges at lines 221-223) |
| Consolidation.ActiveUsers | frontend-react/src/components/OpenProjectSection.jsx:127-133 | the users some connection names are exactly the directory users some connection names, in directory order |
| Consolidation.BoundMatchesActiveUsers | frontend-react/src/components/OpenProjectSection.jsx:79-133 | with string keys, one connection per key and distinct ids, the connections counted equal in number the users bound |
| Consolidation.ShapedTail | frontend-react/src/components/OpenProjectSection.jsx:79-88 | dropping the first connection keeps the data backend-shaped |
| Consolidation.NamedCons | frontend-react/src/components/OpenProjectSection.jsx:130-132 | a user is named by a list iff the first connection names it or the rest do |
| Consolidation.ActiveAfterFirst | frontend-react/src/components/OpenProjectSection.jsx:130-133 | the first connection adds one active user when it names a directory user and none otherwise |
| Consolidation.ConsolidateActiveCount | frontend-react/src/components/OpenProjectSection.jsx:127-141 | the mapped list has one active entry per user some connection names |
| Consolidation.ConnectedCountIsConnectedRows | frontend-react/src/components/OpenProjectSection.jsx:79-88 | with backend-shaped data the "Conectados" card equals the number of rows with the 'Conectado' badge (badges at lines 221-224) |
| SecurityAlerts.CountryOf | frontend-react/src/components/SecurityAlerts.jsx:11 | an alert's country is its own when present and non-empty, and 'Unknown' otherwise; never empty |
| SecurityAlerts.GroupByCountry | frontend-react/src/components/SecurityAlerts.jsx:10-17 | the grouping has one entry per country |
| SecurityAlerts.GroupIsFilter | frontend-react/src/components/SecurityAlerts.jsx:10-17 | each country's group is exactly its alerts in input order, and a country with no alerts has no group |
| SecurityAlerts.GroupedCountries | frontend-react/src/components/SecurityAlerts.jsx:11-14 | a country is grouped iff some alert is from there |
| SecurityAlerts.SizePut | frontend-react/src/components/SecurityAlerts.jsx:15 | replacing one group's list changes the total size by the difference in lengths |
| SecurityAlerts.GroupSizesSum | frontend-react/src/components/SecurityAlerts.jsx:10-17 | the groups partition the alerts: their sizes add up to the number of alerts |
| SecurityAlerts.TopCountries | frontend-react/src/components/SecurityAlerts.jsx:20-22 | at most five groups are shown (all when fewer), in non-increasing size, each one of the groups and no country twice |
| SecurityAlerts.TopAreLargest | frontend-react/src/components/SecurityAlerts.jsx:20-22 | a country left out is no larger than any country shown |
| SecurityAlerts.AttemptsOf | frontend-react/src/components/SecurityAlerts.jsx:73 | a missing or zero attempt count counts as one; any other count as itself |
| SecurityAlerts.Card | frontend-react/src/components/SecurityAlerts.jsx:72-74 | a country card counts its group's alerts; the high-severity count is at most that; with non-negative counts the summed attempts are at least that |
| SecurityAlerts.SeverityTone | frontend-react/src/components/SecurityAlerts.jsx:24-35 | the badge is red, yellow or blue iff the lower-cased severity is 'high', 'medium' or 'low', and grey otherwise or when absent |
| SecurityAlerts.CountedHighIsRed | frontend-react/src/components/SecurityAlerts.jsx:24-74 | every alert counted as high gets the red badge |
| SecurityAlerts.UpperCaseHighNotCounted | frontend-react/src/components/SecurityAlerts.jsx:24-74 | 'HIGH' gets the red badge but is not counted as high |
| SecurityAlerts.Render | frontend-react/src/components/SecurityAlerts.jsx:4-144 | nothing is rendered iff the alerts are missing or empty; otherwise the total is the alert count, the recent list is the first five alerts in order, the overflow note appears iff there are more than five, and there is one card per top country |
| Dashboard.FetchSsh | frontend-react/src/components/Dashboard.jsx:68-90 | a rejected request or a `null` summary leaves `sshData` unchanged; otherwise each counter is the summary's field when truthy and 0 when not, never `undefined` or `null`; the unique-address counter becomes present, the geo list empty, and the sessions the body or the empty default |
| Dashboard.SshSuccessReplacesAll | frontend-react/src/components/Dashboard.jsx:79-86 | a successful SSH fetch publishes a snapshot that does not depend on the previous one |
| Dashboard.SummaryBody | ssh_openproject_monitor.py:765-787 | the summary body is an object with fourteen counters |
| Dashboard.SummaryCountersShown | frontend-react/src/components/Dashboard.jsx:80-83 | against the backend's summary the three SSH counters are shown as served, zero included, and the unique-address counter, which the summary lacks, is always 0 |
| Dashboard.SummaryFields | ssh_openproject_monitor.py:765-787 | the summary body serves the failed, successful and blocked SSH counters under their names and has no `ssh_unique_ips` field |
| Dashboard.SshCounterRead | ssh_openproject_monitor.py:767-770 | a counter of the SSH group is read back from the body under its own name |
| Dashboard.UniqueIpsAbsent | ssh_openproject_monitor.py:765-787 | the summary body has no `ssh_unique_ips` field |
| Dashboard.CountersLackUniqueIps | ssh_openproject_monitor.py:765-787 | none of the four counter groups carries `ssh_unique_ips` |
| Dashboard.FetchOp | frontend-react/src/components/Dashboard.jsx:92-115 | unless all five requests succeed `openProjectData` is unchanged; otherwise each count is its body's length when an array and 0 otherwise, and each list the body when an array and empty otherwise |
| Dashboard.FetchOpConsistent | frontend-react/src/components/Dashboard.jsx:103-111 | every published snapshot has `totalUsers` equal to the users list's length and `activeUsers` equal to the active connections' length |
| Dashboard.TotalUsersIsDirectorySize | frontend-react/src/components/Dashboard.jsx:97-104 | fed the users-db feed, the user total is the size of the backend's user directory |
| Dashboard.FetchAlerts | frontend-react/src/components/Dashboard.jsx:57-66 | an array body is stored as it is; any other body, and a failure, store the empty list |
| Dashboard.IntrusionBody | ssh_openproject_monitor.py:627-635 | the intrusion-detection endpoint answers with an object, on success and on error alike (the route returns it at lines 960-968) |
| Dashboard.BackendAlertsNeverStored | frontend-react/src/components/Dashboard.jsx:60-61 | against this backend the stored alert list is always empty |
| Dashboard.AlertOf | frontend-react/src/components/SecurityAlerts.jsx:73-74 | a stored alert's country is its string `country` field; a stored value that is not an object has no fields (the country default at line 11) |
| Dashboard.AlertPanelStaysEmpty | frontend-react/src/components/Dashboard.jsx:173-181 | after an alerts fetch answered by this backend the stored list is empty, so the `securityAlerts.length > 0` guard is false and the alert section is not drawn (the list is stored at lines 60-61) |
| Dashboard.Initial | frontend-react/src/components/Dashboard.jsx:9-27 | the first render has zero counters, empty lists, no alerts, no error, and is loading |
| Dashboard.Step | frontend-react/src/components/Dashboard.jsx:57-134 | no event sets the error; a refresh start sets `loading` and its end clears it; each completion changes only its own part of the state |
| Dashboard.RunStaysHealthy | frontend-react/src/components/Dashboard.jsx:117-134 | whatever the responses and however the completions interleave, the error stays unset and the OpenProject counts match their lists |
| Dashboard.CompletionsCommute | frontend-react/src/components/Dashboard.jsx:122-126 | completions of two different fetchers commute, so their interleaving does not matter |
| Dashboard.Refresh | frontend-react/src/components/Dashboard.jsx:117-134 | a full refresh ends with `loading` false and the error unchanged, each part updated by its own fetcher's rule |
| Dashboard.FailedRefreshKeepsData | frontend-react/src/components/Dashboard.jsx:62-114 | a refresh in which every request fails keeps the SSH and OpenProject data and only empties the alerts |
| Dashboard.ErrorPanelNeverShown | frontend/src/components/Dashboard.js:118-148 | no sequence of events from the first render reaches the error panel |
| Dashboard.ZeroAttacksShowSpinner | frontend/src/components/Dashboard.js:120-137 | while zero failed logins are reported every refresh hides the dashboard behind the spinner until it ends |
| Dashboard.FullRefreshMeetsAlertTick | frontend/src/components/Dashboard.js:37-55 | every full refresh after the first coincides with a five-minute alert tick |
| Dashboard.LatestAlertsFetch | frontend/src/components/Dashboard.js:37-55 | while mounted, a fetch of the alerts was started at most 300000 ms ago |
| Dashboard.NothingAfterCleanup | frontend/src/components/Dashboard.js:51-54 | after cleanup neither a full refresh nor an alert fetch happens |
| ServerStatus.CompactMetricTone | frontend-react/src/components/ServerStatusSectionCompact.jsx:14-21 | the compact metric card is yellow, red or green iff the backend's status is 'warning', 'critical' or 'good', and blue for any other status |
| ServerStatus.Dot | frontend-react/src/components/ServerStatusSectionCompact.jsx:175-177 | a service's dot is green iff its status is 'active' (and a container's iff its status is 'running', lines 204-206), and red otherwise |
| ServerStatus.CompactStep | frontend-react/src/components/ServerStatusSectionCompact.jsx:46-77 | the initial fetch sets `loading` and later ones `isUpdating`; success replaces the data and clears the error; failure keeps the data and records the prefixed message; the initial fetch ends with `loading` false; the update timer clears `isUpdating` |
| ServerStatus.CompactDataIsLastBody | frontend-react/src/components/ServerStatusSectionCompact.jsx:63-68 | the data held is always the body of the last successful fetch, failures in between notwithstanding |
| ServerStatus.CompactViewOf | frontend-react/src/components/ServerStatusSectionCompact.jsx:85-209 | the skeleton shows iff loading; the no-data panel iff not loading and no data is held; the render throws iff data is held that lacks one of the fields it reads (the four metrics, the security block and its service list, the Docker block and its container list, lines 131-209); otherwise the card shows the data with the error as a warning banner (the banner at lines 222-226) |
| JsValue.PathThrows | frontend-react/src/components/ServerStatusSectionCompact.jsx:133 | a chain of property reads such as `serverData.metrics.cpu.value` throws iff some proper prefix of it reaches `undefined` or `null` |
| ServerStatus.EmptyObjectBreaksCompact | frontend-react/src/components/ServerStatusSectionCompact.jsx:133 | the body `{}` is held as data but the card throws reading `metrics.cpu` |
| ServerStatus.NoDataPanelOnlyWithoutData | frontend-react/src/components/ServerStatusSectionCompact.jsx:100-108 | from the first render the no-data panel appears only when no fetch has delivered a body, or the last delivered an empty one |
| ServerStatus.FailedRefreshKeepsStaleData | frontend-react/src/components/ServerStatusSectionCompact.jsx:66-68 | a failed refresh keeps showing the previous data under a warning banner with the message (the banner at lines 222-226), and data the card could not draw stays undrawable |
| ServerStatus.MetricStatus | frontend/src/components/ServerStatusSectionReal.js:82-87 | the status is critical iff the value reaches the critical threshold, warning iff it reaches the warning one but not the critical one, good iff it reaches the good one and neither of the others, and excellent otherwise |
| ServerStatus.MetricStatusMonotone | frontend/src/components/ServerStatusSectionReal.js:82-87 | a larger value is never classed less severe, whatever the thresholds |
| ServerStatus.CpuBands | frontend/src/components/ServerStatusSectionReal.js:169 | with the CPU thresholds 40/70/85 each status is exactly its half-open band |
| ServerStatus.LevelTone | frontend/src/components/ServerStatusSectionReal.js:3-30 | excellent, good, warning and critical are green, yellow, orange and red, one to one |
| ServerStatus.UptimeSplit | frontend/src/components/ServerStatusSectionReal.js:133 | a non-negative uptime splits into days and 0..23 remaining hours that recombine to it |
| ServerStatus.UptimeSplitNegative | frontend/src/components/ServerStatusSectionReal.js:133 | floor division and JavaScript's remainder differ below zero: -1 hours shows as -1 days and -1 hours |
| ServerStatus.ServiceLevel | frontend/src/components/ServerStatusSectionReal.js:207-211 | a service is excellent iff 'active', and critical otherwise |
| ServerStatus.ContainerLevel | frontend/src/components/ServerStatusSectionReal.js:227-231 | a container is excellent iff 'running', and a warning otherwise |
| ServerStatus.ContainerIndicators | frontend/src/components/ServerStatusSectionReal.js:227-233 | the first three containers are listed, in order, each by its level; none without a container list |
| ServerStatus.StoppedContainerMilderThanService | frontend/src/components/ServerStatusSectionReal.js:210-230 | a stopped container is always classed milder than a stopped service |
| ServerStatus.RealStart | frontend/src/components/ServerStatusSectionReal.js:55-56 | a fetch clears the error before the request and changes nothing else |
| ServerStatus.RealSettle | frontend/src/components/ServerStatusSectionReal.js:57-70 | a fetch ends with `loading` false; success stores the body; failure keeps the data and records the exception's message |
| ServerStatus.RealViewOf | frontend/src/components/ServerStatusSectionReal.js:89-235 | the spinner shows iff loading; the error panel, with the message, iff not loading and the error is a non-empty message; otherwise the no-data panel iff no data is held; the render throws iff the data lacks what it reads (the alert lists' lengths, and both lists when either is non-empty; the service and container blocks and their lists, lines 142-227); the metrics otherwise |
| ServerStatus.EmptyObjectBreaksReal | frontend/src/components/ServerStatusSectionReal.js:142 | the body `{}` is held as data but the card throws reading `critical_alerts.length` |
| ServerStatus.NoCriticalReadsWarnings | frontend/src/components/ServerStatusSectionReal.js:142 | with an empty critical list the warning list is read: empty lists render, a missing warning list throws |
| ServerStatus.RealFailureHidesData | frontend/src/components/ServerStatusSectionReal.js:54-116 | a failed refresh keeps the data but shows the error panel instead, and the next refresh shows the data again as soon as it starts (or the undrawable data throws again) |
| ServerStatus.EmptyMessageNotShown | frontend/src/components/ServerStatusSectionReal.js:67-101 | an exception with an empty message sets an error the card ignores: the data shows, or throws when undrawable |
| ServerStatus.StatusTone | frontend/src/components/ServerStatusSection.js:5-21 | active/healthy/online are green, warning/degraded yellow, error/offline/critical red, anything else grey |
| ServerStatus.LabelAgainstTone | frontend/src/components/ServerStatusSection.js:5-58 | 'Activo' is always green and 'Advertencia' yellow; every red or grey status is labelled 'Error'; so are the green 'healthy' and the yellow 'degraded' |
| ServerStatus.PercentTone | frontend/src/components/ServerStatusSection.js:66-72 | a percentage metric is red above 80, yellow above 60 up to 80, plain otherwise; a value without a leading number, or a metric that is not a percentage, is plain |
| ServerStatus.InfraStatus | frontend/src/components/ServerStatusSection.js:234 | the infrastructure card is 'warning' iff the disk usage parses as a number above 85, and 'active' otherwise |
| ServerStatus.InfraWarningIsAlarm | frontend/src/components/ServerStatusSection.js:234 | a disk the infrastructure card warns about is also printed red, and `n%` warns iff n > 85 (the red colour at line 67) |
| ServerStatus.MonitoringStatus | frontend/src/components/ServerStatusSection.js:246 | the monitoring card is critical iff there are critical alerts, warning iff none are critical but some warnings exist, and active otherwise |
| ServerStatus.MonitoringCardShown | frontend/src/components/ServerStatusSection.js:246 | the monitoring card is never grey, and is labelled 'Error' iff there are critical alerts (colour and label at lines 5-21 and 58) |
| AttackTrend.MaxOf | frontend/src/components/SSHAttacksTrend.js:30 | `Math.max` over a non-empty list is at least every count and equal to one of them |
| AttackTrend.MaxAttacks | frontend/src/components/SSHAttacksTrend.js:28-32 | the chart scale is 100 without data; otherwise it is at least 10, at least every count, and either 10 or some day's count |
| AttackTrend.BarColorMatchesLegend | frontend/src/components/SSHAttacksTrend.js:49-55 | every non-negative count falls in exactly one legend range, and that range's colour is the bar's colour (the legend at lines 152-172) |
| AttackTrend.NegativeCountIsGreen | frontend/src/components/SSHAttacksTrend.js:49-55 | a negative count is coloured like 1-9 although no legend range contains it (the legend at lines 152-172) |
| AttackTrend.PercentageAtMost100 | frontend/src/components/SSHAttacksTrend.js:59 | a count at most the scale is at most 100 percent of it |
| AttackTrend.BarHeightBounds | frontend/src/components/SSHAttacksTrend.js:57-61 | every bar's height lies between 2 and 100 percent |
| AttackTrend.BarHeightMonotone | frontend/src/components/SSHAttacksTrend.js:57-61 | a larger count never gives a lower bar |
| AttackTrend.BusiestDayFillsChart | frontend/src/components/SSHAttacksTrend.js:28-61 | a busiest day with at least 10 attacks is drawn at full height |
| AttackTrend.RoundedMean | frontend/src/components/SSHAttacksTrend.js:89 | `Math.round(total / n)` is the integer within half of the mean, a half rounded up |
| AttackTrend.Average | frontend/src/components/SSHAttacksTrend.js:88-89 | the average shown is 0 without data, and otherwise the sum's mean rounded to the nearest integer |
| AttackTrend.PeakBounds | frontend/src/components/SSHAttacksTrend.js:90 | the peak shown is non-negative and at least every count, and comes from the `{ attacks: 0 }` seed exactly when no count is positive |
| AttackTrend.PeakIsFirstMaximum | frontend/src/components/SSHAttacksTrend.js:90 | a positive peak is the first day that reaches the largest count |
| AttackTrend.FirstMaximumKept | frontend/src/components/SSHAttacksTrend.js:90 | a later day with an equal count does not displace the first maximum, since the test is strict |
| AttackTrend.TotalAtLeastPeak | frontend/src/components/SSHAttacksTrend.js:88-90 | for non-negative counts, the total is non-negative and at least the peak |
| AttackTrend.ScaleIsRaisedPeak | frontend/src/components/SSHAttacksTrend.js:28-32 | with data, the chart scale is the peak shown raised to at least 10 (the peak at line 90) |
| AttackTrend.LastBarUnlabelledAsWritten | frontend/src/components/SSHAttacksTrend.js:137-139 | with more than 30 days the label test compares against the full length, so the last bar shown (index 29) carries no date |
| AttackTrend.LabelsAgreeUpTo30 | frontend/src/components/SSHAttacksTrend.js:137-139 | up to 30 days the test as written and the corrected one label the same bars |
| AttackTrend.LabelsSpread | frontend/src/components/SSHAttacksTrend.js:137-139 | with the corrected test the last bar is labelled, and every bar has a labelled bar at most four places to its right |
| AttackTrend.ChartSettle | frontend/src/components/SSHAttacksTrend.js:14-26 | a settled fetch ends loading; the error is cleared exactly by an `ok` body; a failure keeps the days |
| AttackTrend.ChartRunSnoc | frontend/src/components/SSHAttacksTrend.js:14-26 | running a sequence of fetches and then one more equals settling that last fetch on the result |
| AttackTrend.ChartShowsLastLoad | frontend/src/components/SSHAttacksTrend.js:4-26 | after any fetches the chart holds the days of the last `ok` body (or none), is loading only before the first fetch settles, and has an error exactly when the last fetch failed |
| AttackTrend.Bars | frontend/src/components/SSHAttacksTrend.js:118-122 | one bar for each of the last 30 days, in order, coloured by its count, as high as `getBarHeight` makes that count against the scale of all the data, and between 2 and 100 percent |
| AttackTrend.ChartViewOf | frontend/src/components/SSHAttacksTrend.js:63-90 | the placeholder shows iff loading; the error, with its message, iff not loading and the message is non-empty; otherwise the chart shows the total, average and peak of all the data and the bars of the last 30 days, with one label slot per bar carrying a date exactly where the test as written at line 139 says |
| AttackTrend.ChartLabelsIntendedUpTo30 | frontend/src/components/SSHAttacksTrend.js:137-139 | with at most 30 days of data the card dates exactly the bars the corrected test would |
| AttackTrend.ChartLastBarUnlabelled | frontend/src/components/SSHAttacksTrend.js:137-139 | with more than 30 days of data the card shows 30 bars and the most recent one has no date |
| AttackTrend.SimpleStart | frontend/src/components/SSHAttacksTrendSimple.js:11 | every fetch of the simple card sets loading and keeps the data and the error |
| AttackTrend.SimpleSettle | frontend/src/components/SSHAttacksTrendSimple.js:14-22 | a settled fetch ends loading; a body replaces the data and clears the error; a failure keeps the data and records its message |
| AttackTrend.SimpleToneCoarsensBarColor | frontend/src/components/SSHAttacksTrendSimple.js:109-110 | the simple list's three colours merge the chart's five (`getBarColor`): no attacks, 1-99 and 100 or more fall on the same side in both cards, though 1-9 is green in the chart and yellow in the list |
| AttackTrend.TodayOfIso | frontend/src/components/SSHAttacksTrendSimple.js:108 | a row is today's exactly when its date equals the date part of the current ISO time |
| AttackTrend.RoundReal | frontend/src/components/SSHAttacksTrendSimple.js:92 | `Math.round` of the summary's average is the integer within half of it, a half rounded up |
| AttackTrend.NewestFirst | frontend/src/components/SSHAttacksTrendSimple.js:107 | `slice(-n).reverse()` lists the last n days newest first |
| AttackTrend.WeekRows | frontend/src/components/SSHAttacksTrendSimple.js:107-110 | the list shows at most seven rows, the k-th being the k-th most recent day, marked as today iff its date is today's, and toned by its count |
| AttackTrend.SimpleViewOf | frontend/src/components/SSHAttacksTrendSimple.js:31-72 | the spinner shows iff loading; the error, with its message, iff not loading and the message is non-empty; the no-data panel iff neither and the body or its `daily_attacks` is missing; otherwise the summary, its rounded average and the week's rows |
| AttackTrend.RefreshHidesList | frontend/src/components/SSHAttacksTrendSimple.js:11-31 | every refresh of the simple card replaces the list by the spinner until it settles |
| AttackTrend.SimpleFailureShowsError | frontend/src/components/SSHAttacksTrendSimple.js:11-46 | a failed refresh with a message shows the error, whatever was shown before |
| Fail2banStats.ToggleExpands | frontend/src/components/Fail2banStats.js:29-31 | after a click the clicked jail is expanded iff it was not before, and every other jail is collapsed |
| Fail2banStats.ExpandedIsLastClicked | frontend/src/components/Fail2banStats.js:29-31 | after any clicks the expanded jail, if any, is the last one clicked |
| Fail2banStats.ToggleTwice | frontend/src/components/Fail2banStats.js:29-31 | clicking the same jail twice restores the state when it or nothing was expanded |
| Fail2banStats.ColoursMonotone | frontend/src/components/Fail2banStats.js:33-43 | for counts, both colourings grow more alarming with the count, and a ban count is never more alarming than a failure count |
| Fail2banStats.CalmExactlyAtZero | frontend/src/components/Fail2banStats.js:33-43 | in both colourings a count is calm iff it is zero |
| Fail2banStats.BannedList | frontend/src/components/Fail2banStats.js:162-176 | the list is absent iff the jail has no banned addresses; otherwise it shows the first at most 20 in order, and the '... y N más' count appears iff there are more, the shown and the remaining adding up to the total |
| Fail2banStats.GeoPanel | frontend/src/components/Fail2banStats.js:188-193 | the geolocated panel is absent iff `banned_ips_geo` is missing or empty; otherwise it lists the first at most ten entries in order |
| Fail2banStats.Settle | frontend/src/components/Fail2banStats.js:15-27 | a settled fetch ends loading and leaves the expanded jail alone; the error is cleared exactly by a body, which is stored as it is, `null` included; a failure keeps the statistics and records its message |
| Fail2banStats.Card | frontend/src/components/Fail2banStats.js:113-160 | a jail's card carries its name and its current ban and failure counts coloured by their rules, and shows details (the same colours, the totals and the banned-address list) iff that jail is the expanded one |
| Fail2banStats.ViewOf | frontend/src/components/Fail2banStats.js:45-193 | the placeholder shows iff loading; the error, with its message, iff not loading and the message is non-empty; the panel iff neither and statistics are held; the panel shows the jail count, 'active' iff there are jails, the total banned and failed counts coloured by their rules, each jail's card in order, and the top-ten panel |
| Fail2banStats.AtMostOneExpanded | frontend/src/components/Fail2banStats.js:131-137 | with distinct jail names, no two cards show details at once |
| Fail2banStats.NeverBroken | frontend/src/components/Fail2banStats.js:15-27 | as long as failures carry a message and successes carry statistics, no sequence of fetches and clicks leads to a render without statistics (the render at lines 60-85) |
| Fail2banStats.NullBodyBreaks | frontend/src/components/Fail2banStats.js:19-20 | a `null` body is stored and the card then throws reading `stats.total_jails` (line 85), whatever it showed before |
| Fail2banStats.LoadingUntilFetch | frontend/src/components/Fail2banStats.js:5-25 | the card stays loading exactly until a fetch settles; clicks do not end it |
| Fail2banStats.PulseOnlyAtFirst | frontend/src/components/Fail2banStats.js:45-58 | from the start, the placeholder shows iff every event so far was a click (loading set at lines 5 and 25) |
| Text.SplitOn | ssh_openproject_monitor.py:71 | `str.split(c)` yields at least one piece, and no piece contains the separator |
| Text.SplitJoin | ssh_openproject_monitor.py:71 | joining the pieces of `str.split(c)` with the separator gives back the input |
| Text.Fields | ssh_openproject_monitor.py:211 | `str.split()` yields non-empty fields free of whitespace (also lines 288 and 319) |
| Text.FieldsOfJoin | ssh_openproject_monitor.py:211 | `str.split()` of non-empty space-free words joined by single spaces gives back the words (also lines 288 and 319) |
| Text.Strip | ssh_openproject_monitor.py:72 | `str.strip()` is empty iff the text is blank, and otherwise begins and ends with a non-space (also lines 57 and 391) |
| Text.RSplitOnce | ssh_openproject_monitor.py:217 | `rsplit(':', 1)` unpacked into two names fails iff there is no colon; otherwise both parts rejoined by the colon give the input, and the right part has no colon (also lines 247 and 294) |
| Text.ParseIntToString | ssh_openproject_monitor.py:394 | `int()` reads back the decimal text of every integer (also lines 484 and 539) |
| Text.ParseFloatOfNat | frontend/src/components/ServerStatusSection.js:234 | `parseFloat` of a natural's digits followed by a non-numeric suffix such as '%' is that number |
| Text.ToLower | frontend-react/src/components/SecurityAlerts.jsx:25-38 | lowering keeps the length and changes exactly the letters A-Z into a-z |
| Text.Search | ssh_openproject_monitor.py:78 | `re.search(prefix + '(CLASS+)' + suffix)` finds nothing iff no position matches, and otherwise captures the whole class run of the leftmost match (also lines 97, 137-143, 440 and 532) |
| Text.SearchFindsFirstGroup | ssh_openproject_monitor.py:78 | whenever the leftmost match with a whole class run exists, that run is what the search returns (also lines 97, 137-143, 440 and 532) |
| Text.SearchFindsSome | ssh_openproject_monitor.py:78 | the search finds a group iff the pattern matches somewhere in the line (also lines 97, 137-143, 440 and 532) |
| Text.SearchQuad | ssh_openproject_monitor.py:74 | `re.search(r'from (\d+\.\d+\.\d+\.\d+)')` finds nothing iff no `from ` is followed by a dotted quad, and otherwise captures the dotted quad of the leftmost match with its last group taken whole (also lines 94 and 441) |
| Text.SearchQuadFindsFirst | ssh_openproject_monitor.py:74 | whenever the leftmost `from ` followed by a whole dotted quad exists, that quad is what the search returns (also lines 94 and 441) |
| Text.SearchQuadFindsSome | ssh_openproject_monitor.py:74 | the address search finds a quad iff a dotted quad follows the prefix somewhere in the line (also lines 94 and 441) |
| OrderedMap.Put | ssh_openproject_monitor.py:409 | assigning a key keeps every existing key in place, grows the map only for a new key, and adds the new key last |
| OrderedMap.PutGet | ssh_openproject_monitor.py:409 | after assigning a key, looking it up gives the new value and every other lookup is unchanged (also lines 169 and 561) |
| OrderedMap.IndexLastWins | ssh_openproject_monitor.py:570 | indexing a list by key maps a key to a value iff that value is the last element with that key |
| OrderedMap.UniqueKeysPermutation | frontend-react/src/components/SecurityAlerts.jsx:20-22 | reordering the entries of an object with distinct keys, as sorting `Object.entries` does, keeps the keys distinct |
| Sorting.SortDescCorrect | frontend-react/src/components/SecurityAlerts.jsx:21 | the descending sort orders by key and is a permutation of its input |
| Sorting.SortDescStable | frontend-react/src/components/SecurityAlerts.jsx:21 | like the stable `Array.prototype.sort`, elements with equal keys keep their relative order |
| Sorting.TopOfSort | frontend-react/src/components/SecurityAlerts.jsx:21-22 | a prefix of the sorted list is sorted and holds only input elements |

## Left out

- ServerStatus.RealViewOf: `x.length > 0` is modelled for arrays, strings and objects whose `length` is a number or `true`; an object whose `length` is a numeric string or another value JavaScript converts to a positive number is taken as not positive.
- Command execution, file reads and the network are not modelled: `run_command`, the trusted-address file, the GeoIP reader and `socket.gethostbyname` become parameters, and the HTTP requests of the frontends become outcomes.
- The `tail -100` / `--since` limits are applied by the shell commands and are not modelled; the parsers take whatever output they are given.
- Python's regular expressions are modelled as leftmost "literal followed by a maximal run of a character class" searches. `\w` and `\d` are their ASCII subsets, and whitespace is a subset of ASCII whitespace (space, tab, line feed, carriage return, vertical tab, form feed; not the separators `\x1c`-`\x1f`), whereas Python 3 also matches other Unicode letters, digits and spaces.
- Text.ParseInt: reads an optional sign followed by ASCII digits. Python's `int()` also skips surrounding whitespace (every call site passes an already stripped cell or a regex group of digits) and accepts `_` between digits and non-ASCII Unicode digits, which the model rejects.
- SshLog.ParseSshLog: the timestamp and raw-line fields of each entry are not modelled; no rule reads them.
- Monitor.BannedIps: the `\b` word boundaries of the banned-address pattern are modelled as whole whitespace-separated tokens, so an address glued to punctuation is not recognised.
- Text.ToLower: only A-Z are lowered; JavaScript's `toLowerCase` also lowers other Unicode letters.
- Flask routing, JSON serialisation and logging are not modelled; the API functions are modelled as the values they return.
- The map (folium on the backend, the Leaflet map components on the frontends) is rendering with floating-point coordinates and third-party HTML.
- Dates are integer milliseconds; date parsing, `formatDate`, `toLocaleString` and the locale formatting of numbers are left out.
- Floating point: `Math.round` is modelled on exact rationals, `parseFloat` reads an optional sign and digits with an optional fraction (no exponent, `Infinity` or leading `.`), and the 0.8 intrusion rule is modelled exactly as `5 * active > 4 * registered`.
- Timers are not modelled as time: the 30000, 60000, 120000, 300000 and 900000 ms intervals and the 500 ms update delay appear only as events and as arithmetic about which ticks coincide.
- Concurrency: completions of `Promise.all` sub-requests are modelled as whole outcomes; interleavings are covered only by the lemma that the dashboard's independent completions commute.
- Error message texts are kept as opaque strings; JSON numbers are integers except where a float is read.
- The simple trend card crashes when a body has `daily_attacks` but no `summary`; the model takes the summary as present.
- The mock data of `ServerStatusSection.js` (lines 93-123) and `HistoricalAttacks.js` are hard-coded values, not logic.
- Presentation-only components (headers, footers, theme toggles, quick stats, the legacy SSH and OpenProject sections) and configuration files are not modelled.

## Findings

| source | as written | input that shows it | evidently intended | confidence | as-written member | corrected member |
|---|---|---|---|---|---|---|
| frontend/src/components/SSHAttacksTrend.js:139 | a date label is drawn when `index % 5 === 0 \|\| index === attacksData.length - 1`, where `index` counts the last 30 days but the length is that of all the data | 31 or more days of data: the last bar drawn has index 29, which is neither a multiple of 5 nor `length - 1`, so the most recent day carries no date | the last bar drawn is labelled, comparing against the number of bars shown | not executed | AttackTrend.LastBarUnlabelledAsWritten | AttackTrend.LabelsSpread |


=== FILE: attack_trend.dfy ===
/** The two SSH attack-trend cards of the legacy frontend: the bar chart of the
    last 30 days (scale, bar colours and heights, total, average and peak, date
    labels) and the simple list of the last seven days, newest first. */
module AttackTrend {
  import opened Prelude
  import opened Text

  /** One entry of `daily_attacks`. */
  datatype Day = Day(date: string, attacks: int)

  function Attacks(d: Day): int {
    d.attacks
  }

  // ---------------------------------------------------------------------------
  // The chart's scale

  /** The largest daily count. */
  function MaxOf(days: seq<Day>): (m: int)
    requires |days| > 0
    ensures forall i :: 0 <= i < |days| ==> days[i].attacks <= m
    ensures exists i :: 0 <= i < |days| && days[i].attacks == m
  {
    if |days| == 1 then days[0].attacks
    else
      var r := MaxOf(days[1..]);
      assert forall i :: 1 <= i < |days| ==> days[i] == days[1..][i - 1];
      if days[0].attacks > r then days[0].attacks else r
  }

  /** `getMaxAttacks`: 100 without data, otherwise the largest count but never
      below 10. It bounds every day, and it is either the floor of 10 or some
      day's count. */
  function MaxAttacks(days: seq<Day>): (m: int)
    ensures m >= 10
    ensures |days| == 0 ==> m == 100
    ensures forall i :: 0 <= i < |days| ==> days[i].attacks <= m
    ensures |days| > 0 ==> m == 10 || exists i :: 0 <= i < |days| && days[i].attacks == m
  {
    if |days| == 0 then 100
    else
      var top := MaxOf(days);
      if top > 10 then top else 10
  }

  // ---------------------------------------------------------------------------
  // Bar colours and the legend

  /** The bar colours, from no attacks to the heaviest days. */
  datatype BarTone = Gray | Green | Yellow | Orange | Red

  /** `getBarColor`. */
  function BarColor(attacks: int): BarTone {
    if attacks == 0 then Gray
    else if attacks < 10 then Green
    else if attacks < 100 then Yellow
    else if attacks < 1000 then Orange
    else Red
  }

  /** A legend entry: a colour and the range of counts it is labelled with
      (`high` is absent for the open range '1000+'). */
  datatype LegendEntry = LegendEntry(tone: BarTone, low: int, high: Option<int>)

  /** The legend under the chart: 'Sin ataques', '1-9', '10-99', '100-999', '1000+'. */
  const Legend: seq<LegendEntry> := [
    LegendEntry(Gray, 0, Some(0)),
    LegendEntry(Green, 1, Some(9)),
    LegendEntry(Yellow, 10, Some(99)),
    LegendEntry(Orange, 100, Some(999)),
    LegendEntry(Red, 1000, None)]

  predicate InRange(e: LegendEntry, n: int) {
    e.low <= n && (e.high.None? || n <= e.high.value)
  }

  /** Every possible count falls in exactly one legend range, and its bar has
      that range's colour. */
  lemma BarColorMatchesLegend(n: int)
    requires n >= 0
    ensures exists k :: 0 <= k < |Legend| && InRange(Legend[k], n)
    ensures forall k, l :: 0 <= k < l < |Legend| ==> !(InRange(Legend[k], n) && InRange(Legend[l], n))
    ensures forall k :: 0 <= k < |Legend| && InRange(Legend[k], n) ==> Legend[k].tone == BarColor(n)
  {
    var k := if n == 0 then 0 else if n < 10 then 1 else if n < 100 then 2 else if n < 1000 then 3 else 4;
    assert InRange(Legend[k], n);
  }

  /** A negative count, which the legend does not cover, is drawn green. */
  lemma NegativeCountIsGreen(n: int)
    requires n < 0
    ensures BarColor(n) == Green
    ensures forall k :: 0 <= k < |Legend| ==> !InRange(Legend[k], n)
  {
  }

  // ---------------------------------------------------------------------------
  // Bar heights

  /** `getBarHeight`: the count as a percentage of the scale, at least 2%. */
  function BarHeight(attacks: int, scale: int): real
    requires scale > 0
  {
    var percentage := (attacks as real / scale as real) * 100.0;
    if percentage > 2.0 then percentage else 2.0
  }

  /** A count between zero and the scale is at most 100% of it. */
  lemma PercentageAtMost100(a: int, m: int)
    requires 0 < m && a <= m
    ensures (a as real / m as real) * 100.0 <= 100.0
  {
    var x, y := a as real, m as real;
    assert x / y * y == x;
  }

  /** Every bar of the data is drawn between 2% and 100% of the chart. */
  lemma BarHeightBounds(days: seq<Day>, i: nat)
    requires i < |days|
    ensures 2.0 <= BarHeight(days[i].attacks, MaxAttacks(days)) <= 100.0
  {
    PercentageAtMost100(days[i].attacks, MaxAttacks(days));
  }

  /** More attacks never give a lower bar. */
  lemma BarHeightMonotone(a: int, b: int, scale: int)
    requires scale > 0 && a <= b
    ensures BarHeight(a, scale) <= BarHeight(b, scale)
  {
    var x, y, m := a as real, b as real, scale as real;
    var r := 1.0 / m;
    assert r * m == 1.0;
    assert r > 0.0;
    assert x / m == x * r && y / m == y * r;
    assert y * r - x * r == (y - x) * r;
    assert (y - x) * r >= 0.0;
  }

  /** When some day has at least ten attacks, the busiest day fills the chart. */
  lemma BusiestDayFillsChart(days: seq<Day>, i: nat)
    requires i < |days| && days[i].attacks >= 10
    requires forall j :: 0 <= j < |days| ==> days[j].attacks <= days[i].attacks
    ensures BarHeight(days[i].attacks, MaxAttacks(days)) == 100.0
  {
    var m := MaxAttacks(days);
    assert m == days[i].attacks;
    var x := m as real;
    assert x / x == 1.0;
  }

  // ---------------------------------------------------------------------------
  // Total, average and peak

  /** `attacksData.reduce((sum, day) => sum + day.attacks, 0)`. */
  function Total(days: seq<Day>): int {
    SumOf(days, Attacks)
  }

  /** `Math.round(total / n)`: the integer nearest the mean, halves rounded up. */
  function RoundedMean(total: int, n: nat): (r: int)
    requires n > 0
    ensures 2 * n * r - n <= 2 * total < 2 * n * r + n
  {
    var q := (2 * total + n) / (2 * n);
    assert 2 * total + n == 2 * n * q + (2 * total + n) % (2 * n);
    q
  }

  /** The average shown: zero without data. */
  function Average(days: seq<Day>): (r: int)
    ensures |days| == 0 ==> r == 0
    ensures |days| > 0 ==> 2 * |days| * r - |days| <= 2 * Total(days) < 2 * |days| * r + |days|
  {
    if |days| > 0 then RoundedMean(Total(days), |days|) else 0
  }

  /** The peak record of `reduce((max, day) => day.attacks > max.attacks ? day : max,
      { attacks: 0 })`; `None` is the starting record `{ attacks: 0 }`. */
  function Peak(days: seq<Day>): Option<Day>
  {
    if |days| == 0 then None
    else
      var p := Peak(days[..|days| - 1]);
      var d := days[|days| - 1];
      if d.attacks > PeakValue(p) then Some(d) else p
  }

  /** The peak count shown. */
  function PeakValue(p: Option<Day>): int {
    match p
    case Some(d) => d.attacks
    case None => 0
  }

  /** Day `i` has the most attacks, and every earlier day strictly fewer. */
  predicate FirstMaximum(days: seq<Day>, i: int) {
    && 0 <= i < |days|
    && (forall j :: 0 <= j < |days| ==> days[j].attacks <= days[i].attacks)
    && (forall j :: 0 <= j < i ==> days[j].attacks < days[i].attacks)
  }

  /** The peak count bounds every day and is never negative; it stays the
      starting record exactly when no day has a positive count. */
  lemma {:induction false} PeakBounds(days: seq<Day>)
    ensures PeakValue(Peak(days)) >= 0
    ensures forall j :: 0 <= j < |days| ==> days[j].attacks <= PeakValue(Peak(days))
    ensures Peak(days).None? <==> forall j :: 0 <= j < |days| ==> days[j].attacks <= 0
  {
    if |days| > 0 {
      var n := |days| - 1;
      var init := days[..n];
      PeakBounds(init);
      assert forall j :: 0 <= j < n ==> days[j] == init[j];
    }
  }

  /** The peak is the first day with the most attacks when that is positive,
      and the zero record when no day has any. */
  lemma {:induction false} PeakIsFirstMaximum(days: seq<Day>)
    ensures PeakValue(Peak(days)) >= 0
    ensures forall j :: 0 <= j < |days| ==> days[j].attacks <= PeakValue(Peak(days))
    ensures Peak(days).None? <==> forall j :: 0 <= j < |days| ==> days[j].attacks <= 0
    ensures Peak(days).Some? ==> exists i :: FirstMaximum(days, i) && days[i] == Peak(days).value && days[i].attacks > 0
  {
    PeakBounds(days);
    if |days| > 0 {
      var n := |days| - 1;
      var init, d := days[..n], days[n];
      PeakIsFirstMaximum(init);
      var p := Peak(init);
      if d.attacks > PeakValue(p) {
        assert forall j :: 0 <= j < n ==> days[j] == init[j];
        assert FirstMaximum(days, n);
      } else if p.Some? {
        var i :| FirstMaximum(init, i) && init[i] == p.value && init[i].attacks > 0;
        FirstMaximumKept(days, i);
      }
    }
  }

  /** A first maximum of all but the last day stays one when the last day has no more. */
  lemma FirstMaximumKept(days: seq<Day>, i: nat)
    requires |days| > 0 && FirstMaximum(days[..|days| - 1], i)
    requires days[|days| - 1].attacks <= days[i].attacks
    ensures FirstMaximum(days, i)
  {
    var init := days[..|days| - 1];
    assert forall j :: 0 <= j < |init| ==> days[j] == init[j];
  }

  /** With every count non-negative the total is at least the peak. */
  lemma {:induction false} TotalAtLeastPeak(days: seq<Day>)
    requires forall j :: 0 <= j < |days| ==> days[j].attacks >= 0
    ensures Total(days) >= PeakValue(Peak(days))
    ensures Total(days) >= 0
  {
    if |days| > 0 {
      var n := |days| - 1;
      var init, d := days[..n], days[n];
      assert days == init + [d];
      SumOfAppend(init, [d], Attacks);
      TotalAtLeastPeak(init);
    }
  }

  /** The scale and the peak agree: with data, the scale is the peak raised to at
      least ten. */
  lemma ScaleIsRaisedPeak(days: seq<Day>)
    requires |days| > 0
    ensures MaxAttacks(days) == if PeakValue(Peak(days)) > 10 then PeakValue(Peak(days)) else 10
  {
    PeakIsFirstMaximum(days);
    var m := MaxAttacks(days);
    var p := PeakValue(Peak(days));
    if Peak(days).Some? {
      var i :| FirstMaximum(days, i) && days[i] == Peak(days).value && days[i].attacks > 0;
      assert m >= p;
    }
  }

  // ---------------------------------------------------------------------------
  // Date labels

  /** The date-label test as written: `index` counts within the last 30 days but
      is compared with the length of all the data. */
  predicate LabelledAsWritten(index: nat, dataLength: nat) {
    index % 5 == 0 || index == dataLength - 1
  }

  /** The test as intended: every fifth bar and the last bar shown. */
  predicate Labelled(index: nat, shown: nat) {
    index % 5 == 0 || index == shown - 1
  }

  /** With more than 30 days of data the last bar shown gets no date, though
      the intended test labels it. */
  lemma LastBarUnlabelledAsWritten(days: seq<Day>)
    requires |days| > 30
    ensures var shown := |LastN(days, 30)|;
      shown == 30 && !LabelledAsWritten(shown - 1, |days|) && Labelled(shown - 1, shown)
  {
  }

  /** Up to 30 days of data the written test and the intended one agree. */
  lemma LabelsAgreeUpTo30(days: seq<Day>, index: nat)
    requires |days| <= 30
    ensures LabelledAsWritten(index, |days|) == Labelled(index, |LastN(days, 30)|)
  {
  }

  /** The intended labels: the last bar carries a date, and among any five
      consecutive bars one does. */
  lemma LabelsSpread(shown: nat, i: nat)
    requires i < shown
    ensures Labelled(shown - 1, shown)
    ensures exists j :: i <= j < i + 5 && j < shown && Labelled(j, shown)
  {
    var j := i + (5 - i % 5) % 5;
    if j < shown {
      assert j % 5 == 0;
      assert i <= j < i + 5 && Labelled(j, shown);
    } else {
      assert i <= shown - 1 < i + 5 && Labelled(shown - 1, shown);
    }
  }

  // ---------------------------------------------------------------------------
  // The chart card's state and view

  /** How one `fetchAttacksData` ends: an `ok` response with its `daily_attacks`
      (absent when missing or `null`), a non-`ok` response, or any other thrown
      error with its message. */
  datatype Outcome = Loaded(daily: Option<seq<Day>>) | NotOk | Thrown(message: string)

  /** The message thrown for a non-`ok` response. */
  const NotOkMessage := "Error al obtener datos"

  datatype ChartState = ChartState(days: seq<Day>, loading: bool, error: Option<string>)

  function ChartInitial(): ChartState {
    ChartState([], true, None)
  }

  /** One settled fetch: a body replaces the data and clears the error; a
      failure records its message and keeps the data; `loading` ends false.
      Nothing sets `loading` again, so later refreshes happen in place. */
  function ChartSettle(s: ChartState, o: Outcome): (r: ChartState)
    ensures !r.loading
    ensures r.error.None? <==> o.Loaded?
    ensures !o.Loaded? ==> r.days == s.days
  {
    match o
    case Loaded(daily) => ChartState(daily.GetOr([]), false, None)
    case NotOk => ChartState(s.days, false, Some(NotOkMessage))
    case Thrown(m) => ChartState(s.days, false, Some(m))
  }

  function ChartRun(s: ChartState, os: seq<Outcome>): ChartState
    decreases |os|
  {
    if |os| == 0 then s else ChartRun(ChartSettle(s, os[0]), os[1..])
  }

  /** The days of the most recent loaded body, if any. */
  function LastLoaded(os: seq<Outcome>): Option<seq<Day>> {
    if |os| == 0 then None
    else if os[|os| - 1].Loaded? then Some(os[|os| - 1].daily.GetOr([]))
    else LastLoaded(os[..|os| - 1])
  }

  /** Running settle by settle ends where settling the last outcome does. */
  lemma {:induction false} ChartRunSnoc(s: ChartState, os: seq<Outcome>, o: Outcome)
    ensures ChartRun(s, os + [o]) == ChartSettle(ChartRun(s, os), o)
    decreases |os|
  {
    if |os| > 0 {
      assert (os + [o])[1..] == os[1..] + [o];
      ChartRunSnoc(ChartSettle(s, os[0]), os[1..], o);
    } else {
      assert ChartRun(ChartSettle(s, o), []) == ChartSettle(s, o);
    }
  }

  /** After any refreshes the chart holds the days of the last loaded body (or
      the initial empty list), carries an error exactly when the last refresh
      failed, and is loading only before the first one settles. */
  lemma {:induction false} ChartShowsLastLoad(os: seq<Outcome>)
    ensures ChartRun(ChartInitial(), os).days == LastLoaded(os).GetOr([])
    ensures ChartRun(ChartInitial(), os).loading <==> |os| == 0
    ensures |os| > 0 ==> (ChartRun(ChartInitial(), os).error.None? <==> os[|os| - 1].Loaded?)
    decreases |os|
  {
    if |os| > 0 {
      var init := os[..|os| - 1];
      assert os == init + [os[|os| - 1]];
      ChartRunSnoc(ChartInitial(), init, os[|os| - 1]);
      ChartShowsLastLoad(init);
    }
  }

  /** One bar: its colour and its height in percent. */
  datatype Bar = Bar(tone: BarTone, height: real)

  datatype ChartView =
    | Pulse
    | ErrorPanel(message: string)
    | Chart(total: int, average: int, peak: int, bars: seq<Bar>, labels: seq<bool>)

  /** The bars of the last 30 days, scaled against all the data. */
  function Bars(days: seq<Day>): (bars: seq<Bar>)
    ensures |bars| == |LastN(days, 30)|
    ensures forall k :: 0 <= k < |bars| ==> bars[k].tone == BarColor(LastN(days, 30)[k].attacks)
    ensures forall k :: 0 <= k < |bars| ==> bars[k].height == BarHeight(LastN(days, 30)[k].attacks, MaxAttacks(days))
    ensures forall k :: 0 <= k < |bars| ==> 2.0 <= bars[k].height <= 100.0
  {
    var shown := LastN(days, 30);
    var scale := MaxAttacks(days);
    var bars := seq(|shown|, k requires 0 <= k < |shown| => Bar(BarColor(shown[k].attacks), BarHeight(shown[k].attacks, scale)));
    assert forall k :: 0 <= k < |shown| ==> 2.0 <= bars[k].height <= 100.0 by {
      forall k | 0 <= k < |shown| ensures 2.0 <= bars[k].height <= 100.0 {
        BarHeightBounds(days, |days| - |shown| + k);
      }
    }
    bars
  }

  /** The card: the placeholder while loading, the error when its message is
      non-empty, otherwise the statistics and the last 30 days, scaled against
      all the data and labelled with the test as written. */
  function ChartViewOf(s: ChartState): (v: ChartView)
    ensures v.Pulse? <==> s.loading
    ensures v.ErrorPanel? <==> !s.loading && s.error.Some? && |s.error.value| > 0
    ensures v.ErrorPanel? ==> v.message == s.error.value
    ensures v.Chart? ==> v.bars == Bars(s.days)
    ensures v.Chart? ==> v.total == Total(s.days) && v.average == Average(s.days) && v.peak == PeakValue(Peak(s.days))
    ensures v.Chart? ==> |v.bars| == |v.labels| == |LastN(s.days, 30)|
    ensures v.Chart? ==> forall k :: 0 <= k < |v.labels| ==> (v.labels[k] <==> LabelledAsWritten(k, |s.days|))
  {
    if s.loading then Pulse
    else if s.error.Some? && |s.error.value| > 0 then ErrorPanel(s.error.value)
    else ChartOf(s.days)
  }

  /** The statistics and the bars of the days, labelled with the test as written. */
  function ChartOf(days: seq<Day>): (v: ChartView)
    ensures v.Chart? && v.bars == Bars(days)
    ensures v.total == Total(days) && v.average == Average(days) && v.peak == PeakValue(Peak(days))
    ensures |v.labels| == |v.bars| && forall k :: 0 <= k < |v.labels| ==> (v.labels[k] <==> LabelledAsWritten(k, |days|))
  {
    var bars := Bars(days);
    Chart(Total(days), Average(days), PeakValue(Peak(days)), bars,
      seq(|bars|, k requires 0 <= k < |bars| => LabelledAsWritten(k, |days|)))
  }

  /** Up to 30 days of data the card labels exactly the bars the intended test does. */
  lemma ChartLabelsIntendedUpTo30(s: ChartState, k: nat)
    requires |s.days| <= 30 && k < |s.days|
    ensures var v := ChartViewOf(s);
      v.Chart? ==> k < |v.labels| && (v.labels[k] <==> Labelled(k, |v.bars|))
  {
    LabelsAgreeUpTo30(s.days, k);
  }

  /** With more than 30 days of data the card leaves the most recent bar without a date. */
  lemma ChartLastBarUnlabelled(s: ChartState)
    requires |s.days| > 30
    ensures var v := ChartViewOf(s); v.Chart? ==> |v.labels| == 30 && !v.labels[29]
  {
    LastBarUnlabelledAsWritten(s.days);
  }

  // ---------------------------------------------------------------------------
  // The simple card

  /** The `summary` of the trend body. */
  datatype TrendSummary = TrendSummary(daysAnalyzed: int, totalAttacks: int, averageDaily: real, peakAttacks: int)

  /** The parsed body; `daily` is absent when `daily_attacks` is missing or `null`. */
  datatype TrendBody = TrendBody(daily: Option<seq<Day>>, summary: TrendSummary)

  /** `data`: absent before the first success and when the body is `null`. */
  datatype SimpleState = SimpleState(data: Option<TrendBody>, loading: bool, error: Option<string>)

  function SimpleInitial(): SimpleState {
    SimpleState(None, true, None)
  }

  /** How one `fetchData` ends. The non-`ok` message is 'Error en la API'. */
  datatype SimpleOutcome = Got(body: Option<TrendBody>) | Failed(message: string)

  /** `fetchData` sets `loading` before every request, the initial one and each
      refresh alike. */
  function SimpleStart(s: SimpleState): (r: SimpleState)
    ensures r.loading && r.data == s.data && r.error == s.error
  {
    s.(loading := true)
  }

  /** The request settles: a body replaces the data and clears the error, a
      failure records its message; `loading` ends false. */
  function SimpleSettle(s: SimpleState, o: SimpleOutcome): (r: SimpleState)
    ensures !r.loading
    ensures o.Got? ==> r.data == o.body && r.error.None?
    ensures o.Failed? ==> r.data == s.data && r.error == Some(o.message)
  {
    match o
    case Got(b) => SimpleState(b, false, None)
    case Failed(m) => SimpleState(s.data, false, Some(m))
  }

  /** The colour of a day's count in the list. */
  datatype CountTone = CountGreen | CountYellow | CountRed

  function SimpleTone(attacks: int): CountTone {
    if attacks == 0 then CountGreen else if attacks < 100 then CountYellow else CountRed
  }

  /** The chart's five colours folded into the list's three. */
  function Coarsen(t: BarTone): CountTone {
    match t
    case Gray => CountGreen
    case Green => CountYellow
    case Yellow => CountYellow
    case Orange => CountRed
    case Red => CountRed
  }

  /** The list's colours are the chart's, coarsened: the two cards never
      disagree about which side of 0 and 100 a count is on. */
  lemma SimpleToneCoarsensBarColor(n: int)
    ensures SimpleTone(n) == Coarsen(BarColor(n))
  {
  }

  /** `new Date().toISOString().split('T')[0]`: the date part of the current
      timestamp. */
  function TodayOf(nowIso: string): string {
    FirstPiece(nowIso, 'T')
  }

  /** A date is today exactly when it is the timestamp's date part. */
  lemma TodayOfIso(date: string, day: string, time: string)
    requires 'T' !in day
    ensures date == TodayOf(day + "T" + time) <==> date == day
  {
    var s := day + "T" + time;
    var r := TodayOf(s);
    assert s[|day|] == 'T';
    assert s[..|day|] == day;
    assert |r| == |day|;
  }

  /** One line of the list. */
  datatype Row = Row(day: Day, isToday: bool, tone: CountTone)

  datatype SimpleView =
    | Spinner
    | SimpleError(message: string)
    | NoData
    | Rows(summary: TrendSummary, roundedAverage: int, rows: seq<Row>)

  /** `Math.round` of a real: the nearest integer, halves rounded up. */
  function RoundReal(x: real): (r: int)
    ensures r as real - 0.5 <= x < r as real + 0.5
  {
    (x + 0.5).Floor
  }

  /** The last `n` elements reversed are the elements counted back from the
      end. */
  lemma NewestFirst<T>(s: seq<T>, n: nat)
    requires n > 0
    ensures forall k :: 0 <= k < |Reverse(LastN(s, n))| ==> Reverse(LastN(s, n))[k] == s[|s| - 1 - k]
  {
    var last := LastN(s, n);
    var r := Reverse(last);
    forall k | 0 <= k < |r| ensures r[k] == s[|s| - 1 - k] {
      var j := |last| - 1 - k;
      assert r[k] == last[j];
      assert last[j] == s[|s| - |last| + j];
    }
  }

  /** The list: the last seven days, newest first. */
  function WeekRows(daily: seq<Day>, nowIso: string): (rows: seq<Row>)
    ensures |rows| == if |daily| < 7 then |daily| else 7
    ensures forall k :: 0 <= k < |rows| ==> rows[k].day == daily[|daily| - 1 - k]
    ensures forall k :: 0 <= k < |rows| ==>
      (rows[k].isToday <==> rows[k].day.date == TodayOf(nowIso)) && rows[k].tone == SimpleTone(rows[k].day.attacks)
  {
    var week := Reverse(LastN(daily, 7));
    NewestFirst(daily, 7);
    seq(|week|, k requires 0 <= k < |week| =>
      Row(week[k], week[k].date == TodayOf(nowIso), SimpleTone(week[k].attacks)))
  }

  /** The simple card. */
  function SimpleViewOf(s: SimpleState, nowIso: string): (v: SimpleView)
    ensures v.Spinner? <==> s.loading
    ensures v.SimpleError? <==> !s.loading && s.error.Some? && |s.error.value| > 0
    ensures v.SimpleError? ==> v.message == s.error.value
    ensures v.NoData? <==>
      (!s.loading && (s.error.None? || |s.error.value| == 0) && (s.data.None? || s.data.value.daily.None?))
    ensures v.Rows? ==> (
      && s.data.Some? && s.data.value.daily.Some?
      && v.summary == s.data.value.summary
      && v.roundedAverage == RoundReal(s.data.value.summary.averageDaily)
      && v.rows == WeekRows(s.data.value.daily.value, nowIso))
  {
    if s.loading then Spinner
    else if s.error.Some? && |s.error.value| > 0 then SimpleError(s.error.value)
    else if s.data.None? || s.data.value.daily.None? then NoData
    else
      var b := s.data.value;
      Rows(b.summary, RoundReal(b.summary.averageDaily), WeekRows(b.daily.value, nowIso))
  }

  /** Unlike the chart card, every refresh of the simple card hides the list
      behind the spinner until it settles. */
  lemma RefreshHidesList(s: SimpleState, nowIso: string)
    ensures SimpleViewOf(SimpleStart(s), nowIso) == Spinner
  {
  }

  /** A failed refresh with a message shows the error even when data was shown. */
  lemma SimpleFailureShowsError(s: SimpleState, m: string, nowIso: string)
    requires |m| > 0
    ensures SimpleViewOf(SimpleSettle(SimpleStart(s), Failed(m)), nowIso) == SimpleError(m)
  {
  }
}

=== FILE: consolidation.dfy ===
/** The OpenProject user list of the dashboard: every directory user is bound to
    the first live connection that names it, connections naming nobody ("ghosts")
    are dropped from the connected count, and the list is shown active users
    first, each group by most recent timestamp, with a three-way status badge. */
module Consolidation {
  import opened Prelude
  import opened Text
  import opened Sorting

  /** The JSON value of a connection's `user_id`: the backend sends the digits
      captured from a log line, but the comparison also accepts a number. */
  datatype UserKey = KNum(n: int) | KStr(s: string)

  /** A directory row: integer id, display name, last login (milliseconds). */
  datatype DirectoryUser = DirectoryUser(id: int, displayName: string, lastLogin: Option<int>)

  /** A live connection as served to the dashboard. */
  datatype Connection = Connection(
    userId: UserKey, ip: string, country: string, isTrusted: bool, lastActivity: int)

  /** `user.id.toString() === conn.user_id || user.id === conn.user_id`:
      strict equality, so a string only matches the canonical decimal form. */
  predicate Matches(id: int, key: UserKey) {
    match key
    case KStr(s) => s == IntToString(id)
    case KNum(n) => n == id
  }

  /** A key names at most one directory id, so with distinct ids at most one user. */
  lemma KeyNamesOneId(key: UserKey, a: int, b: int)
    requires Matches(a, key) && Matches(b, key)
    ensures a == b
  {
    if key.KStr? {
      IntToStringInjective(a, b);
    }
  }

  /** A string key that matches `id` is one the backend's integer parse maps back to `id`. */
  lemma StringKeyParses(s: string, id: int)
    requires Matches(id, KStr(s))
    ensures ParseInt(s) == Some(id)
  {
    ParseIntToString(id);
  }

  /** Some connection in the list names `id`. */
  predicate Named(conns: seq<Connection>, id: int) {
    exists j :: 0 <= j < |conns| && Matches(id, conns[j].userId)
  }

  /** `connections.find(...)`: the position of the first connection naming `id`. */
  function FirstMatch(conns: seq<Connection>, id: int): (r: Option<nat>)
    ensures r.Some? ==> r.value < |conns| && Matches(id, conns[r.value].userId)
    ensures r.Some? ==> forall j :: 0 <= j < r.value ==> !Matches(id, conns[j].userId)
    ensures r.None? <==> !Named(conns, id)
  {
    if |conns| == 0 then None
    else if Matches(id, conns[0].userId) then Some(0)
    else
      var t := FirstMatch(conns[1..], id);
      assert Named(conns, id) <==> Named(conns[1..], id) by {
        if Named(conns, id) {
          var j :| 0 <= j < |conns| && Matches(id, conns[j].userId);
          assert conns[1..][j - 1] == conns[j];
        }
        if Named(conns[1..], id) {
          var j :| 0 <= j < |conns| - 1 && Matches(id, conns[1..][j].userId);
          assert conns[j + 1] == conns[1..][j];
        }
      }
      match t
      case None => None
      case Some(k) =>
        assert forall j :: 1 <= j < k + 1 ==> conns[j] == conns[1..][j - 1];
        Some(k + 1)
  }

  /** A directory user together with the connection bound to it, if any. */
  datatype Entry = Entry(user: DirectoryUser, connection: Option<Connection>) {

    /** `isCurrentlyActive = !!activeConnection`. */
    predicate Active() { connection.Some? }

    /** `lastActivityDate`: the bound connection's activity, else the last login, else the epoch. */
    function LastActivity(): int {
      if connection.Some? then connection.value.lastActivity else user.lastLogin.GetOr(0)
    }
  }

  /** The `.map(user => ...)` step for one user; `conns` is `None` when
      `activeConnections` is absent, which leaves everybody inactive. */
  function Bind(user: DirectoryUser, conns: Option<seq<Connection>>): (e: Entry)
    ensures e.user == user
    ensures e.Active() <==> conns.Some? && Named(conns.value, user.id)
    ensures e.Active() ==> exists k :: 0 <= k < |conns.value| && conns.value[k] == e.connection.value
                             && Matches(user.id, conns.value[k].userId)
                             && (forall j :: 0 <= j < k ==> !Matches(user.id, conns.value[j].userId))
  {
    match conns
    case None => Entry(user, None)
    case Some(cs) =>
      match FirstMatch(cs, user.id)
      case None => Entry(user, None)
      case Some(k) => Entry(user, Some(cs[k]))
  }

  /** The mapped list: one entry per directory user, in directory order. */
  function Consolidate(users: seq<DirectoryUser>, conns: Option<seq<Connection>>): (r: seq<Entry>)
    ensures |r| == |users|
    ensures forall i :: 0 <= i < |users| ==> r[i].user == users[i]
    ensures forall i :: 0 <= i < |users| ==>
      (r[i].Active() <==> conns.Some? && Named(conns.value, users[i].id))
  {
    seq(|users|, i requires 0 <= i < |users| => Bind(users[i], conns))
  }

  /** The binding is the first match in list order: a later connection naming the
      same user never replaces an earlier one, whatever its activity time. */
  lemma BindsFirstMatch(user: DirectoryUser, conns: seq<Connection>, k: nat)
    requires k < |conns| && Matches(user.id, conns[k].userId)
    requires forall j :: 0 <= j < k ==> !Matches(user.id, conns[j].userId)
    ensures Bind(user, Some(conns)).connection == Some(conns[k])
  {
    var f := FirstMatch(conns, user.id);
    assert f.Some? by {
      assert Named(conns, user.id);
    }
    if f.value < k {
    } else if f.value > k {
    }
  }

  /** The comparator of the list's `.sort(...)`: negative puts `a` first. */
  function Compare(a: Entry, b: Entry): int {
    if a.Active() && !b.Active() then -1
    else if !a.Active() && b.Active() then 1
    else b.LastActivity() - a.LastActivity()
  }

  /** The comparator as a rank: activity first, then the timestamp. */
  function RankOf(e: Entry): Rank {
    Rank(if e.Active() then 1 else 0, e.LastActivity())
  }

  /** `a` may precede `b` under the comparator exactly when it ranks at least as high. */
  lemma CompareIsRank(a: Entry, b: Entry)
    ensures Compare(a, b) <= 0 <==> AtLeast(RankOf(a), RankOf(b))
    ensures Compare(a, b) == 0 <==> RankOf(a) == RankOf(b)
  {
  }

  /** The sorted list as rendered. */
  function UserList(users: seq<DirectoryUser>, conns: Option<seq<Connection>>): (r: seq<Entry>)
    ensures |r| == |users|
    ensures multiset(r) == multiset(Consolidate(users, conns))
    ensures forall i, j :: 0 <= i < j < |r| && r[j].Active() ==> r[i].Active()
    ensures forall i, j :: 0 <= i < j < |r| && r[i].Active() == r[j].Active() ==>
      r[i].LastActivity() >= r[j].LastActivity()
  {
    var m := Consolidate(users, conns);
    SortDescCorrect(m, RankOf);
    SortDesc(m, RankOf)
  }

  /** Entries the comparator ties keep their directory order (JavaScript's sort is stable). */
  lemma UserListStable(users: seq<DirectoryUser>, conns: Option<seq<Connection>>, k: Rank)
    ensures WithRank(UserList(users, conns), RankOf, k) == WithRank(Consolidate(users, conns), RankOf, k)
  {
    SortDescStable(Consolidate(users, conns), RankOf, k);
  }

  /** Every directory user appears in the rendered list, and nobody else does. */
  lemma {:induction false} UserListCoversDirectory(users: seq<DirectoryUser>, conns: Option<seq<Connection>>, u: DirectoryUser)
    ensures u in users <==> exists i :: 0 <= i < |users| && UserList(users, conns)[i].user == u
  {
    var m := Consolidate(users, conns);
    var r := UserList(users, conns);
    if u in users {
      var i :| 0 <= i < |users| && users[i] == u;
      assert m[i] in multiset(r);
      var j :| 0 <= j < |r| && r[j] == m[i];
    }
    if exists i :: 0 <= i < |users| && r[i].user == u {
      var i :| 0 <= i < |users| && r[i].user == u;
      assert r[i] in multiset(m);
      var j :| 0 <= j < |m| && m[j] == r[i];
      assert users[j] == u;
    }
  }

  /** Some directory user is named by the connection. */
  predicate Known(users: seq<DirectoryUser>, c: Connection) {
    exists i :: 0 <= i < |users| && Matches(users[i].id, c.userId)
  }

  function KnownBy(users: seq<DirectoryUser>): Connection -> bool {
    c => Known(users, c)
  }

  /** The connections that name a directory user, in order. */
  function Bound(users: seq<DirectoryUser>, conns: seq<Connection>): (r: seq<Connection>)
    ensures forall k :: 0 <= k < |r| ==> r[k] in conns && Known(users, r[k])
    ensures forall c :: c in conns && Known(users, c) ==> c in r
  {
    Filter(conns, KnownBy(users))
  }

  /** The "ghost" connections: those naming no directory user. */
  function Ghosts(users: seq<DirectoryUser>, conns: seq<Connection>): (r: seq<Connection>)
    ensures forall k :: 0 <= k < |r| ==> r[k] in conns && !Known(users, r[k])
    ensures forall c :: c in conns && !Known(users, c) ==> c in r
  {
    Filter(conns, c => !Known(users, c))
  }

  /** The "Total Usuarios" card: the directory size, 0 without a directory. */
  function TotalUsers(users: Option<seq<DirectoryUser>>): nat {
    if users.Some? then |users.value| else 0
  }

  /** The "Conectados" card: connections naming a directory user; 0 when either list is absent. */
  function ConnectedCount(users: Option<seq<DirectoryUser>>, conns: Option<seq<Connection>>): (n: nat)
    ensures conns.None? || users.None? ==> n == 0
    ensures conns.Some? ==> n <= |conns.value|
    ensures conns.Some? && users.Some? ==> n == |Bound(users.value, conns.value)|
  {
    if conns.Some? && users.Some? then |Bound(users.value, conns.value)| else 0
  }

  /** Ghosts are exactly what the count leaves out of the connection list. */
  lemma GhostsComplementCount(users: seq<DirectoryUser>, conns: seq<Connection>)
    ensures ConnectedCount(Some(users), Some(conns)) + |Ghosts(users, conns)| == |conns|
  {
    FilterPartition(conns, KnownBy(users), c => !Known(users, c));
  }

  /** Without ghosts the count is the whole connection list. */
  lemma NoGhostsCountAll(users: seq<DirectoryUser>, conns: seq<Connection>)
    requires forall k :: 0 <= k < |conns| ==> Known(users, conns[k])
    ensures ConnectedCount(Some(users), Some(conns)) == |conns|
  {
    FilterAll(conns, KnownBy(users));
  }

  /** A ghost is never bound to any listed user. */
  lemma GhostNeverBound(users: seq<DirectoryUser>, conns: Option<seq<Connection>>, g: Connection)
    requires conns.Some? && g in Ghosts(users, conns.value)
    ensures forall i :: 0 <= i < |users| ==> UserList(users, conns)[i].connection != Some(g)
  {
    var r := UserList(users, conns);
    var m := Consolidate(users, conns);
    forall i | 0 <= i < |users| ensures r[i].connection != Some(g) {
      assert r[i] in multiset(m);
      var j :| 0 <= j < |m| && m[j] == r[i];
      if r[i].connection.Some? {
        assert Matches(users[j].id, r[i].connection.value.userId);
        assert Known(users, r[i].connection.value);
      }
    }
  }

  /** The total is the number of rendered rows, whatever the connections. */
  lemma TotalIsListLength(users: seq<DirectoryUser>, conns: Option<seq<Connection>>)
    ensures TotalUsers(Some(users)) == |UserList(users, conns)|
  {
  }

  /** A day in milliseconds: `hoursDiff <= 24`. */
  const DayMs: int := 24 * 60 * 60 * 1000

  /** `isRecentActivity()`: a last login within the 24 hours before `now`. */
  predicate RecentActivity(user: DirectoryUser, now: int) {
    user.lastLogin.Some? && now - user.lastLogin.value <= DayMs
  }

  datatype Badge = Conectado | ActividadReciente | Inactivo

  /** The badge of a rendered entry at time `now`. */
  function BadgeOf(e: Entry, now: int): Badge {
    if e.Active() then Conectado
    else if RecentActivity(e.user, now) then ActividadReciente
    else Inactivo
  }

  /** The badge read against the inputs: connected iff some connection names the user;
      otherwise recent iff the last login is less than a day old; never recent
      for a user that has never logged in. */
  lemma BadgeOfUser(users: seq<DirectoryUser>, conns: Option<seq<Connection>>, i: nat, now: int)
    requires i < |users|
    ensures var b := BadgeOf(Consolidate(users, conns)[i], now);
      && (b == Conectado <==> conns.Some? && Named(conns.value, users[i].id))
      && (b == ActividadReciente <==>
            (!(conns.Some? && Named(conns.value, users[i].id))
             && users[i].lastLogin.Some? && now - users[i].lastLogin.value <= DayMs))
      && (users[i].lastLogin.None? ==> b != ActividadReciente)
  {
  }

  /** The connected badges sit at the top of the rendered list. */
  lemma ConnectedBadgesFirst(users: seq<DirectoryUser>, conns: Option<seq<Connection>>, now: int, i: nat, j: nat)
    requires i < j < |users|
    requires BadgeOf(UserList(users, conns)[j], now) == Conectado
    ensures BadgeOf(UserList(users, conns)[i], now) == Conectado
  {
  }

  function NamedBy(conns: seq<Connection>): DirectoryUser -> bool {
    (u: DirectoryUser) => Named(conns, u.id)
  }

  /** The directory users some connection names, in directory order. */
  function ActiveUsers(users: seq<DirectoryUser>, conns: seq<Connection>): (r: seq<DirectoryUser>)
    ensures forall k :: 0 <= k < |r| ==> r[k] in users && Named(conns, r[k].id)
    ensures forall u :: u in users && Named(conns, u.id) ==> u in r
  {
    Filter(users, NamedBy(conns))
  }

  /** The data as the backend serves it: every `user_id` is a string, each appears
      once (the connections come from a dictionary keyed by it), and directory ids
      are unique (they are the table's primary key). */
  predicate BackendShaped(users: seq<DirectoryUser>, conns: seq<Connection>) {
    && (forall k :: 0 <= k < |conns| ==> conns[k].userId.KStr?)
    && (forall a, b :: 0 <= a < b < |conns| ==> conns[a].userId != conns[b].userId)
    && (forall a, b :: 0 <= a < b < |users| ==> users[a].id != users[b].id)
  }

  /** With backend-shaped data, connections naming a user and users named by a
      connection are in one-to-one correspondence. */
  lemma {:induction false} BoundMatchesActiveUsers(users: seq<DirectoryUser>, conns: seq<Connection>)
    requires BackendShaped(users, conns)
    ensures |Bound(users, conns)| == |ActiveUsers(users, conns)|
  {
    if |conns| == 0 {
      FilterPartition(users, NamedBy(conns), (u: DirectoryUser) => !Named(conns, u.id));
      FilterAll(users, (u: DirectoryUser) => !Named(conns, u.id));
    } else {
      var c, rest := conns[0], conns[1..];
      ShapedTail(users, conns);
      BoundMatchesActiveUsers(users, rest);
      assert Bound(users, conns) == (if Known(users, c) then [c] else []) + Bound(users, rest);
      ActiveAfterFirst(users, conns);
    }
  }

  /** Dropping the first connection keeps the data backend-shaped. */
  lemma ShapedTail(users: seq<DirectoryUser>, conns: seq<Connection>)
    requires BackendShaped(users, conns) && |conns| > 0
    ensures BackendShaped(users, conns[1..])
  {
    var rest := conns[1..];
    forall a, b | 0 <= a < b < |rest| ensures rest[a].userId != rest[b].userId {
      assert rest[a] == conns[a + 1] && rest[b] == conns[b + 1];
    }
  }

  /** A user is named by the connections exactly when the first names them or the rest do. */
  lemma NamedCons(conns: seq<Connection>, id: int)
    requires |conns| > 0
    ensures Named(conns, id) == (Matches(id, conns[0].userId) || Named(conns[1..], id))
  {
    var rest := conns[1..];
    if Named(conns, id) {
      var j :| 0 <= j < |conns| && Matches(id, conns[j].userId);
      if j > 0 {
        assert rest[j - 1] == conns[j];
      }
    }
    if Named(rest, id) {
      var j :| 0 <= j < |rest| && Matches(id, rest[j].userId);
      assert conns[j + 1] == rest[j];
    }
  }

  /** The first connection adds one active user when it names one, none otherwise. */
  lemma ActiveAfterFirst(users: seq<DirectoryUser>, conns: seq<Connection>)
    requires BackendShaped(users, conns) && |conns| > 0
    ensures |ActiveUsers(users, conns)| == |ActiveUsers(users, conns[1..])| + (if Known(users, conns[0]) then 1 else 0)
  {
    var c, rest := conns[0], conns[1..];
    forall u | u in users
      ensures Named(conns, u.id) == (Matches(u.id, c.userId) || Named(rest, u.id))
    {
      NamedCons(conns, u.id);
    }
    if Known(users, c) {
      var i0 :| 0 <= i0 < |users| && Matches(users[i0].id, c.userId);
      assert !Named(rest, users[i0].id) by {
        forall j | 0 <= j < |rest| ensures !Matches(users[i0].id, rest[j].userId) {
          assert rest[j] == conns[j + 1];
          assert conns[j + 1].userId != conns[0].userId;
        }
      }
      forall i | 0 <= i < |users|
        ensures NamedBy(conns)(users[i]) == (NamedBy(rest)(users[i]) || i == i0)
      {
        if Matches(users[i].id, c.userId) {
          KeyNamesOneId(c.userId, users[i].id, users[i0].id);
        }
      }
      FilterGainOne(users, NamedBy(rest), NamedBy(conns), i0);
    } else {
      FilterSame(users, NamedBy(rest), NamedBy(conns));
    }
  }

  /** The `.filter(conn => ...)` predicate for rendered rows. */
  predicate IsActive(e: Entry) { e.Active() }

  /** The mapped list has one active entry per user some connection names. */
  lemma {:induction false} ConsolidateActiveCount(users: seq<DirectoryUser>, conns: seq<Connection>)
    ensures |Filter(Consolidate(users, Some(conns)), IsActive)| == |ActiveUsers(users, conns)|
  {
    if |users| > 0 {
      var m := Consolidate(users, Some(conns));
      ConsolidateActiveCount(users[1..], conns);
      assert m == [m[0]] + Consolidate(users[1..], Some(conns));
      FilterAppend([m[0]], Consolidate(users[1..], Some(conns)), IsActive);
    }
  }

  /** With backend-shaped data the "Conectados" card equals the number of rows
      rendered with the Conectado badge. */
  lemma ConnectedCountIsConnectedRows(users: seq<DirectoryUser>, conns: seq<Connection>)
    requires BackendShaped(users, conns)
    ensures ConnectedCount(Some(users), Some(conns)) == |Filter(UserList(users, Some(conns)), IsActive)|
  {
    BoundMatchesActiveUsers(users, conns);
    ConsolidateActiveCount(users, conns);
    SortDescFilterCount(Consolidate(users, Some(conns)), RankOf, IsActive);
  }
}

=== FILE: dashboard.dfy ===
/** The dashboard's data handling: the three fetchers that publish the SSH
    counters, the OpenProject lists and the security alerts, the full refresh
    that runs them together, the refresh schedule, and which panel is shown.
    Each completed request is a pure transition of the dashboard state. */
module Dashboard {
  import opened Prelude
  import opened OrderedMap
  import opened JsValue
  import Monitor
  import SecurityAlerts
  import UserDirectory

  /** The outcome of one `axios.get`: the parsed body, or a rejection (network
      failure or an error status). */
  datatype Response = Failed | Ok(body: Value)

  // SSH counters

  /** `sshData`. `uniqueIps` is absent until the first successful fetch. */
  datatype SshData = SshData(
    attacks: Value,
    successfulLogins: Value,
    blockedIps: Value,
    uniqueIps: Option<Value>,
    geoData: seq<Value>,
    activeSessions: Value)

  /** `{ user_sessions: [], network_connections: [] }`. */
  function NoSessions(): Value {
    Obj([("user_sessions", Arr([])), ("network_connections", Arr([]))])
  }

  function InitialSsh(): SshData {
    SshData(Num(0), Num(0), Num(0), None, [], NoSessions())
  }

  /** `fetchSSHData` once both requests have settled: the summary counters with
      `|| 0`, the sessions body with `|| {...}`; a rejected request, or a summary
      body that is `null`, throws inside the `try` and leaves `sshData` as it was. */
  function FetchSsh(d: SshData, active: Response, summary: Response): (r: SshData)
    ensures active.Failed? || summary.Failed? ==> r == d
    ensures summary.Ok? && (summary.body.Null? || summary.body.Undefined?) ==> r == d
    ensures active.Ok? && summary.Ok? && !summary.body.Null? && !summary.body.Undefined? ==>
      var b := summary.body;
      && ZeroDefaulted(Field(b, "ssh_failed_logins").value, r.attacks)
      && ZeroDefaulted(Field(b, "ssh_successful_logins").value, r.successfulLogins)
      && ZeroDefaulted(Field(b, "ssh_blocked_ips").value, r.blockedIps)
      && r.uniqueIps.Some? && ZeroDefaulted(Field(b, "ssh_unique_ips").value, r.uniqueIps.value)
      && r.geoData == []
      && (Truthy(active.body) ==> r.activeSessions == active.body)
      && (!Truthy(active.body) ==> r.activeSessions == NoSessions())
  {
    if active.Failed? || summary.Failed? then d
    else
      var b := summary.body;
      match Field(b, "ssh_failed_logins")
      case None => d
      case Some(failed) =>
        SshData(
          Or(failed, Num(0)),
          Or(Field(b, "ssh_successful_logins").value, Num(0)),
          Or(Field(b, "ssh_blocked_ips").value, Num(0)),
          Some(Or(Field(b, "ssh_unique_ips").value, Num(0))),
          [],
          Or(active.body, NoSessions()))
  }

  /** A successful SSH fetch publishes a snapshot that does not depend on what
      was shown before: nothing of the previous state survives. */
  lemma SshSuccessReplacesAll(d1: SshData, d2: SshData, active: Response, summary: Response)
    requires active.Ok? && summary.Ok? && !summary.body.Null? && !summary.body.Undefined?
    ensures FetchSsh(d1, active, summary) == FetchSsh(d2, active, summary)
  {
  }

  /** The body `/api/summary` serves, in its four groups of counters. */
  function SummaryBody(s: Monitor.Summary): (v: Value)
    ensures v.Obj? && |v.fields| == 14
  {
    Obj(SshCounters(s) + OpCounters(s) + SecurityCounters(s) + LegacyCounters(s))
  }

  function SshCounters(s: Monitor.Summary): Dict<string, Value> {
    [("ssh_failed_logins", Num(s.sshFailedLogins)),
     ("ssh_successful_logins", Num(s.sshSuccessfulLogins)),
     ("ssh_active_connections", Num(s.sshActiveConnections)),
     ("ssh_blocked_ips", Num(s.sshBlockedIps))]
  }

  function OpCounters(s: Monitor.Summary): Dict<string, Value> {
    [("op_failed_logins", Num(s.opFailedLogins)),
     ("op_successful_logins", Num(s.opSuccessfulLogins)),
     ("op_active_users", Num(s.opActiveUsers)),
     ("op_blocked_users", Num(s.opBlockedUsers))]
  }

  function SecurityCounters(s: Monitor.Summary): Dict<string, Value> {
    [("total_registered_users", Num(s.totalRegisteredUsers)),
     ("potential_security_alerts", Num(s.potentialSecurityAlerts)),
     ("total_active_connections", Num(s.totalActiveConnections))]
  }

  function LegacyCounters(s: Monitor.Summary): Dict<string, Value> {
    [("ssh_attacks_24h", Num(s.sshAttacks24h)),
     ("ssh_successful_24h", Num(s.sshSuccessful24h)),
     ("op_active_connections", Num(s.opActiveConnections))]
  }

  /** Against the backend's summary the counters are shown exactly as served,
      zero included, while the unique-address counter, which the summary does
      not carry, is always zero. */
  lemma SummaryCountersShown(d: SshData, active: Value, s: Monitor.Summary)
    ensures var r := FetchSsh(d, Ok(active), Ok(SummaryBody(s)));
      && r.attacks == Num(s.sshFailedLogins)
      && r.successfulLogins == Num(s.sshSuccessfulLogins)
      && r.blockedIps == Num(s.sshBlockedIps)
      && r.uniqueIps == Some(Num(0))
  {
    SummaryFields(s);
    OrZeroKeepsNumbers(Num(s.sshFailedLogins));
    OrZeroKeepsNumbers(Num(s.sshSuccessfulLogins));
    OrZeroKeepsNumbers(Num(s.sshBlockedIps));
  }

  lemma SummaryFields(s: Monitor.Summary)
    ensures var b := SummaryBody(s);
      && Field(b, "ssh_failed_logins") == Some(Num(s.sshFailedLogins))
      && Field(b, "ssh_successful_logins") == Some(Num(s.sshSuccessfulLogins))
      && Field(b, "ssh_blocked_ips") == Some(Num(s.sshBlockedIps))
      && Field(b, "ssh_unique_ips") == Some(Undefined)
  {
    SshCounterRead(s, "ssh_failed_logins", Num(s.sshFailedLogins));
    SshCounterRead(s, "ssh_successful_logins", Num(s.sshSuccessfulLogins));
    SshCounterRead(s, "ssh_blocked_ips", Num(s.sshBlockedIps));
    UniqueIpsAbsent(s);
  }

  /** A key of the SSH group is read from that group. */
  lemma SshCounterRead(s: Monitor.Summary, k: string, v: Value)
    requires (k, v) in SshCounters(s)
    ensures Get(SummaryBody(s).fields, k) == Some(v)
  {
    var ssh, op, sec, leg := SshCounters(s), OpCounters(s), SecurityCounters(s), LegacyCounters(s);
    GetByEntries(ssh, k, Some(v));
    GetPrefix(ssh, op, k);
    GetPrefix(ssh + op, sec, k);
    GetPrefix(ssh + op + sec, leg, k);
  }

  /** No group carries `ssh_unique_ips`. */
  lemma UniqueIpsAbsent(s: Monitor.Summary)
    ensures Get(SummaryBody(s).fields, "ssh_unique_ips") == None
  {
    var k := "ssh_unique_ips";
    var ssh, op, sec, leg := SshCounters(s), OpCounters(s), SecurityCounters(s), LegacyCounters(s);
    GetAppend(ssh + op + sec, leg, k);
    GetAppend(ssh + op, sec, k);
    GetAppend(ssh, op, k);
    CountersLackUniqueIps(s);
  }

  lemma CountersLackUniqueIps(s: Monitor.Summary)
    ensures !HasKey(SshCounters(s), "ssh_unique_ips") && !HasKey(OpCounters(s), "ssh_unique_ips")
    ensures !HasKey(SecurityCounters(s), "ssh_unique_ips") && !HasKey(LegacyCounters(s), "ssh_unique_ips")
  {
    GetByEntries(SshCounters(s), "ssh_unique_ips", None);
    GetByEntries(OpCounters(s), "ssh_unique_ips", None);
    GetByEntries(SecurityCounters(s), "ssh_unique_ips", None);
    GetByEntries(LegacyCounters(s), "ssh_unique_ips", None);
  }

  // OpenProject lists

  /** `openProjectData`. The two connection lists are absent until the first
      successful fetch. */
  datatype OpData = OpData(
    totalUsers: nat,
    activeUsers: nat,
    failedLogins: nat,
    successfulLogins: nat,
    users: seq<Value>,
    activeConnections: Option<seq<Value>>,
    webConnections: Option<seq<Value>>)

  function InitialOp(): OpData {
    OpData(0, 0, 0, 0, [], None, None)
  }

  /** The counts shown agree with the lists kept. */
  predicate OpConsistent(d: OpData) {
    d.totalUsers == |d.users| && d.activeUsers == |d.activeConnections.GetOr([])|
  }

  /** The five requests of `fetchOpenProjectData`. */
  datatype OpResponses = OpResponses(
    users: Response,
    usersDb: Response,
    failed: Response,
    success: Response,
    connections: Response)

  predicate AllOk(o: OpResponses) {
    o.users.Ok? && o.usersDb.Ok? && o.failed.Ok? && o.success.Ok? && o.connections.Ok?
  }

  /** `fetchOpenProjectData` once the five requests have settled: all or
      nothing, with every body that is not an array read as an empty list. */
  function FetchOp(d: OpData, o: OpResponses): (r: OpData)
    ensures !AllOk(o) ==> r == d
    ensures AllOk(o) ==>
      && r.totalUsers == LengthOr0(o.usersDb.body)
      && r.activeUsers == LengthOr0(o.users.body)
      && r.failedLogins == LengthOr0(o.failed.body)
      && r.successfulLogins == LengthOr0(o.success.body)
      && r.users == ItemsOrEmpty(o.usersDb.body)
      && r.activeConnections == Some(ItemsOrEmpty(o.users.body))
      && r.webConnections == Some(ItemsOrEmpty(o.connections.body))
  {
    if !AllOk(o) then d
    else
      OpData(
        LengthOr0(o.usersDb.body),
        LengthOr0(o.users.body),
        LengthOr0(o.failed.body),
        LengthOr0(o.success.body),
        ItemsOrEmpty(o.usersDb.body),
        Some(ItemsOrEmpty(o.users.body)),
        Some(ItemsOrEmpty(o.connections.body)))
  }

  /** Every published OpenProject snapshot counts exactly the lists it holds,
      whatever the responses were. */
  lemma FetchOpConsistent(d: OpData, o: OpResponses)
    requires OpConsistent(d)
    ensures OpConsistent(FetchOp(d, o))
  {
    if AllOk(o) {
      LengthOfItems(o.usersDb.body);
      LengthOfItems(o.users.body);
    }
  }

  /** The body `/api/openproject/users-db` serves is the directory's rows, so
      the user count shown is the number of directory users. */
  lemma TotalUsersIsDirectorySize(d: OpData, o: OpResponses, usersTable: string, rows: seq<Value>)
    requires AllOk(o) && o.usersDb.body == Arr(rows)
    requires |rows| == |Monitor.UsersDbFeed(usersTable)|
    ensures FetchOp(d, o).totalUsers == |UserDirectory.Directory(usersTable)|
  {
  }

  // Security alerts

  /** `fetchSecurityAlerts`: an array body is stored as it is; any other body,
      and a rejected request, stores the empty list. */
  function FetchAlerts(r: Response): (a: seq<Value>)
    ensures r.Ok? && r.body.Arr? ==> a == r.body.items
    ensures r.Failed? || !r.body.Arr? ==> a == []
  {
    if r.Ok? then ItemsOrEmpty(r.body) else []
  }

  /** The body `/api/security/intrusion-detection` serves, on success and on
      its own error path alike: an object. */
  function IntrusionBody(i: Monitor.Intrusion): (v: Value)
    ensures v.Obj?
  {
    Obj([
      ("total_registered", Num(i.totalRegistered)),
      ("total_active", Num(i.totalActive)),
      ("alerts", Arr(seq(|i.alerts|, k requires 0 <= k < |i.alerts| =>
        Obj([("type", Str(i.alerts[k].kind)),
             ("severity", Str(if i.alerts[k].severity == Monitor.High then "high" else "medium"))]))))])
  }

  /** The alerts endpoint answers with an object, never an array, so against
      this backend the stored alert list is always empty, even when the backend
      raised alerts. */
  lemma BackendAlertsNeverStored(i: Monitor.Intrusion)
    ensures FetchAlerts(Ok(IntrusionBody(i))) == []
  {
  }

  /** What the alert panel reads from a stored alert; fields of another type
      count as absent. */
  function AlertOf(v: Value): (a: SecurityAlerts.Alert)
    ensures v.Obj? && Field(v, "country").value.Str? ==> a.country == Some(Field(v, "country").value.s)
    ensures !v.Obj? ==> a == SecurityAlerts.Alert(None, None, None)
  {
    if !v.Obj? then SecurityAlerts.Alert(None, None, None)
    else
      var c := Field(v, "country").value;
      var n := Field(v, "attempts").value;
      var s := Field(v, "severity").value;
      SecurityAlerts.Alert(
        if c.Str? then Some(c.s) else None,
        if n.Num? then Some(n.n) else None,
        if s.Str? then Some(s.s) else None)
  }

  /** The dashboard draws its alert section (a placeholder headed by the count)
      only while the stored list is non-empty. */
  predicate AlertSectionShown(s: State) {
    |s.alerts| > 0
  }

  /** Hence, from any state, once an alerts fetch answered by this backend
      settles the stored list is empty and the alert section is hidden. */
  lemma AlertPanelStaysEmpty(s: State, i: Monitor.Intrusion)
    ensures var r := Step(s, AlertsDone(Ok(IntrusionBody(i))));
      |r.alerts| == 0 && !AlertSectionShown(r)
  {
    BackendAlertsNeverStored(i);
  }

  // The dashboard state and its transitions

  datatype State = State(ssh: SshData, op: OpData, alerts: seq<Value>, loading: bool, error: Option<string>)

  /** The first render: zero counters, empty lists, loading, no error. */
  function Initial(): (s: State)
    ensures s.loading
    ensures s.error.None? && s.alerts == [] && s.op.users == [] && OpConsistent(s.op)
    ensures s.ssh.attacks == Num(0) && s.op.totalUsers == 0 && s.op.activeUsers == 0
  {
    State(InitialSsh(), InitialOp(), [], true, None)
  }

  /** What can happen next: a full refresh starts (`setLoading(true)`), one of
      the three fetchers completes, or the refresh's `finally` runs. The
      alerts timer completes an `AlertsDone` on its own. */
  datatype Event =
    | RefreshStart
    | SshDone(active: Response, summary: Response)
    | OpDone(op: OpResponses)
    | AlertsDone(alerts: Response)
    | RefreshEnd

  function Step(s: State, e: Event): (r: State)
    ensures r.error == s.error
    ensures e.RefreshEnd? ==> !r.loading
    ensures e.RefreshStart? ==> r.loading
    ensures !e.SshDone? ==> r.ssh == s.ssh
    ensures !e.OpDone? ==> r.op == s.op
    ensures !e.AlertsDone? ==> r.alerts == s.alerts
  {
    match e
    case RefreshStart => s.(loading := true)
    case SshDone(a, b) => s.(ssh := FetchSsh(s.ssh, a, b))
    case OpDone(o) => s.(op := FetchOp(s.op, o))
    case AlertsDone(r) => s.(alerts := FetchAlerts(r))
    case RefreshEnd => s.(loading := false)
  }

  function Run(s: State, es: seq<Event>): State
    decreases |es|
  {
    if |es| == 0 then s else Run(Step(s, es[0]), es[1..])
  }

  predicate Healthy(s: State) {
    s.error.None? && OpConsistent(s.op)
  }

  /** Whatever the responses and however the completions interleave, the error
      is never set and the OpenProject counts match their lists. */
  lemma {:induction false} RunStaysHealthy(s: State, es: seq<Event>)
    requires Healthy(s)
    ensures Healthy(Run(s, es))
    decreases |es|
  {
    if |es| > 0 {
      if es[0].OpDone? {
        FetchOpConsistent(s.op, es[0].op);
      }
      RunStaysHealthy(Step(s, es[0]), es[1..]);
    }
  }

  /** The three fetchers write disjoint parts of the state, so the order in which
      `Promise.all` lets them complete does not matter. */
  lemma CompletionsCommute(s: State, e1: Event, e2: Event)
    requires e1.SshDone? || e1.OpDone? || e1.AlertsDone?
    requires e2.SshDone? || e2.OpDone? || e2.AlertsDone?
    requires e1.SshDone? != e2.SshDone? || e1.OpDone? != e2.OpDone?
    ensures Step(Step(s, e1), e2) == Step(Step(s, e2), e1)
  {
  }

  /** `fetchDashboardData` with one outcome per request: `loading` ends false,
      `error` is untouched, and each part is what its own fetcher makes of it. */
  function Refresh(s: State, active: Response, summary: Response, o: OpResponses, alerts: Response): (r: State)
    ensures !r.loading && r.error == s.error
    ensures r.ssh == FetchSsh(s.ssh, active, summary)
    ensures r.op == FetchOp(s.op, o)
    ensures r.alerts == FetchAlerts(alerts)
  {
    var started := Step(s, RefreshStart);
    var fetched := Step(Step(Step(started, SshDone(active, summary)), OpDone(o)), AlertsDone(alerts));
    Step(fetched, RefreshEnd)
  }

  /** A refresh in which every request fails keeps the counters and lists
      shown and only empties the alerts. */
  lemma FailedRefreshKeepsData(s: State, o: OpResponses)
    requires !AllOk(o)
    ensures var r := Refresh(s, Failed, Failed, o, Failed);
      r.ssh == s.ssh && r.op == s.op && r.alerts == [] && r.error == s.error
  {
  }

  // What is shown

  /** The full-screen spinner: loading while the attack counter is falsy. */
  predicate ShowsSpinner(s: State) {
    s.loading && !Truthy(s.ssh.attacks)
  }

  predicate ShowsErrorPanel(s: State) {
    !ShowsSpinner(s) && s.error.Some?
  }

  /** The error panel is unreachable: no sequence of events from the first
      render sets the error. */
  lemma ErrorPanelNeverShown(es: seq<Event>)
    ensures !ShowsErrorPanel(Run(Initial(), es))
  {
    RunStaysHealthy(Initial(), es);
  }

  /** While the summary reports zero failed logins, every refresh hides the
      whole dashboard behind the spinner until it ends. */
  lemma ZeroAttacksShowSpinner(s: State)
    requires s.ssh.attacks == Num(0)
    ensures ShowsSpinner(Step(s, RefreshStart))
    ensures !ShowsSpinner(Step(Step(s, RefreshStart), RefreshEnd))
  {
  }

  // The schedule

  const FullPeriod: int := 900000
  const AlertsPeriod: int := 300000

  /** The component is mounted at `start` and its effect cleaned up at `end`. */
  datatype Mount = Mount(start: int, end: int)

  /** A full refresh runs on mount and every fifteen minutes until cleanup. */
  predicate FullRefreshAt(m: Mount, t: int) {
    m.start <= t < m.end && (t - m.start) % FullPeriod == 0
  }

  /** The alert timer fires every five minutes until cleanup. */
  predicate AlertsTickAt(m: Mount, t: int) {
    m.start < t < m.end && (t - m.start) % AlertsPeriod == 0
  }

  /** The alerts are fetched by every full refresh and by every alert tick. */
  predicate AlertsFetchAt(m: Mount, t: int) {
    FullRefreshAt(m, t) || AlertsTickAt(m, t)
  }

  /** Every full refresh after the first coincides with an alert tick, so at
      those instants the alerts are fetched twice. */
  lemma FullRefreshMeetsAlertTick(m: Mount, t: int)
    requires FullRefreshAt(m, t) && t != m.start
    ensures AlertsTickAt(m, t)
  {
    var q := (t - m.start) / FullPeriod;
    assert t - m.start == FullPeriod * q;
    assert t - m.start == AlertsPeriod * (3 * q);
  }

  /** While mounted, a fetch of the alerts was started at most 300000 ms ago:
      the latest fetch at or before `t`. */
  function LatestAlertsFetch(m: Mount, t: int): (r: int)
    requires m.start <= t < m.end
    ensures AlertsFetchAt(m, r) && r <= t < r + AlertsPeriod
  {
    var q := (t - m.start) / AlertsPeriod;
    var r := m.start + AlertsPeriod * q;
    assert (r - m.start) % AlertsPeriod == 0 by {
      assert r - m.start == AlertsPeriod * q;
    }
    r
  }

  /** After cleanup nothing is fetched any more. */
  lemma NothingAfterCleanup(m: Mount, t: int)
    requires t >= m.end
    ensures !FullRefreshAt(m, t) && !AlertsFetchAt(m, t)
  {
  }
}

=== FILE: fail2ban_stats.dfy ===
/** The Fail2ban statistics card of the legacy frontend: the fetch state, the
    summary counters with their colours, the per-jail cards of which at most one
    is expanded, the truncated banned-address list and the geolocated top ten. */
module Fail2banStats {
  import opened Prelude
  import opened OrderedMap

  /** The counters of one jail. */
  datatype Jail = Jail(
    currentlyFailed: int,
    totalFailed: int,
    currentlyBanned: int,
    totalBanned: int,
    bannedIps: seq<string>)

  /** One entry of `banned_ips_geo`. */
  datatype GeoIp = GeoIp(ip: string, country: string, city: Option<string>)

  /** The body of `/api/security/fail2ban-stats`; `geo` is absent when
      `banned_ips_geo` is missing or `null`. */
  datatype Stats = Stats(
    totalJails: int,
    totalBanned: int,
    totalFailed: int,
    jails: Dict<string, Jail>,
    geo: Option<seq<GeoIp>>)

  // ---------------------------------------------------------------------------
  // Expanding a jail

  /** `toggleJailExpansion`: clicking the expanded jail collapses it, clicking
      any other expands that one instead. */
  function Toggle(expanded: Option<string>, jail: string): Option<string> {
    if expanded == Some(jail) then None else Some(jail)
  }

  /** After a click, a jail is expanded exactly when it is the clicked one and
      was not expanded before; every other jail is collapsed. */
  lemma ToggleExpands(expanded: Option<string>, jail: string, other: string)
    ensures Toggle(expanded, jail) == Some(other) <==> other == jail && expanded != Some(jail)
    ensures Toggle(expanded, jail).None? <==> expanded == Some(jail)
  {
  }

  function ToggleRun(expanded: Option<string>, clicks: seq<string>): Option<string>
    decreases |clicks|
  {
    if |clicks| == 0 then expanded else ToggleRun(Toggle(expanded, clicks[0]), clicks[1..])
  }

  /** After any clicks the expanded jail, if there is one, is the last one
      clicked; clicking the same jail twice in a row restores the state. */
  lemma {:induction false} ExpandedIsLastClicked(expanded: Option<string>, clicks: seq<string>)
    requires |clicks| > 0
    ensures ToggleRun(expanded, clicks).Some? ==> ToggleRun(expanded, clicks).value == clicks[|clicks| - 1]
    decreases |clicks|
  {
    if |clicks| > 1 {
      ExpandedIsLastClicked(Toggle(expanded, clicks[0]), clicks[1..]);
    }
  }

  lemma ToggleTwice(expanded: Option<string>, jail: string)
    requires expanded.None? || expanded == Some(jail)
    ensures Toggle(Toggle(expanded, jail), jail) == expanded
  {
  }

  // ---------------------------------------------------------------------------
  // Colours

  /** The colour families of the card's numbers. */
  datatype Tone = Gray | Green | Yellow | Red

  /** How alarming a colour is. */
  function Alarm(t: Tone): nat {
    match t
    case Gray => 0
    case Green => 0
    case Yellow => 1
    case Red => 2
  }

  /** `getStatusColor`, for failure counts. */
  function StatusColor(value: int): Tone {
    if value == 0 then Green else if value < 10 then Yellow else Red
  }

  /** `getBannedStatusColor`, for ban counts. */
  function BannedStatusColor(value: int): Tone {
    if value == 0 then Gray else if value < 50 then Yellow else Red
  }

  /** For counts, both colourings only grow more alarming as the count grows,
      and at the same count a ban count is never more alarming than a failure
      count. */
  lemma ColoursMonotone(a: int, b: int)
    requires 0 <= a <= b
    ensures Alarm(StatusColor(a)) <= Alarm(StatusColor(b))
    ensures Alarm(BannedStatusColor(a)) <= Alarm(BannedStatusColor(b))
    ensures Alarm(BannedStatusColor(a)) <= Alarm(StatusColor(a))
  {
  }

  /** Zero is calm in both colourings, and only zero is. */
  lemma CalmExactlyAtZero(v: int)
    ensures Alarm(StatusColor(v)) == 0 <==> v == 0
    ensures Alarm(BannedStatusColor(v)) == 0 <==> v == 0
  {
  }

  // ---------------------------------------------------------------------------
  // The banned-address list of an expanded jail

  /** The list under an expanded jail: the first 20 addresses and, when there
      are more, the count of the rest ('... y N más'). */
  datatype IpList = IpList(total: nat, shown: seq<string>, more: Option<nat>)

  const ListedIps: nat := 20

  /** Absent for a jail with no banned addresses. */
  function BannedList(ips: seq<string>): (r: Option<IpList>)
    ensures r.None? <==> |ips| == 0
    ensures r.Some? ==> r.value.total == |ips| && |r.value.shown| + r.value.more.GetOr(0) == |ips|
    ensures r.Some? ==> (r.value.more.Some? <==> |ips| > ListedIps)
    ensures r.Some? ==> |r.value.shown| <= ListedIps && forall k :: 0 <= k < |r.value.shown| ==> r.value.shown[k] == ips[k]
  {
    if |ips| == 0 then None
    else
      var shown := FirstN(ips, ListedIps);
      Some(IpList(|ips|, shown, if |ips| > ListedIps then Some(|ips| - ListedIps) else None))
  }

  /** The top-ten panel: absent when `banned_ips_geo` is missing or empty. */
  function GeoPanel(geo: Option<seq<GeoIp>>): (r: Option<seq<GeoIp>>)
    ensures r.None? <==> geo.None? || |geo.value| == 0
    ensures r.Some? ==> 0 < |r.value| <= 10 && |r.value| <= |geo.value| && forall k :: 0 <= k < |r.value| ==> r.value[k] == geo.value[k]
  {
    if geo.None? || |geo.value| == 0 then None else Some(FirstN(geo.value, 10))
  }

  // ---------------------------------------------------------------------------
  // Fetch state and view

  datatype State = State(stats: Option<Stats>, loading: bool, error: Option<string>, expanded: Option<string>)

  function Initial(): State {
    State(None, true, None, None)
  }

  /** How one `fetchFail2banStats` ends: a parsed body (`None` for a JSON
      `null`, which is stored as it is) or a failure. The non-`ok` message is
      'Error al obtener estadísticas'. */
  datatype Outcome = Got(body: Option<Stats>) | Failed(message: string)

  /** A success stores the statistics and clears the error; a failure records
      its message and keeps the statistics; `loading` ends false and is never
      set again. The expanded jail is untouched. */
  function Settle(s: State, o: Outcome): (r: State)
    ensures !r.loading && r.expanded == s.expanded
    ensures r.error.None? <==> o.Got?
    ensures o.Got? ==> r.stats == o.body
    ensures o.Failed? ==> r.stats == s.stats && r.error == Some(o.message)
  {
    match o
    case Got(b) => s.(stats := b, loading := false, error := None)
    case Failed(m) => s.(loading := false, error := Some(m))
  }

  function Click(s: State, jail: string): State {
    s.(expanded := Toggle(s.expanded, jail))
  }

  /** A jail's card: its name, the two coloured counters, and the details when
      it is the expanded one. */
  datatype JailCard = JailCard(
    name: string, currentlyBanned: int, banned: Tone, currentlyFailed: int, failed: Tone,
    details: Option<JailDetails>)

  datatype JailDetails = JailDetails(failed: Tone, totalFailed: int, banned: Tone, totalBanned: int, ips: Option<IpList>)

  function Card(e: (string, Jail), expanded: Option<string>): (c: JailCard)
    ensures c.name == e.0
    ensures c.currentlyBanned == e.1.currentlyBanned && c.banned == BannedStatusColor(e.1.currentlyBanned)
    ensures c.currentlyFailed == e.1.currentlyFailed && c.failed == StatusColor(e.1.currentlyFailed)
    ensures c.details.Some? <==> expanded == Some(e.0)
    ensures c.details.Some? ==> (
      && c.details.value.failed == c.failed && c.details.value.banned == c.banned
      && c.details.value.totalFailed == e.1.totalFailed && c.details.value.totalBanned == e.1.totalBanned
      && c.details.value.ips == BannedList(e.1.bannedIps))
  {
    var j := e.1;
    var details := if expanded == Some(e.0) then
      Some(JailDetails(StatusColor(j.currentlyFailed), j.totalFailed, BannedStatusColor(j.currentlyBanned), j.totalBanned, BannedList(j.bannedIps)))
      else None;
    JailCard(e.0, j.currentlyBanned, BannedStatusColor(j.currentlyBanned), j.currentlyFailed, StatusColor(j.currentlyFailed), details)
  }

  /** What the card shows. `Broken` is a render that reads a property of
      missing statistics and throws. */
  datatype View =
    | Pulse
    | ErrorPanel(message: string)
    | Broken
    | Panel(
        jails: int, totalBanned: int, banned: Tone, totalFailed: int, failed: Tone, active: bool,
        cards: seq<JailCard>, geo: Option<seq<GeoIp>>)

  /** The placeholder while loading, the error when its message is non-empty,
      otherwise the summary counters coloured by alarm, one card per jail in the
      order of `stats.jails`, and the top-ten panel. */
  function ViewOf(s: State): (v: View)
    ensures v.Pulse? <==> s.loading
    ensures v.ErrorPanel? <==> !s.loading && s.error.Some? && |s.error.value| > 0
    ensures v.ErrorPanel? ==> v.message == s.error.value
    ensures v.Panel? <==> !v.Pulse? && !v.ErrorPanel? && s.stats.Some?
    ensures v.Panel? ==> v.jails == s.stats.value.totalJails && (v.active <==> s.stats.value.totalJails > 0)
    ensures v.Panel? ==> v.totalBanned == s.stats.value.totalBanned && v.banned == BannedStatusColor(v.totalBanned)
    ensures v.Panel? ==> v.totalFailed == s.stats.value.totalFailed && v.failed == StatusColor(v.totalFailed)
    ensures v.Panel? ==> (|v.cards| == |s.stats.value.jails|
      && forall k :: 0 <= k < |v.cards| ==> v.cards[k] == Card(s.stats.value.jails[k], s.expanded))
    ensures v.Panel? ==> v.geo == GeoPanel(s.stats.value.geo)
  {
    if s.loading then Pulse
    else if s.error.Some? && |s.error.value| > 0 then ErrorPanel(s.error.value)
    else if s.stats.None? then Broken
    else
      var st := s.stats.value;
      var cards := seq(|st.jails|, k requires 0 <= k < |st.jails| => Card(st.jails[k], s.expanded));
      Panel(st.totalJails, st.totalBanned, BannedStatusColor(st.totalBanned), st.totalFailed, StatusColor(st.totalFailed),
        st.totalJails > 0, cards, GeoPanel(st.geo))
  }

  /** At most one jail card shows its details: the expanded jail's, when the
      jail names are distinct. */
  lemma AtMostOneExpanded(s: State, i: nat, j: nat)
    requires ViewOf(s).Panel? && UniqueKeys(s.stats.value.jails)
    requires i < j < |ViewOf(s).cards|
    ensures !(ViewOf(s).cards[i].details.Some? && ViewOf(s).cards[j].details.Some?)
  {
  }

  /** Events of the card: a settled request or a click on a jail. */
  datatype Event = Fetch(o: Outcome) | ClickJail(jail: string)

  function Step(s: State, e: Event): State {
    match e
    case Fetch(o) => Settle(s, o)
    case ClickJail(j) => Click(s, j)
  }

  function Run(s: State, es: seq<Event>): State
    decreases |es|
  {
    if |es| == 0 then s else Run(Step(s, es[0]), es[1..])
  }

  /** Every failure message that can be recorded is non-empty. */
  predicate MessagesNonEmpty(es: seq<Event>) {
    forall k :: 0 <= k < |es| ==> es[k].Fetch? && es[k].o.Failed? ==> |es[k].o.message| > 0
  }

  /** Every successful response carries statistics rather than `null`. */
  predicate BodiesPresent(es: seq<Event>) {
    forall k :: 0 <= k < |es| ==> es[k].Fetch? && es[k].o.Got? ==> es[k].o.body.Some?
  }

  /** A `null` body is stored, and the card then throws on its first read of
      the statistics, whatever it showed before. */
  lemma NullBodyBreaks(s: State)
    ensures Settle(s, Got(None)).stats.None?
    ensures ViewOf(Settle(s, Got(None))) == Broken
  {
  }

  /** Once the first request has settled the card is never a placeholder again,
      and as long as failures carry a message and successes carry statistics it
      never renders without statistics (`NullBodyBreaks` is the other case). */
  lemma {:induction false} NeverBroken(s: State, es: seq<Event>)
    requires MessagesNonEmpty(es) && BodiesPresent(es)
    requires !s.loading ==> ((s.error.Some? && |s.error.value| > 0) || s.stats.Some?)
    ensures var r := Run(s, es); !r.loading ==> ((r.error.Some? && |r.error.value| > 0) || r.stats.Some?)
    ensures ViewOf(Run(s, es)) != Broken
    decreases |es|
  {
    if |es| > 0 {
      assert MessagesNonEmpty(es[1..]) by {
        forall k | 0 <= k < |es[1..]| ensures es[1..][k].Fetch? && es[1..][k].o.Failed? ==> |es[1..][k].o.message| > 0 {
          assert es[1..][k] == es[k + 1];
        }
      }
      assert BodiesPresent(es[1..]) by {
        forall k | 0 <= k < |es[1..]| ensures es[1..][k].Fetch? && es[1..][k].o.Got? ==> es[1..][k].o.body.Some? {
          assert es[1..][k] == es[k + 1];
        }
      }
      NeverBroken(Step(s, es[0]), es[1..]);
    }
  }

  /** The placeholder shows only before any request settles. */
  lemma {:induction false} PulseOnlyAtFirst(es: seq<Event>)
    ensures ViewOf(Run(Initial(), es)).Pulse? <==> forall k :: 0 <= k < |es| ==> es[k].ClickJail?
    decreases |es|
  {
    LoadingUntilFetch(Initial(), es);
  }

  lemma {:induction false} LoadingUntilFetch(s: State, es: seq<Event>)
    ensures Run(s, es).loading <==> s.loading && forall k :: 0 <= k < |es| ==> es[k].ClickJail?
    decreases |es|
  {
    if |es| > 0 {
      LoadingUntilFetch(Step(s, es[0]), es[1..]);
      assert forall k :: 1 <= k < |es| ==> es[k] == es[1..][k - 1];
    }
  }
}

=== FILE: js_value.dfy ===
/** The JavaScript values a fetched JSON body becomes, and the operators the
    components apply to them: truthiness, `||`, property access and
    `Array.isArray`. */
module JsValue {
  import opened Prelude
  import opened OrderedMap

  /** A parsed body. Numbers are integers here; `Undefined` is what reading a
      missing property gives. */
  datatype Value =
    | Undefined
    | Null
    | Bool(b: bool)
    | Num(n: int)
    | Str(s: string)
    | Arr(items: seq<Value>)
    | Obj(fields: Dict<string, Value>)

  /** JavaScript truthiness: `undefined`, `null`, `false`, `0` and `""` are falsy. */
  predicate Truthy(v: Value) {
    match v
    case Undefined => false
    case Null => false
    case Bool(b) => b
    case Num(n) => n != 0
    case Str(s) => |s| > 0
    case Arr(_) => true
    case Obj(_) => true
  }

  /** `v || d`. */
  function Or(v: Value, d: Value): Value {
    if Truthy(v) then v else d
  }

  /** `w` is `v || 0`: `v` itself when truthy, else 0; never `undefined` or `null`. */
  predicate ZeroDefaulted(v: Value, w: Value) {
    && (Truthy(v) ==> w == v)
    && (!Truthy(v) ==> w == Num(0))
    && !w.Undefined? && !w.Null?
  }

  /** The `|| 0` default leaves every number as it is: zero is falsy and is
      replaced by zero. */
  lemma OrZeroKeepsNumbers(v: Value)
    ensures v.Num? ==> Or(v, Num(0)) == v
    ensures !Truthy(v) ==> Or(v, Num(0)) == Num(0)
    ensures Or(v, Num(0)) == v <==> Truthy(v) || v == Num(0)
  {
  }

  /** `v.name`: reading a property of `undefined` or `null` throws (`None`);
      a value that is not an object has none of the properties read here. */
  function Field(v: Value, name: string): (r: Option<Value>)
    ensures r.None? <==> v.Undefined? || v.Null?
    ensures v.Obj? && !HasKey(v.fields, name) ==> r == Some(Undefined)
    ensures v.Obj? && HasKey(v.fields, name) ==> exists i :: 0 <= i < |v.fields| && v.fields[i] == (name, r.value)
  {
    match v
    case Undefined => None
    case Null => None
    case Obj(fs) =>
      Some(Get(fs, name).GetOr(Undefined))
    case _ => Some(Undefined)
  }

  predicate Nullish(v: Value) { v.Undefined? || v.Null? }

  /** `v.a.b…` for the property names of `path`: `None` when a step reads a
      property of `undefined` or `null`, which throws. */
  function Path(v: Value, path: seq<string>): (r: Option<Value>)
    ensures |path| == 1 ==> r == Field(v, path[0])
    ensures |path| > 0 && Nullish(v) ==> r.None?
    decreases |path|
  {
    if |path| == 0 then Some(v)
    else match Field(v, path[0])
      case None => None
      case Some(w) => Path(w, path[1..])
  }

  /** A path reads without throwing exactly when no proper prefix of it reaches
      `undefined` or `null`. */
  lemma {:induction false} PathThrows(v: Value, path: seq<string>)
    ensures Path(v, path).None? <==>
      exists k :: 0 <= k < |path| && Path(v, path[..k]).Some? && Nullish(Path(v, path[..k]).value)
    decreases |path|
  {
    if |path| > 0 {
      assert path[..0] == [];
      match Field(v, path[0])
      case None =>
      case Some(w) =>
        PathThrows(w, path[1..]);
        forall k | 0 < k <= |path| ensures Path(v, path[..k]) == Path(w, path[1..][..k - 1]) {
          assert path[..k][0] == path[0] && path[..k][1..] == path[1..][..k - 1];
        }
        if ex: nat :| 0 <= ex < |path| - 1 && Path(w, path[1..][..ex]).Some? && Nullish(Path(w, path[1..][..ex]).value) {
          assert Path(v, path[..ex + 1]) == Path(w, path[1..][..ex]);
        }
    }
  }

  /** `v.path` reads without throwing and is neither `undefined` nor `null`, so
      a further property can be read from it. */
  predicate Readable(v: Value, path: seq<string>) {
    Path(v, path).Some? && !Nullish(Path(v, path).value)
  }

  /** `v.path`, or `undefined` where reading it throws. */
  function At(v: Value, path: seq<string>): Value {
    Path(v, path).GetOr(Undefined)
  }

  /** `xs.map(x => … x.f …)` reads a property of every item: none may be
      `undefined` or `null`. */
  predicate ItemsReadable(xs: seq<Value>) {
    forall k :: 0 <= k < |xs| ==> !Nullish(xs[k])
  }

  /** `v.map(x => … x.f …)` runs: `v` is an array (nothing else a JSON body
      holds has `map`) whose items are all readable. */
  predicate MapsOver(v: Value) {
    v.Arr? && ItemsReadable(v.items)
  }

  /** `v.length > 0` for a value that is neither `undefined` nor `null`: the
      length of an array or a string, the `length` property of an object
      compared as a number, and `undefined > 0` (false) for anything else. */
  function LengthPositive(v: Value): (b: bool)
    ensures v.Arr? ==> (b <==> |v.items| > 0)
    ensures v.Num? || v.Bool? || Nullish(v) ==> !b
  {
    match v
    case Arr(xs) => |xs| > 0
    case Str(s) => |s| > 0
    case Obj(_) =>
      var l := Field(v, "length").value;
      (l.Num? && l.n > 0) || l == Bool(true)
    case _ => false
  }

  /** `Array.isArray(v) ? v.length : 0`. */
  function LengthOr0(v: Value): (n: nat)
    ensures v.Arr? ==> n == |v.items|
    ensures !v.Arr? ==> n == 0
  {
    if v.Arr? then |v.items| else 0
  }

  /** `Array.isArray(v) ? v : []`. */
  function ItemsOrEmpty(v: Value): (r: seq<Value>)
    ensures v.Arr? ==> r == v.items
    ensures !v.Arr? ==> r == []
  {
    if v.Arr? then v.items else []
  }

  /** The two normalisations agree: the count is always the length of the list. */
  lemma LengthOfItems(v: Value)
    ensures LengthOr0(v) == |ItemsOrEmpty(v)|
  {
  }
}

=== FILE: lines.dfy ===
/** Line-by-line processing of a command's captured output: the backend's
    `for line in output.split('\n')` loops that turn some lines into records;
    and the two lookups those loops consult. */
module Lines {
  import opened Prelude
  import opened Text

  /** The parsers' environment: the trusted-IP list read from its JSON file and
      the GeoIP country lookup (which answers 'Unknown' when it fails). */
  datatype Env = Env(trusted: seq<string>, country: string -> string)

  /** The `country` and `is_trusted` fields the backend attaches to an address. */
  datatype Geo = Geo(country: string, isTrusted: bool)

  /** An address the backend could not determine is reported as 'unknown' and
      gets 'Unknown' and untrusted without a lookup; any other goes through both lookups. */
  function GeoOf(ip: string, env: Env): (g: Geo)
    ensures ip == "unknown" ==> g == Geo("Unknown", false)
    ensures ip != "unknown" ==> g.country == env.country(ip) && (g.isTrusted <==> ip in env.trusted)
  {
    if ip == "unknown" then Geo("Unknown", false) else Geo(env.country(ip), ip in env.trusted)
  }

  /** What `f` makes of each line, in line order, skipping the lines it rejects. */
  function Collect<T>(lines: seq<string>, f: string -> Option<T>): (r: seq<T>)
    ensures |r| <= |lines|
    ensures forall k :: 0 <= k < |r| ==> exists i :: 0 <= i < |lines| && f(lines[i]) == Some(r[k])
  {
    if |lines| == 0 then []
    else
      var rest := Collect(lines[1..], f);
      var head := Found(lines[0], f);
      assert forall k :: 0 <= k < |rest| ==> exists i :: 1 <= i < |lines| && f(lines[i]) == Some(rest[k]) by {
        forall k | 0 <= k < |rest| ensures exists i :: 1 <= i < |lines| && f(lines[i]) == Some(rest[k]) {
          var i :| 0 <= i < |lines| - 1 && f(lines[1..][i]) == Some(rest[k]);
          assert lines[i + 1] == lines[1..][i];
        }
      }
      head + rest
  }

  /** The record of one line, if `f` accepts it. */
  function Found<T>(line: string, f: string -> Option<T>): seq<T> {
    match f(line) case Some(x) => [x] case None => []
  }

  /** A line `f` accepts contributes its record. */
  lemma {:induction false} CollectKeeps<T>(lines: seq<string>, f: string -> Option<T>, i: nat)
    requires i < |lines| && f(lines[i]).Some?
    ensures f(lines[i]).value in Collect(lines, f)
  {
    if i > 0 {
      CollectKeeps(lines[1..], f, i - 1);
    }
  }

  lemma {:induction false} CollectAppend<T>(a: seq<string>, b: seq<string>, f: string -> Option<T>)
    ensures Collect(a + b, f) == Collect(a, f) + Collect(b, f)
  {
    if |a| > 0 {
      var t := a[1..];
      assert (a + b)[1..] == t + b && (a + b)[0] == a[0];
      CollectAppend(t, b, f);
      CatAssoc(Found(a[0], f), Collect(t, f), Collect(b, f));
    } else {
      assert a + b == b;
    }
  }

  /** The records of a whole output. A single line yields its own record, if
      any; with `ParseLinesAppend` this fixes the records of every output. */
  function ParseLines<T>(out: string, f: string -> Option<T>): (r: seq<T>)
    ensures |r| <= multiset(out)['\n'] + 1
    ensures '\n' !in out ==> r == Found(out, f)
  {
    SplitCount(out, '\n');
    if '\n' !in out then
      assert SplitOn(out, '\n') == [out];
      assert [out][1..] == [];
      Collect(SplitOn(out, '\n'), f)
    else
      Collect(SplitOn(out, '\n'), f)
  }

  /** A property of every record `f` accepts holds of every parsed record. */
  lemma ParseLinesAll<T>(out: string, f: string -> Option<T>, P: T -> bool)
    requires forall line :: f(line).Some? ==> P(f(line).value)
    ensures forall k :: 0 <= k < |ParseLines(out, f)| ==> P(ParseLines(out, f)[k])
  {
    var lines, r := SplitOn(out, '\n'), ParseLines(out, f);
    forall k | 0 <= k < |r| ensures P(r[k]) {
      var i :| 0 <= i < |lines| && f(lines[i]) == Some(r[k]);
    }
  }

  /** The first separator is the one at `k` when none comes before it. */
  lemma IndexOfAt(s: string, k: nat, c: char)
    requires k < |s| && s[k] == c && c !in s[..k]
    ensures IndexOf(s, c) == k
  {
    var j := IndexOf(s, c);
  }

  /** Splitting a string that has a separator in it splits at the first one, then the rest. */
  lemma {:induction false} SplitOnAppend(a: string, b: string, c: char)
    ensures SplitOn(a + [c] + b, c) == SplitOn(a, c) + SplitOn(b, c)
    decreases |a|
  {
    if c in a {
      var k := IndexOf(a, c);
      var t := a[k + 1..];
      SplitAppendHead(a, b, c, k);
      SplitOnAppend(t, b, c);
      SplitAt(a, k, c);
      ConsAssoc(a[..k], SplitOn(t, c), SplitOn(b, c));
    } else {
      SplitAppendSep(a, b, c);
      assert SplitOn(a, c) == [a];
    }
  }

  lemma CatAssoc<T>(x: seq<T>, p: seq<T>, q: seq<T>)
    ensures x + (p + q) == (x + p) + q
  {
  }

  lemma ConsAssoc<T>(x: T, p: seq<T>, q: seq<T>)
    ensures [x] + (p + q) == ([x] + p) + q
  {
  }

  /** A first separator inside `a` ends the first piece of `a + [c] + b` too. */
  lemma SplitAppendHead(a: string, b: string, c: char, k: nat)
    requires k < |a| && a[k] == c && c !in a[..k]
    ensures SplitOn(a + [c] + b, c) == [a[..k]] + SplitOn(a[k + 1..] + [c] + b, c)
  {
    var s := a + [c] + b;
    assert s[..k] == a[..k] && s[k] == c;
    SplitAt(s, k, c);
    assert s[k + 1..] == a[k + 1..] + [c] + b;
  }

  /** When `a` has no separator, the appended one ends the first piece. */
  lemma SplitAppendSep(a: string, b: string, c: char)
    requires c !in a
    ensures SplitOn(a + [c] + b, c) == [a] + SplitOn(b, c)
  {
    var s := a + [c] + b;
    assert s[..|a|] == a && s[|a|] == c;
    SplitAt(s, |a|, c);
    assert s[|a| + 1..] == b;
  }

  /** The first separator, at `k`, ends the first piece. */
  lemma SplitAt(s: string, k: nat, c: char)
    requires k < |s| && s[k] == c && c !in s[..k]
    ensures SplitOn(s, c) == [s[..k]] + SplitOn(s[k + 1..], c)
  {
    IndexOfAt(s, k, c);
  }

  /** Parsing is line-local: the records of two outputs joined by a newline are
      the records of the first followed by those of the second. */
  lemma ParseLinesAppend<T>(a: string, b: string, f: string -> Option<T>)
    ensures ParseLines(a + "\n" + b, f) == ParseLines(a, f) + ParseLines(b, f)
  {
    SplitOnAppend(a, b, '\n');
    CollectAppend(SplitOn(a, '\n'), SplitOn(b, '\n'), f);
  }
}

=== FILE: monitor.dfy ===
/** The backend's aggregates: the fail2ban status, the intrusion rules, the
    summary counters and the truncated feeds its endpoints serve. */
module Monitor {
  import opened Prelude
  import opened Text
  import opened Lines
  import opened OrderedMap
  import opened SshLog
  import opened Netstat
  import opened UserDirectory
  import opened OpActivity

  // ---------------------------------------------------------------------------
  // fail2ban

  /** `[0-9]{1,3}`: one to three digits. */
  predicate ShortGroup(g: string) {
    0 < |g| <= 3 && AllDigits(g)
  }

  /** `(?:[0-9]{1,3}\.){3}[0-9]{1,3}` spanning a whole token. */
  predicate BannedIpToken(t: string) {
    var gs := SplitOn(t, '.');
    |gs| == 4 && ShortGroup(gs[0]) && ShortGroup(gs[1]) && ShortGroup(gs[2]) && ShortGroup(gs[3])
  }

  /** A banned address and its country. */
  datatype BannedIp = BannedIp(ip: string, country: string)

  datatype Fail2banStatus = Fail2banStatus(bannedIps: seq<BannedIp>, jailStatus: string, totalBanned: nat)

  /** The addresses of the `Banned IP list` line, in order, each with its country;
      an empty output yields none. */
  function BannedIps(out: string, env: Env): (r: seq<BannedIp>)
    ensures |out| == 0 ==> r == []
    ensures |r| <= |Fields(out)|
    ensures forall k :: 0 <= k < |r| ==> BannedIpToken(r[k].ip) && r[k].ip in Fields(out)
    ensures forall k :: 0 <= k < |r| ==> r[k].country == env.country(r[k].ip)
  {
    if |out| == 0 then []
    else
      var ips := Filter(Fields(out), BannedIpToken);
      seq(|ips|, k requires 0 <= k < |ips| => BannedIp(ips[k], env.country(ips[k])))
  }

  /** `get_fail2ban_status`: the jail is 'Activo' exactly when its status command
      printed something, and the banned total is the number of listed addresses. */
  function Fail2ban(bannedOut: string, jailOut: string, env: Env): (r: Fail2banStatus)
    ensures r.bannedIps == BannedIps(bannedOut, env)
    ensures r.jailStatus == (if |jailOut| > 0 then "Activo" else "Inactivo")
    ensures r.totalBanned == |r.bannedIps|
  {
    var banned := BannedIps(bannedOut, env);
    Fail2banStatus(banned, if |jailOut| > 0 then "Activo" else "Inactivo", |banned|)
  }

  /** Addresses printed after a header that holds none come back exactly, in order. */
  lemma BannedIpsOfList(header: string, ips: seq<string>, env: Env)
    requires forall k :: 0 <= k < |ips| ==> BannedIpToken(ips[k]) && NoSpace(ips[k])
    requires forall k :: 0 <= k < |Fields(header)| ==> !BannedIpToken(Fields(header)[k])
    ensures var r := BannedIps(header + " " + JoinWith(ips, ' '), env);
      && |r| == |ips|
      && forall k :: 0 <= k < |r| ==> r[k] == BannedIp(ips[k], env.country(ips[k]))
  {
    var out := header + " " + JoinWith(ips, ' ');
    assert |out| > 0 by { assert out[|header|] == ' '; }
    forall k | 0 <= k < |ips| ensures |ips[k]| > 0 {
      assert |SplitOn(ips[k], '.')| == 4;
    }
    FieldsSpaceAppend(header, JoinWith(ips, ' '));
    FieldsOfJoin(ips);
    assert Fields(out) == Fields(header) + ips;
    FilterAppend(Fields(header), ips, BannedIpToken);
    FilterNone(Fields(header), BannedIpToken);
    FilterAll(ips, BannedIpToken);
    assert Filter(Fields(out), BannedIpToken) == ips;
  }

  // ---------------------------------------------------------------------------
  // Intrusion rules

  datatype Severity = High | Medium

  /** An alert of `detect_potential_intruders`: 'critical' is raised with
      severity 'high', 'warning' with 'medium'. */
  datatype IntrusionAlert = IntrusionAlert(kind: string, severity: Severity)

  datatype Intrusion = Intrusion(totalRegistered: nat, totalActive: nat, alerts: seq<IntrusionAlert>)

  predicate Raises(alerts: seq<IntrusionAlert>, s: Severity) {
    exists k :: 0 <= k < |alerts| && alerts[k].severity == s
  }

  /** The two rules: more active than registered users, and more than 80% of the
      registered users active (`active > registered * 0.8`, i.e. `5 * active > 4 * registered`). */
  function IntrusionRules(registered: nat, active: nat): (r: seq<IntrusionAlert>)
    ensures Raises(r, High) <==> active > registered
    ensures Raises(r, Medium) <==> 5 * active > 4 * registered
    ensures |r| <= 2
    ensures forall k :: 0 <= k < |r| ==> (r[k].kind == "critical" <==> r[k].severity == High)
    ensures forall k :: 0 <= k < |r| ==> (r[k].kind == "warning" <==> r[k].severity == Medium)
    ensures |r| == 2 ==> r[0].severity == High && r[1].severity == Medium
  {
    var high := if active > registered then [IntrusionAlert("critical", High)] else [];
    var medium := if 5 * active > 4 * registered then [IntrusionAlert("warning", Medium)] else [];
    var r := high + medium;
    assert forall k :: 0 <= k < |r| ==> r[k] in high || r[k] in medium;
    assert Raises(r, High) ==> active > registered;
    assert active > registered ==> r[0].severity == High;
    assert 5 * active > 4 * registered ==> r[|r| - 1].severity == Medium;
    r
  }

  /** The high alert never comes alone: more active than registered users is
      in particular more than 80% of them. */
  lemma HighImpliesMedium(registered: nat, active: nat)
    ensures Raises(IntrusionRules(registered, active), High) ==> Raises(IntrusionRules(registered, active), Medium)
    ensures |IntrusionRules(registered, active)| == 2 <==> active > registered
  {
  }

  /** `detect_potential_intruders`: the registered users of the user table
      against the distinct ids of the recent `user=` lines. */
  function DetectIntruders(usersTable: string, recentLog: string, env: Env): (r: Intrusion)
    ensures r.totalRegistered == |Directory(usersTable)|
    ensures r.totalActive == |IndexBy(Hits(recentLog), HitId)|
    ensures Raises(r.alerts, High) <==> r.totalActive > r.totalRegistered
    ensures Raises(r.alerts, Medium) <==> 5 * r.totalActive > 4 * r.totalRegistered
  {
    var dir := Directory(usersTable);
    var active := ActiveUsers(recentLog, dir, env);
    Intrusion(|dir|, |active|, IntrusionRules(|dir|, |active|))
  }

  /** At most two alerts, and some exactly when the 80% rule fires. */
  lemma AlertCount(usersTable: string, recentLog: string, env: Env)
    ensures var r := DetectIntruders(usersTable, recentLog, env);
      && |r.alerts| <= 2
      && (|r.alerts| > 0 <==> 5 * r.totalActive > 4 * r.totalRegistered)
      && r.totalActive == |ActiveUsers(recentLog, Directory(usersTable), env)|
  {
    var r := DetectIntruders(usersTable, recentLog, env);
    assert |r.alerts| > 0 <==> Raises(r.alerts, High) || Raises(r.alerts, Medium);
    HighImpliesMedium(r.totalRegistered, r.totalActive);
  }

  /** With an empty user table any recently active user raises both alerts. */
  lemma EmptyDirectoryAlerts(recentLog: string, env: Env)
    requires |Hits(recentLog)| > 0
    ensures var r := DetectIntruders("", recentLog, env); Raises(r.alerts, High) && Raises(r.alerts, Medium)
  {
    assert |Directory("")| == 0 by {
      EmptyTableNoUsers();
    }
    assert |IndexBy(Hits(recentLog), HitId)| > 0 by {
      var hs := Hits(recentLog);
      IndexKeys(hs, HitId, HitId(hs[0]));
    }
  }

  /** An empty user table lists nobody. */
  lemma EmptyTableNoUsers()
    ensures Directory("") == []
  {
    assert SplitOn("", '\n') == [""];
    assert UserRow("") == None;
  }

  // ---------------------------------------------------------------------------
  // Summary

  /** The outputs of the commands one summary request runs. Each command is
      assumed to print the same text every time the request runs it. */
  datatype Snapshot = Snapshot(
    journal: string,
    sshNetstat: string,
    who: string,
    bannedList: string,
    jailStatus: string,
    failedLoginLog: string,
    loginsTable: string,
    recentLog: string,
    httpNetstat: string,
    httpsNetstat: string,
    usersTable: string)

  /** The counters `/api/summary` serves. */
  datatype Summary = Summary(
    sshFailedLogins: nat,
    sshSuccessfulLogins: nat,
    sshActiveConnections: nat,
    sshBlockedIps: nat,
    opFailedLogins: nat,
    opSuccessfulLogins: nat,
    opActiveUsers: nat,
    opBlockedUsers: nat,
    totalRegisteredUsers: nat,
    potentialSecurityAlerts: nat,
    totalActiveConnections: nat,
    sshAttacks24h: nat,
    sshSuccessful24h: nat,
    opActiveConnections: nat)

  function ApiSummary(s: Snapshot, env: Env): (r: Summary)
    ensures r.sshFailedLogins == |Filter(ParseSshLog(s.journal), IsAttack)|
    ensures r.sshSuccessfulLogins == |Filter(ParseSshLog(s.journal), IsSuccess)|
    ensures r.sshFailedLogins + r.sshSuccessfulLogins == |ParseSshLog(s.journal)|
    ensures r.opFailedLogins == |FailedLogins(s.failedLoginLog, env)|
    ensures r.opSuccessfulLogins == |SuccessfulLogins(s.loginsTable)|
    ensures r.sshActiveConnections
      == |ActiveSshSessions(s.sshNetstat, s.who, env).userSessions| + |ActiveSshSessions(s.sshNetstat, s.who, env).networkConnections|
    ensures r.totalActiveConnections == r.sshActiveConnections + r.opActiveConnections
    ensures r.opActiveConnections == |WebConnections(s.httpNetstat, s.httpsNetstat, env)|
    ensures r.sshBlockedIps == Fail2ban(s.bannedList, s.jailStatus, env).totalBanned
    ensures r.sshAttacks24h == r.sshFailedLogins && r.sshSuccessful24h == r.sshSuccessfulLogins
    ensures r.opBlockedUsers == 0
    ensures r.opActiveUsers == DetectIntruders(s.usersTable, s.recentLog, env).totalActive
    ensures r.totalRegisteredUsers == |Directory(s.usersTable)|
    ensures r.potentialSecurityAlerts == |DetectIntruders(s.usersTable, s.recentLog, env).alerts|
    ensures r.potentialSecurityAlerts <= 2
    ensures r.potentialSecurityAlerts > 0 <==> 5 * r.opActiveUsers > 4 * r.totalRegisteredUsers
  {
    var entries := ParseSshLog(s.journal);
    var attacks := Filter(entries, IsAttack);
    var successes := Filter(entries, IsSuccess);
    AttacksAndSuccesses(entries);
    var ssh := ActiveSshSessions(s.sshNetstat, s.who, env);
    var sshActive := |ssh.userSessions| + |ssh.networkConnections|;
    var web := WebConnections(s.httpNetstat, s.httpsNetstat, env);
    var dir := Directory(s.usersTable);
    var intrusion := DetectIntruders(s.usersTable, s.recentLog, env);
    var alerts := intrusion.alerts;
    AlertCount(s.usersTable, s.recentLog, env);
    Summary(
      |attacks|, |successes|, sshActive, |Fail2ban(s.bannedList, s.jailStatus, env).bannedIps|,
      |FailedLogins(s.failedLoginLog, env)|, |SuccessfulLogins(s.loginsTable)|,
      |ActiveUsers(s.recentLog, dir, env)|, 0,
      intrusion.totalRegistered, |alerts|, sshActive + |web|,
      |attacks|, |successes|, |web|)
  }

  // ---------------------------------------------------------------------------
  // SSH feeds

  /** An attack as `/api/ssh/attacks` serves it. */
  datatype AttackRecord = AttackRecord(entry: SshEntry, country: string)

  /** `/api/ssh/attacks`: the last 100 attack records, each with its country. */
  function AttackFeed(entries: seq<SshEntry>, env: Env): (r: seq<AttackRecord>)
    ensures var attacks := Filter(entries, IsAttack);
      && |r| == (if |attacks| < 100 then |attacks| else 100)
      && forall k :: 0 <= k < |r| ==> r[k].entry == attacks[|attacks| - |r| + k]
    ensures forall k :: 0 <= k < |r| ==> r[k].entry.Attack? && r[k].entry in entries
    ensures forall k :: 0 <= k < |r| ==> r[k].country == env.country(r[k].entry.ip)
  {
    var attacks := Filter(entries, IsAttack);
    var all := seq(|attacks|, k requires 0 <= k < |attacks| => AttackRecord(attacks[k], env.country(attacks[k].ip)));
    LastN(all, 100)
  }

  /** A successful login as `/api/ssh/successful` serves it. */
  datatype SuccessRecord = SuccessRecord(entry: SshEntry, country: string, isTrusted: bool)

  /** `/api/ssh/successful`: the last 50 successful logins, located and checked
      against the trusted list. */
  function SuccessFeed(entries: seq<SshEntry>, env: Env): (r: seq<SuccessRecord>)
    ensures var ok := Filter(entries, IsSuccess);
      && |r| == (if |ok| < 50 then |ok| else 50)
      && forall k :: 0 <= k < |r| ==> r[k].entry == ok[|ok| - |r| + k]
    ensures forall k :: 0 <= k < |r| ==> r[k].entry.Success? && r[k].entry in entries
    ensures forall k :: 0 <= k < |r| ==>
      r[k].country == env.country(r[k].entry.ip) && (r[k].isTrusted <==> r[k].entry.ip in env.trusted)
  {
    var ok := Filter(entries, IsSuccess);
    var all := seq(|ok|, k requires 0 <= k < |ok| =>
      SuccessRecord(ok[k], env.country(ok[k].ip), ok[k].ip in env.trusted));
    LastN(all, 50)
  }

  /** While there are at most 100 attacks, the feed holds every one of them. */
  lemma AttackFeedComplete(entries: seq<SshEntry>, env: Env, e: SshEntry)
    requires |Filter(entries, IsAttack)| <= 100
    requires e in entries && e.Attack?
    ensures exists k :: 0 <= k < |AttackFeed(entries, env)| && AttackFeed(entries, env)[k].entry == e
  {
    var attacks := Filter(entries, IsAttack);
    assert IsAttack(e);
    var i :| 0 <= i < |attacks| && attacks[i] == e;
    assert AttackFeed(entries, env)[i].entry == e;
  }

  /** `/api/openproject/users-db`: the directory's users in insertion order, one per id. */
  function UsersDbFeed(usersTable: string): (r: seq<DbUser>)
    ensures |r| == |Directory(usersTable)|
    ensures forall a, b :: 0 <= a < b < |r| ==> r[a].id != r[b].id
  {
    var d := Directory(usersTable);
    DistinctIds(d);
    Values(d)
  }

  /** Values keyed by their own ids, under distinct keys, have distinct ids. */
  lemma DistinctIds(d: Dict<int, DbUser>)
    requires UniqueKeys(d) && forall i :: 0 <= i < |d| ==> d[i].1.id == d[i].0
    ensures forall a, b :: 0 <= a < b < |Values(d)| ==> Values(d)[a].id != Values(d)[b].id
  {
    var r := Values(d);
    assert forall k :: 0 <= k < |r| ==> r[k].id == d[k].0;
  }
}

=== FILE: netstat.dfy ===
/** The backend's readers of `netstat -tn` output (live TCP peers on the web
    ports and on the SSH port) and of `w` output (logged-in SSH users). */
module Netstat {
  import opened Prelude
  import opened Text
  import opened Lines

  /** A remote peer of an established connection. */
  datatype NetConn = NetConn(
    remoteIp: string, remotePort: string, localPort: string, country: string, isTrusted: bool)

  datatype Protocol = Http | Https

  datatype WebConn = WebConn(conn: NetConn, protocol: Protocol)

  /** `remote_ip in ['127.0.0.1', '::1']` */
  predicate IsLoopback(ip: string) {
    ip == "127.0.0.1" || ip == "::1"
  }

  /** One `netstat -tn` line: at least five fields; the fifth (remote address)
      split at its last ':'; the local port is what follows the fourth field's
      last ':'; loopback peers are dropped. */
  function ConnLine(line: string, env: Env): (r: Option<NetConn>)
    ensures r.Some? ==> (
      && |Fields(line)| >= 5
      && r.value.remoteIp + ":" + r.value.remotePort == Fields(line)[4]
      && ':' !in r.value.remotePort
      && !IsLoopback(r.value.remoteIp))
    ensures r.Some? ==> (
      && ':' !in r.value.localPort
      && (r.value.localPort == Fields(line)[3] || exists a :: a + ":" + r.value.localPort == Fields(line)[3]))
    ensures r.Some? ==> (
      && r.value.country == env.country(r.value.remoteIp)
      && (r.value.isTrusted <==> r.value.remoteIp in env.trusted))
    ensures r.None? ==> (
      || |Fields(line)| < 5
      || ':' !in Fields(line)[4]
      || exists ip, port :: ip + ":" + port == Fields(line)[4] && ':' !in port && IsLoopback(ip))
  {
    FieldsOfBlank(line);
    if |Strip(line)| == 0 then None
    else
      var parts := Fields(line);
      if |parts| < 5 then None
      else
        match RSplitOnce(parts[4], ':')
        case None => None
        case Some((ip, port)) =>
          if IsLoopback(ip) then None
          else Some(NetConn(ip, port, LastPiece(parts[3], ':'), env.country(ip), ip in env.trusted))
  }

  function ConnLineIn(env: Env): string -> Option<NetConn> {
    line => ConnLine(line, env)
  }

  /** The peers of one `netstat` output, in line order. */
  function ParseConns(out: string, env: Env): (r: seq<NetConn>)
    ensures forall k :: 0 <= k < |r| ==> !IsLoopback(r[k].remoteIp)
    ensures '\n' !in out ==> r == Found(out, ConnLineIn(env))
  {
    ParseLines(out, ConnLineIn(env))
  }

  /** Every `netstat` line contributes exactly its own peer, in order. */
  lemma ParseConnsAppend(a: string, b: string, env: Env)
    ensures ParseConns(a + "\n" + b, env) == ParseConns(a, env) + ParseConns(b, env)
  {
    ParseLinesAppend(a, b, ConnLineIn(env));
  }

  /** The port-80 peers, then the port-443 peers, each tagged with its protocol. */
  function Merge(http: seq<NetConn>, https: seq<NetConn>): (r: seq<WebConn>)
    ensures |r| == |http| + |https|
    ensures forall k :: 0 <= k < |r| ==> (r[k].protocol == Http <==> k < |http|)
    ensures forall k :: 0 <= k < |r| ==> r[k].conn == if k < |http| then http[k] else https[k - |http|]
  {
    seq(|http| + |https|, k requires 0 <= k < |http| + |https| =>
      if k < |http| then WebConn(http[k], Http) else WebConn(https[k - |http|], Https))
  }

  /** `get_active_web_connections`: the port-80 peers, then the port-443 peers. */
  function WebConnections(httpOut: string, httpsOut: string, env: Env): (r: seq<WebConn>)
    ensures |r| == |ParseConns(httpOut, env)| + |ParseConns(httpsOut, env)|
    ensures forall k :: 0 <= k < |r| ==> (r[k].protocol == Http <==> k < |ParseConns(httpOut, env)|)
    ensures forall k :: 0 <= k < |r| ==> !IsLoopback(r[k].conn.remoteIp)
  {
    Merge(ParseConns(httpOut, env), ParseConns(httpsOut, env))
  }

  /** The SSH-port reader additionally insists on 'ESTABLISHED' in the line. */
  function SshConnLine(line: string, env: Env): (r: Option<NetConn>)
    ensures r.Some? <==> Contains(line, "ESTABLISHED") && ConnLine(line, env).Some?
  {
    if Contains(line, "ESTABLISHED") then ConnLine(line, env) else None
  }

  function SshConnLineIn(env: Env): string -> Option<NetConn> {
    line => SshConnLine(line, env)
  }

  /** A logged-in user as `w` lists it. */
  datatype UserSession = UserSession(
    user: string, terminal: string, loginTime: string, ip: string, country: string, isTrusted: bool)

  /** One `w` line after the two header lines: not blank, not starting with
      'USER', at least eight fields, and a dotted-quad FROM column. */
  function SessionLine(line: string, env: Env): (r: Option<UserSession>)
    ensures r.Some? <==> !StartsWith(line, "USER") && |Fields(line)| >= 8 && IsDottedQuad(Fields(line)[2])
    ensures r.Some? ==> (
      && r.value.ip == Fields(line)[2]
      && r.value.user == Fields(line)[0]
      && r.value.terminal == Fields(line)[1]
      && r.value.loginTime == Fields(line)[3]
      && r.value.country == env.country(r.value.ip)
      && (r.value.isTrusted <==> r.value.ip in env.trusted))
  {
    FieldsOfBlank(line);
    if |Strip(line)| == 0 || StartsWith(line, "USER") then None
    else
      var parts := Fields(line);
      if |parts| < 8 || !IsDottedQuad(parts[2]) then None
      else Some(UserSession(parts[0], parts[1], parts[3], parts[2], env.country(parts[2]), parts[2] in env.trusted))
  }

  function SessionLineIn(env: Env): string -> Option<UserSession> {
    line => SessionLine(line, env)
  }

  /** `for line in lines[2:]`: everything after the two header lines. */
  function UserSessions(wOut: string, env: Env): (r: seq<UserSession>)
    ensures forall k :: 0 <= k < |r| ==> IsDottedQuad(r[k].ip)
    ensures multiset(wOut)['\n'] < 2 ==> r == []
  {
    SplitCount(wOut, '\n');
    var lines := SplitOn(wOut, '\n');
    if |lines| <= 2 then [] else Collect(lines[2..], SessionLineIn(env))
  }

  /** The two header lines never contribute, whatever they say. */
  lemma HeaderSkipped(h1: string, h2: string, body: string, env: Env)
    requires '\n' !in h1 && '\n' !in h2
    ensures UserSessions(h1 + "\n" + h2 + "\n" + body, env) == ParseLines(body, SessionLineIn(env))
  {
    var s := h1 + "\n" + h2 + "\n" + body;
    var rest := h2 + ['\n'] + body;
    assert s == h1 + ['\n'] + rest;
    SplitAppendSep(h1, rest, '\n');
    SplitAppendSep(h2, body, '\n');
    DropTwo(h1, h2, SplitOn(body, '\n'));
  }

  /** Every established SSH peer line contributes exactly its own peer, in order. */
  lemma SshPeersAppend(a: string, b: string, wOut: string, env: Env)
    ensures ActiveSshSessions(a + "\n" + b, wOut, env).networkConnections
      == ActiveSshSessions(a, wOut, env).networkConnections + ActiveSshSessions(b, wOut, env).networkConnections
  {
    ParseLinesAppend(a, b, SshConnLineIn(env));
  }

  lemma DropTwo<T>(x: T, y: T, r: seq<T>)
    ensures ([x] + ([y] + r))[2..] == r
  {
  }

  /** `get_active_ssh_sessions`: logged-in users and established SSH peers. */
  datatype SshSessions = SshSessions(userSessions: seq<UserSession>, networkConnections: seq<NetConn>)

  function ActiveSshSessions(netstatOut: string, wOut: string, env: Env): (r: SshSessions)
    ensures forall k :: 0 <= k < |r.networkConnections| ==> !IsLoopback(r.networkConnections[k].remoteIp)
    ensures forall k :: 0 <= k < |r.userSessions| ==> IsDottedQuad(r.userSessions[k].ip)
    ensures r.userSessions == UserSessions(wOut, env)
    ensures '\n' !in netstatOut ==> r.networkConnections == Found(netstatOut, SshConnLineIn(env))
  {
    SshSessions(UserSessions(wOut, env), ParseLines(netstatOut, SshConnLineIn(env)))
  }
}

=== FILE: op_activity.dfy ===
/** The backend's readers of the OpenProject container log: request lines with
    their per-user session counters (`get_openproject_logs`) and the recently
    active users (`get_openproject_active_users`). */
module OpActivity {
  import opened Prelude
  import opened Text
  import opened Lines
  import opened OrderedMap
  import opened UserDirectory

  /** `re.search(prefix + '(CLASS+)', line)` finds something. */
  predicate HasMatch(line: string, prefix: string, cls: CharClass) {
    exists j :: 0 <= j <= |line| && MatchAt(line, j, prefix, cls, "")
  }

  /** `float(tok)` of a `[0-9.]+` token succeeds exactly when the token has at
      most one '.' and at least one digit ("1.", ".5" and "12" parse; "." and
      "1.2.3" raise). */
  predicate FloatToken(tok: string) {
    multiset(tok)['.'] <= 1 && exists k :: 0 <= k < |tok| && IsDigit(tok[k])
  }

  // ---------------------------------------------------------------------------
  // Request lines

  /** A request-log line: its `ip`, `host`, `user_id`, `method` (`httpMethod`), `path`, `status`,
      the `duration` token (absent: the source's 0) and `timestamp`. */
  datatype AccessEntry = AccessEntry(
    ip: string, host: string, userId: string, httpMethod: string, path: string,
    status: int, duration: Option<string>, timestamp: string)

  const Anonymous: string := "anonymous"

  /** `socket.gethostbyname`, answering `None` where it raises. */
  type Resolver = string -> Option<string>

  /** The address of a request's host: 'unknown' for an unknown or local host,
      else what the resolver says about the part before ':', else that part when
      the host starts with a dotted quad, else the host itself. */
  function ResolveIp(host: string, resolve: Resolver): string {
    if host == "unknown" || host == "localhost" then "unknown"
    else
      match resolve(FirstPiece(host, ':'))
      case Some(ip) => ip
      case None => if StartsWithDottedQuad(host) then FirstPiece(host, ':') else host
  }

  /** A host written `a.b.c.d` or `a.b.c.d:port` that the resolver cannot answer
      for is reported as `a.b.c.d`. */
  lemma ResolveQuadHost(q: string, port: Option<string>, resolve: Resolver)
    requires IsDottedQuad(q) && resolve(q).None?
    ensures ResolveIp(match port case Some(p) => q + ":" + p case None => q, resolve) == q
  {
    match port
    case Some(p) => ResolveQuadPort(q, p, resolve);
    case None => ResolveQuadBare(q, resolve);
  }

  lemma ResolveQuadPort(q: string, p: string, resolve: Resolver)
    requires IsDottedQuad(q) && resolve(q).None?
    ensures ResolveIp(q + ":" + p, resolve) == q
  {
    var h := q + ":" + p;
    DottedQuadChars(q);
    assert h == q + (":" + p);
    StartsWithQuad(q, ":" + p);
    assert h[..|q|] == q;
    IndexOfAt(h, |q|, ':');
    assert FirstPiece(h, ':') == q;
    assert h[0] == q[0];
    DigitHostNamed(h);
  }

  /** A host starting with a digit is neither of the two special names. */
  lemma DigitHostNamed(h: string)
    requires |h| > 0 && IsDigit(h[0])
    ensures h != "unknown" && h != "localhost"
  {
    assert "unknown"[0] == 'u' && "localhost"[0] == 'l';
  }

  lemma ResolveQuadBare(q: string, resolve: Resolver)
    requires IsDottedQuad(q) && resolve(q).None?
    ensures ResolveIp(q, resolve) == q
  {
    DottedQuadChars(q);
    StartsWithQuad(q, "");
    assert q + "" == q;
    DigitHostNamed(q);
  }

  /** The line carries the request keywords and both mandatory groups. */
  predicate RequestLine(line: string) {
    && Contains(line, "INFO --")
    && Contains(line, "duration=") && Contains(line, "status=") && Contains(line, "method=")
    && HasMatch(line, "status=", Digits) && HasMatch(line, "method=", Word)
  }

  /** The `duration=` group is present but `float()` rejects it; the raise drops the line. */
  predicate BadDuration(line: string) {
    var d := Search(line, "duration=", DigitsDots, "");
    d.Some? && !FloatToken(d.value)
  }

  /** `tok` is what `re.search(prefix + '(CLASS+)', line)` captures: the whole run
      of `cls` characters after the leftmost occurrence of `prefix` that one follows. */
  ghost predicate CapturedAfter(line: string, prefix: string, tok: string, cls: CharClass) {
    && |tok| > 0
    && (forall k :: 0 <= k < |tok| ==> InClass(tok[k], cls))
    && exists i: nat :: FirstGroupAt(line, i, prefix, cls, "", tok)
  }

  /** The group `Search` captures is written right after its prefix. */
  lemma Captured(line: string, prefix: string, cls: CharClass)
    requires Search(line, prefix, cls, "").Some?
    ensures CapturedAfter(line, prefix, Search(line, prefix, cls, "").value, cls)
  {
  }

  /** A token captured after `prefix` is the one `Search` returns, so the fields
      the contracts below name by `CapturedAfter` are determined by the line. */
  lemma CapturedIsSearch(line: string, prefix: string, tok: string, cls: CharClass)
    requires CapturedAfter(line, prefix, tok, cls)
    ensures Search(line, prefix, cls, "") == Some(tok)
  {
    var i: nat :| FirstGroupAt(line, i, prefix, cls, "", tok);
    SearchFindsFirstGroup(line, i, prefix, cls, "", tok);
  }

  /** A line in which a keyword-led group matches is not blank, so `line.strip()` passes it. */
  lemma MatchNotBlank(line: string, prefix: string, cls: CharClass)
    requires |prefix| > 0 && !IsSpace(prefix[0])
    ensures HasMatch(line, prefix, cls) ==> Contains(line, prefix) && !IsBlank(line)
  {
    if HasMatch(line, prefix, cls) {
      var j :| 0 <= j <= |line| && MatchAt(line, j, prefix, cls, "");
      assert InfixAt(line, j, prefix);
      ContainsAt(line, prefix);
      NotBlankOfContains(line, prefix);
    }
  }

  /** One request line, or `None` when it is skipped or its parse raises. */
  function AccessLine(line: string, resolve: Resolver): (r: Option<AccessEntry>)
    ensures r.Some? ==> RequestLine(line)
    ensures RequestLine(line) ==> (r.Some? <==> !BadDuration(line))
    ensures r.Some? ==> (
      && CapturedAfter(line, "method=", r.value.httpMethod, Word)
      && exists tok :: CapturedAfter(line, "status=", tok, Digits) && r.value.status == DigitsValue(tok))
    ensures r.Some? ==> (
      && (r.value.userId == Anonymous <==> !HasMatch(line, "user=", Digits))
      && (r.value.userId != Anonymous ==> CapturedAfter(line, "user=", r.value.userId, Digits)))
    ensures r.Some? ==> (
      && GroupOr(line, "host=", NonSpace, "", "unknown", r.value.host)
      && r.value.ip == ResolveIp(r.value.host, resolve))
    ensures r.Some? ==> (
      && GroupOr(line, "path=", NonSpace, "", "unknown", r.value.path)
      && GroupOr(line, "[", StampChars, " #", "unknown", r.value.timestamp)
      && r.value.duration == Search(line, "duration=", DigitsDots, ""))
  {
    MatchNotBlank(line, "status=", Digits);
    if |Strip(line)| == 0 || !RequestLine(line) then
      None
    else
      var status := Search(line, "status=", Digits, "").value;
      var verb := Search(line, "method=", Word, "").value;
      var duration := Search(line, "duration=", DigitsDots, "");
      if duration.Some? && !FloatToken(duration.value) then None
      else
        var host := Search(line, "host=", NonSpace, "");
        var user := Search(line, "user=", Digits, "");
        Captured(line, "status=", Digits);
        Captured(line, "method=", Word);
        AccessUser(line);
        AccessHost(line);
        SearchOr(line, "path=", NonSpace, "", "unknown");
        SearchOr(line, "[", StampChars, " #", "unknown");
        Some(AccessEntry(
          ResolveIp(host.GetOr("unknown"), resolve), host.GetOr("unknown"), user.GetOr(Anonymous), verb,
          Search(line, "path=", NonSpace, "").GetOr("unknown"),
          DigitsValue(status), duration,
          Search(line, "[", StampChars, " #").GetOr("unknown")))
  }

  /** The `user_id` of a request line: its `user=` digits, else 'anonymous'. */
  lemma AccessUser(line: string)
    ensures var u := Search(line, "user=", Digits, "").GetOr(Anonymous);
      && (u == Anonymous <==> !HasMatch(line, "user=", Digits))
      && (u != Anonymous ==> CapturedAfter(line, "user=", u, Digits))
  {
    var user := Search(line, "user=", Digits, "");
    if user.Some? {
      assert !IsDigit(Anonymous[0]);
      assert user.value != Anonymous;
      Captured(line, "user=", Digits);
    }
  }

  /** The `host` of a request line: its leftmost `host=` token, else 'unknown'. */
  lemma AccessHost(line: string)
    ensures var h := Search(line, "host=", NonSpace, "").GetOr("unknown");
      && GroupOr(line, "host=", NonSpace, "", "unknown", h)
      && (HasGroup(line, "host=", NonSpace, "") ==> CapturedAfter(line, "host=", h, NonSpace))
  {
    SearchOr(line, "host=", NonSpace, "", "unknown");
    if Search(line, "host=", NonSpace, "").Some? {
      Captured(line, "host=", NonSpace);
    }
  }

  function AccessLineIn(resolve: Resolver): string -> Option<AccessEntry> {
    line => AccessLine(line, resolve)
  }

  /** The `entries` of `get_openproject_logs`, in line order. */
  function AccessEntries(out: string, resolve: Resolver): (r: seq<AccessEntry>)
    ensures forall k :: 0 <= k < |r| ==> UserShaped(r[k])
    ensures '\n' !in out ==> r == Found(out, AccessLineIn(resolve))
  {
    var f := AccessLineIn(resolve);
    assert forall line :: f(line).Some? ==> UserShaped(f(line).value) by {
      forall line | f(line).Some? ensures UserShaped(f(line).value) {
        AccessLineUser(line, resolve);
      }
    }
    ParseLinesAll(out, f, UserShaped);
    ParseLines(out, f)
  }

  /** Every request line contributes exactly its own entry, in order. */
  lemma AccessEntriesAppend(a: string, b: string, resolve: Resolver)
    ensures AccessEntries(a + "\n" + b, resolve) == AccessEntries(a, resolve) + AccessEntries(b, resolve)
  {
    ParseLinesAppend(a, b, AccessLineIn(resolve));
  }

  /** An entry's user is 'anonymous' or a non-empty run of digits. */
  predicate UserShaped(e: AccessEntry) {
    e.userId == Anonymous || (|e.userId| > 0 && AllDigits(e.userId))
  }

  lemma AccessLineUser(line: string, resolve: Resolver)
    ensures AccessLine(line, resolve).Some? ==> UserShaped(AccessLine(line, resolve).value)
  {
  }

  // ---------------------------------------------------------------------------
  // Per-user sessions

  /** A `user_sessions` value. */
  datatype OpSession = OpSession(userId: string, host: string, ip: string, lastActivity: string, requests: nat)

  /** `user_sessions.get(user_id, {}).get('requests', 0)` */
  function Requests(d: Dict<string, OpSession>, k: string): nat {
    match Get(d, k)
    case Some(s) => s.requests
    case None => 0
  }

  /** Session keys are their sessions' user ids, never 'anonymous', and every
      session has seen at least one request. */
  predicate WellKeyed(d: Dict<string, OpSession>) {
    && UniqueKeys(d)
    && forall i :: 0 <= i < |d| ==> d[i].1.userId == d[i].0 && d[i].0 != Anonymous && d[i].1.requests >= 1
  }

  /** The session update of one request line: a non-anonymous entry rewrites its
      user's session from its own fields and one more request. */
  function Record(d: Dict<string, OpSession>, e: AccessEntry): (r: Dict<string, OpSession>)
    requires WellKeyed(d)
    ensures WellKeyed(r)
    ensures |r| <= |d| + 1
  {
    if e.userId == Anonymous then d
    else
      var s := OpSession(e.userId, e.host, e.ip, e.timestamp, Requests(d, e.userId) + 1);
      PutUnique(d, e.userId, s);
      PutValues(d, e.userId, s);
      Put(d, e.userId, s)
  }

  /** A request keeps every key in place and appends its user when new. */
  lemma RecordKeys(d: Dict<string, OpSession>, e: AccessEntry)
    requires WellKeyed(d)
    ensures var r := Record(d, e);
      && |d| <= |r| <= |d| + 1
      && (forall i :: 0 <= i < |d| ==> r[i].0 == d[i].0)
      && (|r| > |d| <==> e.userId != Anonymous && !HasKey(d, e.userId))
      && (|r| > |d| ==> r[|d|].0 == e.userId)
      && (e.userId != Anonymous ==> HasKey(r, e.userId))
  {
  }

  /** The sessions after the given entries, in the order users first appeared. */
  function TrackSessions(es: seq<AccessEntry>): (d: Dict<string, OpSession>)
    ensures WellKeyed(d)
    ensures |d| <= |es|
  {
    if |es| == 0 then [] else Record(TrackSessions(es[..|es| - 1]), es[|es| - 1])
  }

  /** One more entry adds one request to its own user's counter and leaves
      every other counter alone. */
  lemma RecordRequests(d: Dict<string, OpSession>, e: AccessEntry, k: string)
    requires WellKeyed(d)
    ensures Requests(Record(d, e), k) == Requests(d, k) + (if e.userId == k && k != Anonymous then 1 else 0)
  {
    if e.userId != Anonymous {
      var s := OpSession(e.userId, e.host, e.ip, e.timestamp, Requests(d, e.userId) + 1);
      assert Record(d, e) == Put(d, e.userId, s);
      PutGet(d, e.userId, s, k);
    } else {
      assert Record(d, e) == d;
    }
  }

  function UserIdOf(e: AccessEntry): string { e.userId }

  function ByUser(k: string): AccessEntry -> bool {
    (e: AccessEntry) => e.userId == k
  }

  /** A session's counter is the number of its user's parsed requests. */
  lemma {:induction false} RequestsCounted(es: seq<AccessEntry>, k: string)
    requires k != Anonymous
    ensures Requests(TrackSessions(es), k) == |Filter(es, ByUser(k))|
  {
    if |es| > 0 {
      var init, e := es[..|es| - 1], es[|es| - 1];
      assert es == init + [e];
      FilterAppend(init, [e], ByUser(k));
      assert |Filter([e], ByUser(k))| == if e.userId == k then 1 else 0;
      RequestsCounted(init, k);
      RecordRequests(TrackSessions(init), e, k);
    }
  }

  /** In the session table a key is present exactly when its counter is positive. */
  lemma PresentIffCounted(es: seq<AccessEntry>, k: string)
    ensures HasKey(TrackSessions(es), k) <==> Requests(TrackSessions(es), k) > 0
  {
    var d := TrackSessions(es);
    if HasKey(d, k) {
      var j :| 0 <= j < |d| && d[j] == (k, Get(d, k).value);
    }
  }

  /** A user has a session exactly when one of its requests was parsed, and the
      session's counter is the number of those requests. */
  lemma SessionCountsRequests(es: seq<AccessEntry>, k: string)
    ensures HasKey(TrackSessions(es), k) <==> k != Anonymous && |Filter(es, ByUser(k))| > 0
    ensures k != Anonymous ==> Requests(TrackSessions(es), k) == |Filter(es, ByUser(k))|
  {
    PresentIffCounted(es, k);
    if k != Anonymous {
      RequestsCounted(es, k);
    }
  }

  /** After one more entry, its user's session is built from that entry; every
      other session is unchanged. */
  lemma RecordGet(d: Dict<string, OpSession>, e: AccessEntry, k: string)
    requires WellKeyed(d)
    ensures Get(Record(d, e), k) == if e.userId == k && k != Anonymous
      then Some(OpSession(k, e.host, e.ip, e.timestamp, Requests(d, k) + 1))
      else Get(d, k)
  {
    if e.userId != Anonymous {
      var s := OpSession(e.userId, e.host, e.ip, e.timestamp, Requests(d, e.userId) + 1);
      assert Record(d, e) == Put(d, e.userId, s);
      PutGet(d, e.userId, s, k);
    } else {
      assert Record(d, e) == d;
    }
  }

  /** A session's host, address and last activity are those of its user's LAST request. */
  lemma {:induction false} SessionLastSeen(es: seq<AccessEntry>, k: string, s: OpSession)
    requires Get(TrackSessions(es), k) == Some(s)
    ensures exists i :: (
      && LastWith(es, UserIdOf, k, i)
      && s.userId == k && s.host == es[i].host && s.ip == es[i].ip && s.lastActivity == es[i].timestamp)
  {
    var n := |es| - 1;
    var init, e := es[..n], es[n];
    RecordGet(TrackSessions(init), e, k);
    if e.userId == k && k != Anonymous {
      assert LastWith(es, UserIdOf, k, n);
    } else {
      assert e.userId != k by {
        var d := TrackSessions(es);
        var j :| 0 <= j < |d| && d[j] == (k, s);
      }
      SessionLastSeen(init, k, s);
      var i :| LastWith(init, UserIdOf, k, i)
        && s.userId == k && s.host == init[i].host && s.ip == init[i].ip && s.lastActivity == init[i].timestamp;
      LastWithDrop(es, UserIdOf, k, i);
      assert es[i] == init[i];
    }
  }

  /** No two sessions belong to the same user. */
  predicate OneSessionPerUser(ss: seq<OpSession>) {
    forall a, b :: 0 <= a < b < |ss| ==> ss[a].userId != ss[b].userId
  }

  /** `s` is what the session table holds for its user after `es`: the number of
      that user's entries, and the host, address and timestamp of the last one. */
  ghost predicate SessionFrom(es: seq<AccessEntry>, s: OpSession) {
    && s.userId != Anonymous
    && s.requests == |Filter(es, ByUser(s.userId))|
    && (exists i :: LastWith(es, UserIdOf, s.userId, i)
         && s.host == es[i].host && s.ip == es[i].ip && s.lastActivity == es[i].timestamp)
  }

  /** `ss` holds one session for each named user with entries in `es`, and
      nothing else. */
  ghost predicate SessionsOf(es: seq<AccessEntry>, ss: seq<OpSession>) {
    && (forall k :: 0 <= k < |ss| ==> SessionFrom(es, ss[k]))
    && (forall u :: u != Anonymous && |Filter(es, ByUser(u))| > 0 ==>
          exists k :: 0 <= k < |ss| && ss[k].userId == u)
  }

  /** The position of the user's first entry, `|es|` when there is none. */
  function FirstEntry(es: seq<AccessEntry>, u: string): (i: nat)
    ensures i <= |es|
    ensures i < |es| ==> es[i].userId == u
    ensures forall j :: 0 <= j < i ==> es[j].userId != u
  {
    if |es| == 0 then 0 else if es[0].userId == u then 0 else 1 + FirstEntry(es[1..], u)
  }

  /** Sessions listed in the order their users first appeared in the entries. */
  predicate FirstAppearanceOrder(es: seq<AccessEntry>, ss: seq<OpSession>) {
    forall a, b :: 0 <= a < b < |ss| ==> FirstEntry(es, ss[a].userId) < FirstEntry(es, ss[b].userId)
  }

  /** One more entry moves no user's first entry, and gives its own user a first
      entry at the end when it had none. */
  lemma FirstEntrySnoc(es: seq<AccessEntry>, e: AccessEntry, u: string)
    ensures FirstEntry(es + [e], u) == if FirstEntry(es, u) < |es| then FirstEntry(es, u)
      else if e.userId == u then |es| else |es| + 1
  {
    var i := FirstEntry(es, u);
    assert forall j :: 0 <= j < |es| ==> (es + [e])[j] == es[j];
    if i < |es| {
      assert (es + [e])[i].userId == u;
    } else if e.userId == u {
      assert (es + [e])[|es|].userId == u;
    }
  }

  /** The session table keys its users in the order of their first entries, and
      its keys are the named users with an entry. */
  ghost predicate KeysInOrder(es: seq<AccessEntry>, d: Dict<string, OpSession>) {
    && (forall u :: u != Anonymous && FirstEntry(es, u) < |es| ==> HasKey(d, u))
    && (forall a :: 0 <= a < |d| ==> FirstEntry(es, d[a].0) < |es|)
    && (forall a, b :: 0 <= a < b < |d| ==> FirstEntry(es, d[a].0) < FirstEntry(es, d[b].0))
  }

  lemma {:induction false} TrackOrder(es: seq<AccessEntry>)
    ensures KeysInOrder(es, TrackSessions(es))
    decreases |es|
  {
    if |es| > 0 {
      var init, e := es[..|es| - 1], es[|es| - 1];
      assert es == init + [e];
      TrackOrder(init);
      RecordOrder(init, e, TrackSessions(init));
    }
  }

  /** One more request keeps the table's keys in first-entry order. */
  lemma RecordOrder(init: seq<AccessEntry>, e: AccessEntry, d: Dict<string, OpSession>)
    requires WellKeyed(d) && KeysInOrder(init, d)
    ensures KeysInOrder(init + [e], Record(d, e))
  {
    var es, d' := init + [e], Record(d, e);
    RecordKeys(d, e);
    forall u | u != Anonymous && FirstEntry(es, u) < |es| ensures HasKey(d', u) {
      FirstEntrySnoc(init, e, u);
      if FirstEntry(init, u) < |init| {
        var i :| 0 <= i < |d| && d[i].0 == u;
        assert d'[i].0 == u;
      }
    }
    forall a | 0 <= a < |d'| ensures FirstEntry(es, d'[a].0) < |es| {
      FirstEntrySnoc(init, e, d'[a].0);
    }
    forall a, b | 0 <= a < b < |d'| ensures FirstEntry(es, d'[a].0) < FirstEntry(es, d'[b].0) {
      FirstEntrySnoc(init, e, d'[a].0);
      FirstEntrySnoc(init, e, d'[b].0);
    }
  }

  /** The values of the session table follow the users' first entries. */
  lemma SessionsInOrder(es: seq<AccessEntry>)
    ensures FirstAppearanceOrder(es, Values(TrackSessions(es)))
  {
    var d := TrackSessions(es);
    TrackOrder(es);
    assert forall k :: 0 <= k < |d| ==> Values(d)[k].userId == d[k].0;
  }

  /** `get_openproject_logs`: the entries and `list(user_sessions.values())`. */
  function OpenProjectLogs(out: string, resolve: Resolver): (r: (seq<AccessEntry>, seq<OpSession>))
    ensures r.0 == AccessEntries(out, resolve)
    ensures |r.1| <= |r.0|
    ensures OneSessionPerUser(r.1)
    ensures forall k :: 0 <= k < |r.1| ==> r.1[k].requests >= 1
    ensures SessionsOf(r.0, r.1)
    ensures FirstAppearanceOrder(r.0, r.1)
  {
    var es := AccessEntries(out, resolve);
    var d := TrackSessions(es);
    SessionValues(d);
    SessionsOfTable(es);
    SessionsInOrder(es);
    (es, Values(d))
  }

  /** The values of the session table are exactly the sessions of the users
      that have entries, each built from its user's entries. */
  lemma SessionsOfTable(es: seq<AccessEntry>)
    ensures SessionsOf(es, Values(TrackSessions(es)))
  {
    var d := TrackSessions(es);
    var ss := Values(d);
    forall k | 0 <= k < |ss| ensures SessionFrom(es, ss[k]) {
      var u, s := d[k].0, d[k].1;
      GetAt(d, k);
      SessionLastSeen(es, u, s);
      SessionCountsRequests(es, u);
    }
    forall u | u != Anonymous && |Filter(es, ByUser(u))| > 0
      ensures exists k :: 0 <= k < |ss| && ss[k].userId == u
    {
      SessionCountsRequests(es, u);
      var j :| 0 <= j < |d| && d[j].0 == u;
      assert ss[j].userId == u;
    }
  }

  /** The sessions of a well-keyed table belong to distinct, named users. */
  lemma SessionValues(d: Dict<string, OpSession>)
    requires WellKeyed(d)
    ensures |Values(d)| == |d| && OneSessionPerUser(Values(d))
    ensures forall k :: 0 <= k < |Values(d)| ==> Values(d)[k].userId != Anonymous && Values(d)[k].requests >= 1
  {
    var r := Values(d);
    assert forall k :: 0 <= k < |r| ==> r[k] == d[k].1;
  }

  /** A session as `/api/openproject/users` serves it. */
  datatype OpUser = OpUser(session: OpSession, geo: Geo)

  /** `/api/openproject/users`: every session, located by its address. */
  function UsersFeed(sessions: seq<OpSession>, env: Env): (r: seq<OpUser>)
    ensures |r| == |sessions|
    ensures forall k :: 0 <= k < |r| ==> r[k].session == sessions[k] && r[k].geo == GeoOf(sessions[k].ip, env)
  {
    seq(|sessions|, k requires 0 <= k < |sessions| => OpUser(sessions[k], GeoOf(sessions[k].ip, env)))
  }

  /** An entry as `/api/openproject/access` serves it. */
  datatype AccessRecord = AccessRecord(entry: AccessEntry, geo: Geo)

  /** `/api/openproject/access`: the last 100 request entries, each located by its address. */
  function AccessFeed(entries: seq<AccessEntry>, env: Env): (r: seq<AccessRecord>)
    ensures |r| == if |entries| < 100 then |entries| else 100
    ensures forall k :: 0 <= k < |r| ==> (
      && r[k].entry == entries[|entries| - |r| + k]
      && r[k].geo == GeoOf(r[k].entry.ip, env))
  {
    var all := seq(|entries|, k requires 0 <= k < |entries| => AccessRecord(entries[k], GeoOf(entries[k].ip, env)));
    LastN(all, 100)
  }

  // ---------------------------------------------------------------------------
  // Recently active users

  /** What one `user=` line contributes: the id, the address if the host is
      `a.b.c.d:port`, and the timestamp. */
  datatype Hit = Hit(userId: int, ip: Option<string>, timestamp: string)

  /** The IP of a `host=` value written `a.b.c.d:port`: the part before the first
      ':' when the host has a ':' and that part is exactly a dotted quad. */
  function HostIp(host: string): (r: Option<string>)
    ensures r.Some? ==> IsDottedQuad(r.value) && StartsWith(host, r.value + ":")
  {
    if ':' in host && IsDottedQuad(FirstPiece(host, ':')) then Some(FirstPiece(host, ':')) else None
  }

  /** Every `a.b.c.d:port` host yields its address; a host without a port yields none. */
  lemma HostIpOfQuad(q: string, port: string)
    requires IsDottedQuad(q)
    ensures HostIp(q + ":" + port) == Some(q)
    ensures HostIp(q) == None
  {
    DottedQuadChars(q);
    var h := q + ":" + port;
    assert h[..|q|] == q;
    IndexOfAt(h, |q|, ':');
  }

  /** The numeric value of the first `user=\d+` group. */
  function UserNumber(line: string): (r: Option<nat>)
    ensures r.Some? <==> HasMatch(line, "user=", Digits)
    ensures r.Some? ==> exists tok :: CapturedAfter(line, "user=", tok, Digits) && r.value == DigitsValue(tok)
  {
    match Search(line, "user=", Digits, "")
    case None => None
    case Some(tok) =>
      assert CapturedAfter(line, "user=", tok, Digits);
      Some(DigitsValue(tok))
  }

  /** One line of the active-user scan; system ids 1 and 2 (and 0) are skipped. */
  function ActiveHit(line: string): (r: Option<Hit>)
    ensures r.Some? <==> UserNumber(line).Some? && UserNumber(line).value > 2
    ensures r.Some? && r.value.ip.Some? ==> IsDottedQuad(r.value.ip.value)
    ensures r.Some? ==> r.value.userId == UserNumber(line).value
    ensures r.Some? ==> r.value.ip == (match Search(line, "host=", NonSpace, "") case Some(h) => HostIp(h) case None => None)
  {
    MatchNotBlank(line, "user=", Digits);
    if |Strip(line)| == 0 || !Contains(line, "user=") then
      None
    else
      match UserNumber(line)
      case None => None
      case Some(id) =>
        if id <= 2 then None
        else
          var ip := match Search(line, "host=", NonSpace, "") case Some(h) => HostIp(h) case None => None;
          Some(Hit(id, ip, Search(line, "[", StampChars, "").GetOr("unknown")))
  }

  function HitId(h: Hit): int { h.userId }

  predicate HasIp(h: Hit) { h.ip.Some? }

  /** A user of `get_openproject_active_users`. */
  datatype ActiveUser = ActiveUser(
    userId: int, username: string, login: string, lastActivity: string, ip: string, geo: Geo)

  /** The directory's display name, else "User {id}"; the directory's login, else "". */
  function NameOf(dir: Dict<int, DbUser>, id: int): (string, string) {
    match Get(dir, id)
    case Some(u) => (u.displayName, u.login)
    case None => ("User " + IntToString(id), "")
  }

  /** The accepted hits of the scanned log lines, in order. */
  function Hits(out: string): (r: seq<Hit>)
    ensures forall k :: 0 <= k < |r| ==> r[k].userId > 2
    ensures forall k :: 0 <= k < |r| ==> r[k].ip.Some? ==> IsDottedQuad(r[k].ip.value)
    ensures '\n' !in out ==> r == Found(out, ActiveHit)
  {
    ParseLines(out, ActiveHit)
  }

  /** Every log line contributes exactly its own hit, in order. */
  lemma HitsAppend(a: string, b: string)
    ensures Hits(a + "\n" + b) == Hits(a) + Hits(b)
  {
    ParseLinesAppend(a, b, ActiveHit);
  }

  /** `user_ips`: for each id, the last accepted line of that id that carried an address. */
  function IpIndex(hits: seq<Hit>): Dict<int, Hit> {
    IndexBy(Filter(hits, HasIp), HitId)
  }

  lemma IpIndexGet(hits: seq<Hit>, id: int)
    ensures Get(IpIndex(hits), id).Some? ==>
      var h := Get(IpIndex(hits), id).value; h.ip.Some? && h in hits && h.userId == id
  {
    var d := IpIndex(hits);
    if Get(d, id).Some? {
      var j :| 0 <= j < |d| && d[j] == (id, Get(d, id).value);
    }
  }

  /** The address `user_ips` holds for `id`, or 'unknown'. */
  function LastKnownIp(hits: seq<Hit>, id: int): (ip: string)
    ensures ip == "unknown" || exists i :: 0 <= i < |hits| && hits[i].userId == id && hits[i].ip == Some(ip)
  {
    IpIndexGet(hits, id);
    match Get(IpIndex(hits), id)
    case Some(h) => h.ip.GetOr("unknown")
    case None => "unknown"
  }

  /** No two active-user records share an id. */
  predicate OneRecordPerUser(us: seq<ActiveUser>) {
    forall a, b :: 0 <= a < b < |us| ==> us[a].userId != us[b].userId
  }

  /** The final pass over `active_users`: names from the directory, the address
      from `user_ips`, and its location. */
  function Describe(h: Hit, hits: seq<Hit>, dir: Dict<int, DbUser>, env: Env): (u: ActiveUser)
    ensures u.userId == h.userId && u.lastActivity == h.timestamp && u.ip == LastKnownIp(hits, h.userId)
  {
    var name := NameOf(dir, h.userId);
    var ip := LastKnownIp(hits, h.userId);
    ActiveUser(h.userId, name.0, name.1, h.timestamp, ip, GeoOf(ip, env))
  }

  /** One described record per key of `latest`, in key order. */
  function DescribeAll(latest: Dict<int, Hit>, hits: seq<Hit>, dir: Dict<int, DbUser>, env: Env): (r: seq<ActiveUser>)
    ensures |r| == |latest|
    ensures forall k :: 0 <= k < |r| ==> r[k] == Describe(latest[k].1, hits, dir, env)
  {
    seq(|latest|, k requires 0 <= k < |latest| => Describe(latest[k].1, hits, dir, env))
  }

  /** `get_openproject_active_users`: one record per distinct id, in order of
      first appearance. */
  function ActiveUsers(out: string, dir: Dict<int, DbUser>, env: Env): (r: seq<ActiveUser>)
    ensures |r| == |IndexBy(Hits(out), HitId)|
    ensures forall k :: 0 <= k < |r| ==> r[k] == Describe(IndexBy(Hits(out), HitId)[k].1, Hits(out), dir, env)
    ensures forall k :: 0 <= k < |r| ==> r[k].userId > 2
    ensures OneRecordPerUser(r)
    ensures forall k :: 0 <= k < |r| ==> r[k].geo == GeoOf(r[k].ip, env)
    ensures forall k :: 0 <= k < |r| ==> (r[k].username, r[k].login) == NameOf(dir, r[k].userId)
    ensures forall k :: 0 <= k < |r| ==> r[k].ip == "unknown" || IsDottedQuad(r[k].ip)
  {
    var hits := Hits(out);
    var latest := IndexBy(hits, HitId);
    var r := DescribeAll(latest, hits, dir, env);
    DescribedIds(latest, hits, dir, env);
    r
  }

  /** Described records keep their keys, and inherit the bounds of the accepted lines. */
  lemma DescribedIds(latest: Dict<int, Hit>, hits: seq<Hit>, dir: Dict<int, DbUser>, env: Env)
    requires UniqueKeys(latest)
    requires forall k :: 0 <= k < |latest| ==> HitId(latest[k].1) == latest[k].0 && latest[k].1 in hits
    requires forall k :: 0 <= k < |hits| ==> hits[k].userId > 2
    requires forall k :: 0 <= k < |hits| ==> hits[k].ip.Some? ==> IsDottedQuad(hits[k].ip.value)
    ensures var r := DescribeAll(latest, hits, dir, env);
      && (forall k :: 0 <= k < |r| ==> r[k].userId > 2)
      && OneRecordPerUser(r)
      && (forall k :: 0 <= k < |r| ==> r[k].ip == "unknown" || IsDottedQuad(r[k].ip))
  {
    var r := DescribeAll(latest, hits, dir, env);
    forall k | 0 <= k < |r|
      ensures r[k].userId == latest[k].0 && r[k].userId > 2
      ensures r[k].ip == "unknown" || IsDottedQuad(r[k].ip)
    {
      var i :| 0 <= i < |hits| && hits[i] == latest[k].1;
    }
  }

  /** The active users are exactly the ids of the accepted lines. */
  lemma ActiveUserIds(out: string, dir: Dict<int, DbUser>, env: Env, id: int)
    ensures (exists k :: 0 <= k < |ActiveUsers(out, dir, env)| && ActiveUsers(out, dir, env)[k].userId == id)
        <==> exists i :: 0 <= i < |Hits(out)| && Hits(out)[i].userId == id
  {
    if k :| 0 <= k < |ActiveUsers(out, dir, env)| && ActiveUsers(out, dir, env)[k].userId == id {
      ActiveUserHasHit(out, dir, env, k);
    }
    if i :| 0 <= i < |Hits(out)| && Hits(out)[i].userId == id {
      HitHasActiveUser(out, dir, env, i);
    }
  }

  /** Each active user comes from an accepted line. */
  lemma ActiveUserHasHit(out: string, dir: Dict<int, DbUser>, env: Env, k: nat)
    requires k < |ActiveUsers(out, dir, env)|
    ensures exists i :: 0 <= i < |Hits(out)| && Hits(out)[i].userId == ActiveUsers(out, dir, env)[k].userId
  {
    var hits := Hits(out);
    var latest := IndexBy(hits, HitId);
    var id := ActiveUsers(out, dir, env)[k].userId;
    assert latest[k].0 == id;
    IndexKeys(hits, HitId, id);
  }

  /** Each accepted line's user is active. */
  lemma HitHasActiveUser(out: string, dir: Dict<int, DbUser>, env: Env, i: nat)
    requires i < |Hits(out)|
    ensures exists k :: 0 <= k < |ActiveUsers(out, dir, env)| && ActiveUsers(out, dir, env)[k].userId == Hits(out)[i].userId
  {
    var hits := Hits(out);
    var latest := IndexBy(hits, HitId);
    var id := hits[i].userId;
    assert HitId(hits[i]) == id;
    IndexKeys(hits, HitId, id);
    var k :| 0 <= k < |latest| && latest[k].0 == id;
    assert ActiveUsers(out, dir, env)[k].userId == id;
  }

  /** The reported activity is that of the user's LAST accepted line. */
  lemma ActiveUserLastLine(out: string, dir: Dict<int, DbUser>, env: Env, k: nat)
    requires k < |ActiveUsers(out, dir, env)|
    ensures var u := ActiveUsers(out, dir, env)[k];
      exists i :: LastWith(Hits(out), HitId, u.userId, i) && Hits(out)[i].timestamp == u.lastActivity
  {
    var latest := IndexBy(Hits(out), HitId);
    GetAt(latest, k);
    IndexLastWins(Hits(out), HitId, latest[k].0, latest[k].1);
  }

  /** An id that `user_ips` holds gets a real address, taken from one of its lines. */
  lemma IndexedIdHasIp(hits: seq<Hit>, id: int)
    requires forall k :: 0 <= k < |hits| ==> hits[k].ip.Some? ==> IsDottedQuad(hits[k].ip.value)
    requires Get(IpIndex(hits), id).Some?
    ensures LastKnownIp(hits, id) != "unknown"
    ensures exists i :: 0 <= i < |hits| && hits[i].userId == id && hits[i].ip.Some?
  {
    IpIndexGet(hits, id);
    var h := Get(IpIndex(hits), id).value;
    var i :| 0 <= i < |hits| && hits[i] == h;
    assert IsDottedQuad(h.ip.value);
    UnknownNotQuad();
  }

  /** The placeholder can never be mistaken for an address. */
  lemma UnknownNotQuad()
    ensures !IsDottedQuad("unknown")
  {
    assert !IsDigit("unknown"[0]);
  }

  /** An id that `user_ips` lacks had no line with an address. */
  lemma UnindexedIdHasNoIp(hits: seq<Hit>, id: int)
    requires Get(IpIndex(hits), id).None?
    ensures LastKnownIp(hits, id) == "unknown"
    ensures forall i :: 0 <= i < |hits| && hits[i].userId == id ==> hits[i].ip.None?
  {
    var withIp := Filter(hits, HasIp);
    IndexKeys(withIp, HitId, id);
    forall h | h in hits && h.userId == id ensures h.ip.None? {
      assert HasIp(h) ==> h in withIp;
    }
  }

  /** A known address is that of the last line of the id that carried one. */
  lemma KnownIpIsLastLine(hits: seq<Hit>, id: int)
    requires LastKnownIp(hits, id) != "unknown"
    ensures exists i :: LastWith(Filter(hits, HasIp), HitId, id, i) && Filter(hits, HasIp)[i].ip == Some(LastKnownIp(hits, id))
  {
    IpIndexGet(hits, id);
    var h := Get(IpIndex(hits), id).value;
    IndexLastWins(Filter(hits, HasIp), HitId, id, h);
  }

  /** `user_ips[id]` is 'unknown' exactly when none of the id's lines carried an
      address, and otherwise the address of the last line that did. */
  lemma LastKnownIpIsLast(hits: seq<Hit>, id: int)
    requires forall k :: 0 <= k < |hits| ==> hits[k].ip.Some? ==> IsDottedQuad(hits[k].ip.value)
    ensures var ip := LastKnownIp(hits, id);
      && (ip == "unknown" <==> forall i :: 0 <= i < |hits| && hits[i].userId == id ==> hits[i].ip.None?)
      && (ip != "unknown" ==> exists i :: LastWith(Filter(hits, HasIp), HitId, id, i) && Filter(hits, HasIp)[i].ip == Some(ip))
  {
    if Get(IpIndex(hits), id).Some? {
      IndexedIdHasIp(hits, id);
      KnownIpIsLastLine(hits, id);
    } else {
      UnindexedIdHasNoIp(hits, id);
    }
  }

  /** The reported address is 'unknown' exactly when none of the user's lines
      carried one, and otherwise the address of the last line that did, even
      when later lines of the user carried none. */
  lemma ActiveUserLastIp(out: string, dir: Dict<int, DbUser>, env: Env, k: nat)
    requires k < |ActiveUsers(out, dir, env)|
    ensures var u := ActiveUsers(out, dir, env)[k];
      && (u.ip == "unknown" <==> forall i :: 0 <= i < |Hits(out)| && Hits(out)[i].userId == u.userId ==> Hits(out)[i].ip.None?)
      && (u.ip != "unknown" ==>
            exists i :: LastWith(Filter(Hits(out), HasIp), HitId, u.userId, i) && Filter(Hits(out), HasIp)[i].ip == Some(u.ip))
  {
    LastKnownIpIsLast(Hits(out), ActiveUsers(out, dir, env)[k].userId);
  }
}

=== FILE: ordered_map.dfy ===
/** An insertion-ordered dictionary, as Python's `dict` and a JavaScript object with
    non-index keys behave: assigning an existing key replaces its value but keeps
    its position; a new key goes to the end. */
module OrderedMap {
  import opened Prelude

  type Dict<K, V> = seq<(K, V)>

  predicate UniqueKeys<K(==, !new), V>(d: Dict<K, V>) {
    forall i, j :: 0 <= i < j < |d| ==> d[i].0 != d[j].0
  }

  predicate HasKey<K(==, !new), V>(d: Dict<K, V>, k: K) {
    exists i :: 0 <= i < |d| && d[i].0 == k
  }

  /** Without duplicate keys no entry occurs twice. */
  lemma {:induction false} UniqueKeysOnce<K(!new), V(!new)>(d: Dict<K, V>, x: (K, V))
    requires UniqueKeys(d)
    ensures multiset(d)[x] <= 1
  {
    if |d| > 0 {
      var init, last := d[..|d| - 1], d[|d| - 1];
      assert d == init + [last];
      UniqueKeysOnce(init, x);
      if x == last {
        forall i | 0 <= i < |init| ensures init[i] != last {
          assert d[i] == init[i];
        }
        assert x !in init;
      }
    }
  }

  /** Reordering the entries of a dictionary keeps its keys unique. */
  lemma UniqueKeysPermutation<K(!new), V(!new)>(d: Dict<K, V>, e: Dict<K, V>)
    requires UniqueKeys(d) && multiset(d) == multiset(e)
    ensures UniqueKeys(e)
  {
    forall i, j | 0 <= i < j < |e| ensures e[i].0 != e[j].0 {
      if e[i].0 == e[j].0 {
        assert e[i] in multiset(d) && e[j] in multiset(d);
        var p :| 0 <= p < |d| && d[p] == e[i];
        var q :| 0 <= q < |d| && d[q] == e[j];
        assert p == q;
        assert e == e[..j] + e[j..];
        assert e[i] in e[..j] && e[j] == e[j..][0];
        assert multiset(e)[e[i]] >= 2;
        UniqueKeysOnce(d, e[i]);
        assert false;
      }
    }
  }

  /** `d.get(k)` / `d[k]`. */
  function Get<K(==, !new), V>(d: Dict<K, V>, k: K): (r: Option<V>)
    ensures r.Some? <==> HasKey(d, k)
    ensures r.Some? ==> exists i :: 0 <= i < |d| && d[i] == (k, r.value)
  {
    if |d| == 0 then None
    else if d[0].0 == k then Some(d[0].1)
    else
      var r := Get(d[1..], k);
      assert HasKey(d, k) ==> HasKey(d[1..], k) by {
        if HasKey(d, k) {
          var i :| 0 <= i < |d| && d[i].0 == k;
          assert d[1..][i - 1].0 == k;
        }
      }
      assert r.Some? ==> exists i :: 0 <= i < |d| && d[i] == (k, r.value) by {
        if r.Some? {
          var i :| 0 <= i < |d| - 1 && d[1..][i] == (k, r.value);
          assert d[i + 1] == (k, r.value);
        }
      }
      r
  }

  /** In a dictionary without duplicate keys, each entry is what its key reads. */
  lemma GetAt<K(!new), V>(d: Dict<K, V>, i: nat)
    requires UniqueKeys(d) && i < |d|
    ensures Get(d, d[i].0) == Some(d[i].1)
  {
    var j :| 0 <= j < |d| && d[j] == (d[i].0, Get(d, d[i].0).value);
  }

  /** A lookup finds the value an entry holds when no other entry holds
      another value under the same key, and finds nothing when no entry has the key. */
  lemma GetByEntries<K(!new), V>(d: Dict<K, V>, k: K, v: Option<V>)
    requires v.Some? ==> (k, v.value) in d
    requires forall e | e in d && e.0 == k :: Some(e.1) == v
    ensures Get(d, k) == v
  {
    if v.Some? {
      var i :| 0 <= i < |d| && d[i] == (k, v.value);
      assert HasKey(d, k);
    }
    if Get(d, k).Some? {
      var i :| 0 <= i < |d| && d[i] == (k, Get(d, k).value);
      assert d[i] in d;
    }
  }

  /** A key of the front part is read from the front part. */
  lemma GetPrefix<K(!new), V>(a: Dict<K, V>, b: Dict<K, V>, k: K)
    requires HasKey(a, k)
    ensures HasKey(a + b, k) && Get(a + b, k) == Get(a, k)
  {
    var i :| 0 <= i < |a| && a[i].0 == k;
    assert (a + b)[i] == a[i];
    GetAppend(a, b, k);
  }

  lemma {:induction false} GetAppend<K(!new), V>(a: Dict<K, V>, b: Dict<K, V>, k: K)
    ensures Get(a + b, k) == if HasKey(a, k) then Get(a, k) else Get(b, k)
  {
    if |a| == 0 {
      assert a + b == b;
    } else {
      assert (a + b)[1..] == a[1..] + b;
      GetAppend(a[1..], b, k);
      if a[0].0 != k {
        HasKeyTail(a, k);
      }
    }
  }

  /** `d[k] = v`: an existing key keeps its position, a new one is appended. */
  function Put<K(==, !new), V>(d: Dict<K, V>, k: K, v: V): (r: Dict<K, V>)
    ensures |r| == if HasKey(d, k) then |d| else |d| + 1
    ensures forall i :: 0 <= i < |d| ==> r[i].0 == d[i].0
    ensures !HasKey(d, k) ==> r[|d|] == (k, v)
  {
    if |d| == 0 then [(k, v)]
    else if d[0].0 == k then [(k, v)] + d[1..]
    else
      HasKeyTail(d, k);
      [d[0]] + Put(d[1..], k, v)
  }

  lemma HasKeyTail<K(!new), V>(d: Dict<K, V>, k: K)
    requires |d| > 0 && d[0].0 != k
    ensures HasKey(d, k) <==> HasKey(d[1..], k)
  {
    if HasKey(d, k) {
      var i :| 0 <= i < |d| && d[i].0 == k;
      assert d[1..][i - 1].0 == k;
    }
    if HasKey(d[1..], k) {
      var i :| 0 <= i < |d| - 1 && d[1..][i].0 == k;
      assert d[i + 1].0 == k;
    }
  }

  /** Reading after `d[k] = v`: `v` at `k`, the old value everywhere else. */
  lemma {:induction false} PutGet<K(!new), V>(d: Dict<K, V>, k: K, v: V, k': K)
    ensures Get(Put(d, k, v), k') == if k' == k then Some(v) else Get(d, k')
  {
    if |d| > 0 && d[0].0 != k {
      PutGet(d[1..], k, v, k');
      assert Put(d, k, v)[1..] == Put(d[1..], k, v);
    } else if |d| > 0 {
      assert Put(d, k, v)[1..] == d[1..];
    }
  }

  /** Assignment never creates a duplicate key. */
  lemma {:induction false} PutUnique<K(!new), V>(d: Dict<K, V>, k: K, v: V)
    requires UniqueKeys(d)
    ensures UniqueKeys(Put(d, k, v))
  {
    var r := Put(d, k, v);
    if |d| > 0 && d[0].0 != k {
      var t := Put(d[1..], k, v);
      UniqueTail(d);
      PutUnique(d[1..], k, v);
      assert r == [d[0]] + t;
      forall j | 0 <= j < |t| ensures t[j].0 != d[0].0 {
        if j < |d| - 1 {
          assert t[j].0 == d[1..][j].0 == d[j + 1].0;
        } else {
          HasKeyTail(d, k);
        }
      }
      ConsUnique(d[0], t);
    } else if |d| > 0 {
      forall i, j | 0 <= i < j < |r| ensures r[i].0 != r[j].0 {
        assert r[i].0 == d[i].0 && r[j].0 == d[j].0;
      }
    }
  }

  /** A first key that the rest lacks keeps the keys unique. */
  lemma ConsUnique<K(!new), V>(h: (K, V), t: Dict<K, V>)
    requires UniqueKeys(t)
    requires forall j :: 0 <= j < |t| ==> t[j].0 != h.0
    ensures UniqueKeys([h] + t)
  {
    var r := [h] + t;
    forall i, j | 0 <= i < j < |r| ensures r[i].0 != r[j].0 {
      assert r[j] == t[j - 1];
      if i > 0 {
        assert r[i] == t[i - 1];
      }
    }
  }

  /** `d[k] = v` changes the value under `k` and nothing else. */
  lemma {:induction false} PutValues<K(!new), V>(d: Dict<K, V>, k: K, v: V)
    requires UniqueKeys(d)
    ensures forall i :: 0 <= i < |d| ==> Put(d, k, v)[i] == if d[i].0 == k then (k, v) else d[i]
  {
    if |d| > 0 && d[0].0 == k {
      PutValuesHead(d, k, v);
    } else if |d| > 0 {
      UniqueTail(d);
      PutValues(d[1..], k, v);
      PutValuesCons(d, k, v);
    }
  }

  /** Replacing the first key leaves the rest, whose keys differ from it. */
  lemma PutValuesHead<K(!new), V>(d: Dict<K, V>, k: K, v: V)
    requires UniqueKeys(d) && |d| > 0 && d[0].0 == k
    ensures forall i :: 0 <= i < |d| ==> Put(d, k, v)[i] == if d[i].0 == k then (k, v) else d[i]
  {
    assert Put(d, k, v) == [(k, v)] + d[1..];
  }

  /** Putting past a different first key puts into the tail. */
  lemma PutValuesCons<K(!new), V>(d: Dict<K, V>, k: K, v: V)
    requires |d| > 0 && d[0].0 != k
    requires forall i :: 0 <= i < |d| - 1 ==> Put(d[1..], k, v)[i] == if d[1..][i].0 == k then (k, v) else d[1..][i]
    ensures forall i :: 0 <= i < |d| ==> Put(d, k, v)[i] == if d[i].0 == k then (k, v) else d[i]
  {
    var t := Put(d[1..], k, v);
    assert Put(d, k, v) == [d[0]] + t;
    forall i | 1 <= i < |d| ensures Put(d, k, v)[i] == if d[i].0 == k then (k, v) else d[i] {
      assert Put(d, k, v)[i] == t[i - 1] && d[i] == d[1..][i - 1];
    }
  }

  lemma UniqueTail<K(!new), V>(d: Dict<K, V>)
    requires UniqueKeys(d) && |d| > 0
    ensures UniqueKeys(d[1..])
  {
    assert forall i :: 0 <= i < |d| - 1 ==> d[1..][i] == d[i + 1];
  }

  /** `for x in xs: d[key(x)] = x` starting from an empty dictionary. */
  function IndexBy<K(==, !new), T>(xs: seq<T>, key: T -> K): (d: Dict<K, T>)
    ensures UniqueKeys(d)
    ensures forall i :: 0 <= i < |d| ==> key(d[i].1) == d[i].0 && d[i].1 in xs
  {
    if |xs| == 0 then []
    else
      var prev := IndexBy(xs[..|xs| - 1], key);
      var x := xs[|xs| - 1];
      PutUnique(prev, key(x), x);
      PutValues(prev, key(x), x);
      Put(prev, key(x), x)
  }

  /** `xs[i]` is the last element whose key is `k`. */
  predicate LastWith<K(==), T>(xs: seq<T>, key: T -> K, k: K, i: int) {
    0 <= i < |xs| && key(xs[i]) == k && forall j :: i < j < |xs| ==> key(xs[j]) != k
  }

  /** A trailing element with another key does not change which one is last for `k`. */
  lemma LastWithDrop<K, T>(xs: seq<T>, key: T -> K, k: K, i: int)
    requires |xs| > 0 && key(xs[|xs| - 1]) != k
    ensures LastWith(xs, key, k, i) <==> LastWith(xs[..|xs| - 1], key, k, i)
  {
    var init := xs[..|xs| - 1];
    if 0 <= i < |init| {
      assert init[i] == xs[i];
      assert forall j :: i < j < |init| ==> init[j] == xs[j];
    }
  }

  /** Under each key the index holds the LAST element carrying it. */
  lemma {:induction false} IndexLastWins<K(!new), T>(xs: seq<T>, key: T -> K, k: K, v: T)
    ensures Get(IndexBy(xs, key), k) == Some(v) <==> exists i :: LastWith(xs, key, k, i) && xs[i] == v
  {
    if |xs| > 0 {
      var n := |xs| - 1;
      var init, last := xs[..n], xs[n];
      assert IndexBy(xs, key) == Put(IndexBy(init, key), key(last), last);
      PutGet(IndexBy(init, key), key(last), last, k);
      if key(last) == k {
        LastWithAtEnd(xs, key, k, v);
      } else {
        IndexLastWins(init, key, k, v);
        LastWithDropValue(xs, init, key, k, v);
      }
    }
  }

  /** When the final element carries `k`, it is the one last for `k`. */
  lemma LastWithAtEnd<K, T>(xs: seq<T>, key: T -> K, k: K, v: T)
    requires |xs| > 0 && key(xs[|xs| - 1]) == k
    ensures (exists i :: LastWith(xs, key, k, i) && xs[i] == v) <==> v == xs[|xs| - 1]
  {
    assert LastWith(xs, key, k, |xs| - 1);
  }

  /** A trailing element with another key does not change which value is last for `k`. */
  lemma LastWithDropValue<K, T>(xs: seq<T>, init: seq<T>, key: T -> K, k: K, v: T)
    requires |xs| > 0 && init == xs[..|xs| - 1] && key(xs[|xs| - 1]) != k
    ensures (exists i :: LastWith(xs, key, k, i) && xs[i] == v) <==> exists i :: LastWith(init, key, k, i) && init[i] == v
  {
    if exists i :: LastWith(xs, key, k, i) && xs[i] == v {
      var i :| LastWith(xs, key, k, i) && xs[i] == v;
      LastWithDrop(xs, key, k, i);
      assert init[i] == v;
    }
    if exists i :: LastWith(init, key, k, i) && init[i] == v {
      var i :| LastWith(init, key, k, i) && init[i] == v;
      LastWithDrop(xs, key, k, i);
      assert xs[i] == v;
    }
  }

  /** The index has exactly the keys of the elements. */
  lemma {:induction false} IndexKeys<K(!new), T>(xs: seq<T>, key: T -> K, k: K)
    ensures HasKey(IndexBy(xs, key), k) <==> exists i :: 0 <= i < |xs| && key(xs[i]) == k
  {
    if |xs| > 0 {
      var init, last := xs[..|xs| - 1], xs[|xs| - 1];
      IndexKeys(init, key, k);
      assert IndexBy(xs, key) == Put(IndexBy(init, key), key(last), last);
      PutGet(IndexBy(init, key), key(last), last, k);
      SomeKeySnoc(xs, init, key, k);
    }
  }

  /** Some element has key `k` exactly when some earlier one does or the last one does. */
  lemma SomeKeySnoc<K(!new), T>(xs: seq<T>, init: seq<T>, key: T -> K, k: K)
    requires |xs| > 0 && init == xs[..|xs| - 1]
    ensures (exists i :: 0 <= i < |xs| && key(xs[i]) == k)
      <==> (exists i :: 0 <= i < |init| && key(init[i]) == k) || key(xs[|xs| - 1]) == k
  {
    if exists i :: 0 <= i < |init| && key(init[i]) == k {
      var i :| 0 <= i < |init| && key(init[i]) == k;
      assert xs[i] == init[i];
    }
    if exists i :: 0 <= i < |xs| && key(xs[i]) == k {
      var i :| 0 <= i < |xs| && key(xs[i]) == k;
      if i < |xs| - 1 {
        assert init[i] == xs[i];
      }
    }
  }

  /** The keys in dictionary order (`Object.keys(d)`, `list(d)`). */
  function Keys<K, V>(d: Dict<K, V>): (r: seq<K>)
    ensures |r| == |d| && forall i :: 0 <= i < |d| ==> r[i] == d[i].0
  {
    if |d| == 0 then [] else [d[0].0] + Keys(d[1..])
  }

  /** The values in dictionary order (`list(d.values())`). */
  function Values<K, V>(d: Dict<K, V>): (r: seq<V>)
    ensures |r| == |d| && forall i :: 0 <= i < |d| ==> r[i] == d[i].1
  {
    if |d| == 0 then [] else [d[0].1] + Values(d[1..])
  }
}

=== FILE: prelude.dfy ===
/** Shared value types and sequence helpers used by every other module. */
module Prelude {

  /** A value that may be absent: JavaScript `undefined`/`null`, Python `None`. */
  datatype Option<+T> = None | Some(value: T) {

    /** The value, or `default` when absent (`x ?? default`). */
    function GetOr(default: T): T {
      match this
      case Some(v) => v
      case None => default
    }
  }

  /** `s.slice(-n)` in JavaScript, `s[-n:]` in Python: the last `n` elements,
      or all of them when there are fewer. */
  function LastN<T>(s: seq<T>, n: nat): (r: seq<T>)
    requires n > 0
    ensures |r| == if |s| < n then |s| else n
    ensures forall i :: 0 <= i < |r| ==> r[i] == s[|s| - |r| + i]
  {
    if |s| <= n then s else s[|s| - n..]
  }

  /** `s.slice(0, n)` in JavaScript: the first `n` elements, or all of them. */
  function FirstN<T>(s: seq<T>, n: nat): (r: seq<T>)
    ensures |r| == if |s| < n then |s| else n
    ensures forall i :: 0 <= i < |r| ==> r[i] == s[i]
  {
    if |s| <= n then s else s[..n]
  }

  /** `s.reverse()` on a copy. */
  function Reverse<T>(s: seq<T>): (r: seq<T>)
    ensures |r| == |s|
    ensures forall i :: 0 <= i < |s| ==> r[i] == s[|s| - 1 - i]
  {
    if |s| == 0 then [] else Reverse(s[1..]) + [s[0]]
  }

  /** The elements satisfying `p`, in their original order (`s.filter(p)`). */
  function Filter<T>(s: seq<T>, p: T -> bool): (r: seq<T>)
    ensures |r| <= |s|
    ensures forall i :: 0 <= i < |r| ==> p(r[i]) && r[i] in s
    ensures forall x :: x in s && p(x) ==> x in r
  {
    if |s| == 0 then []
    else (if p(s[0]) then [s[0]] else []) + Filter(s[1..], p)
  }

  /** The sum of `f` over the elements (`s.reduce((a, x) => a + f(x), 0)`). */
  function SumOf<T>(s: seq<T>, f: T -> int): int
  {
    if |s| == 0 then 0 else f(s[0]) + SumOf(s[1..], f)
  }

  /** Sums split over concatenation. */
  lemma {:induction false} SumOfAppend<T>(a: seq<T>, b: seq<T>, f: T -> int)
    ensures SumOf(a + b, f) == SumOf(a, f) + SumOf(b, f)
  {
    if |a| > 0 {
      assert (a + b)[1..] == a[1..] + b;
      SumOfAppend(a[1..], b, f);
    } else {
      assert a + b == b;
    }
  }

  /** Filtering splits over concatenation. */
  lemma {:induction false} FilterAppend<T>(a: seq<T>, b: seq<T>, p: T -> bool)
    ensures Filter(a + b, p) == Filter(a, p) + Filter(b, p)
  {
    if |a| > 0 {
      assert (a + b)[1..] == a[1..] + b;
      FilterAppend(a[1..], b, p);
    } else {
      assert a + b == b;
    }
  }

  /** A sum of terms that are each at least `k` is at least `k` times the count. */
  lemma {:induction false} SumOfAtLeast<T>(s: seq<T>, f: T -> int, k: int)
    requires forall i :: 0 <= i < |s| ==> f(s[i]) >= k
    ensures SumOf(s, f) >= k * |s|
  {
    if |s| > 0 {
      SumOfAtLeast(s[1..], f, k);
    }
  }

  /** Filtering by a predicate and by its negation splits a sequence in two. */
  lemma {:induction false} FilterPartition<T>(s: seq<T>, p: T -> bool, q: T -> bool)
    requires forall x :: q(x) == !p(x)
    ensures |Filter(s, p)| + |Filter(s, q)| == |s|
  {
    if |s| > 0 {
      FilterPartition(s[1..], p, q);
    }
  }

  /** Filtering by a predicate that holds everywhere keeps everything. */
  lemma {:induction false} FilterAll<T>(s: seq<T>, p: T -> bool)
    requires forall i :: 0 <= i < |s| ==> p(s[i])
    ensures Filter(s, p) == s
  {
    if |s| > 0 {
      FilterAll(s[1..], p);
    }
  }

  /** The filter keeps something exactly when some element passes. */
  lemma FilterNonEmpty<T>(s: seq<T>, p: T -> bool)
    ensures Filter(s, p) != [] <==> exists i :: 0 <= i < |s| && p(s[i])
  {
    if exists i :: 0 <= i < |s| && p(s[i]) {
      var i :| 0 <= i < |s| && p(s[i]);
      assert s[i] in s;
    }
    var r := Filter(s, p);
    if r != [] {
      assert p(r[0]) && r[0] in s;
    }
  }

  lemma InitLast<T>(s: seq<T>)
    requires |s| > 0
    ensures s == s[..|s| - 1] + [s[|s| - 1]]
  {
  }

  /** Filtering a sequence grown by one element at the end. */
  lemma FilterSnoc<T>(s: seq<T>, x: T, p: T -> bool)
    ensures Filter(s + [x], p) == Filter(s, p) + (if p(x) then [x] else [])
  {
    FilterAppend(s, [x], p);
    assert [x][1..] == [];
  }

  /** Filtering by a predicate that holds nowhere keeps nothing. */
  lemma {:induction false} FilterNone<T>(s: seq<T>, p: T -> bool)
    requires forall i :: 0 <= i < |s| ==> !p(s[i])
    ensures Filter(s, p) == []
  {
    if |s| > 0 {
      FilterNone(s[1..], p);
    }
  }

  /** Predicates that agree on every element filter alike. */
  lemma {:induction false} FilterSame<T>(s: seq<T>, p: T -> bool, q: T -> bool)
    requires forall i :: 0 <= i < |s| ==> p(s[i]) == q(s[i])
    ensures Filter(s, p) == Filter(s, q)
  {
    if |s| > 0 {
      FilterSame(s[1..], p, q);
    }
  }

  /** Widening a predicate by exactly one position it rejected keeps one more element. */
  lemma {:induction false} FilterGainOne<T>(s: seq<T>, p: T -> bool, q: T -> bool, k: nat)
    requires k < |s| && !p(s[k])
    requires forall i :: 0 <= i < |s| ==> q(s[i]) == (p(s[i]) || i == k)
    ensures |Filter(s, q)| == |Filter(s, p)| + 1
  {
    if k == 0 {
      FilterSame(s[1..], p, q);
    } else {
      FilterGainOne(s[1..], p, q, k - 1);
    }
  }
}

=== FILE: security_alerts.dfy ===
/** The security-alert panel: alerts grouped by country, the five largest
    countries with their attempt and high-severity counts, and the first five
    alerts with an overflow note. */
module SecurityAlerts {
  import opened Prelude
  import opened Text
  import opened OrderedMap
  import opened Sorting

  /** The fields of an alert the panel reads; absent JSON fields are `None`. */
  datatype Alert = Alert(country: Option<string>, attempts: Option<int>, severity: Option<string>)

  /** `alert.country || 'Unknown'`: a missing or empty country is 'Unknown'. */
  function CountryOf(a: Alert): (c: string)
    ensures |c| > 0
    ensures a.country.Some? && |a.country.value| > 0 ==> c == a.country.value
    ensures a.country.None? || a.country == Some("") ==> c == "Unknown"
  {
    match a.country
    case Some(c) => if |c| > 0 then c else "Unknown"
    case None => "Unknown"
  }

  function InCountry(c: string): Alert -> bool {
    (a: Alert) => CountryOf(a) == c
  }

  /** Country name to its alerts, in order of first appearance. */
  type Groups = Dict<string, seq<Alert>>

  /** One step of the `reduce`: `acc[country].push(alert)`, creating the list if needed. */
  function AddAlert(g: Groups, a: Alert): Groups {
    var c := CountryOf(a);
    Put(g, c, Get(g, c).GetOr([]) + [a])
  }

  /** `alerts.reduce(..., {})`. */
  function GroupByCountry(alerts: seq<Alert>): (g: Groups)
    ensures UniqueKeys(g)
  {
    if |alerts| == 0 then []
    else
      var g := GroupByCountry(alerts[..|alerts| - 1]);
      var c := CountryOf(alerts[|alerts| - 1]);
      PutUnique(g, c, Get(g, c).GetOr([]) + [alerts[|alerts| - 1]]);
      AddAlert(g, alerts[|alerts| - 1])
  }

  /** Each country's group is exactly its alerts in input order, and a country
      has a group exactly when one of the alerts is from there. */
  lemma {:induction false} GroupIsFilter(alerts: seq<Alert>, c: string)
    ensures Get(GroupByCountry(alerts), c)
      == if Filter(alerts, InCountry(c)) == [] then None else Some(Filter(alerts, InCountry(c)))
  {
    if |alerts| > 0 {
      var init, a := alerts[..|alerts| - 1], alerts[|alerts| - 1];
      var g := GroupByCountry(init);
      var p := InCountry(c);
      var prev := Get(g, CountryOf(a)).GetOr([]);
      GroupIsFilter(init, c);
      assert GroupByCountry(alerts) == Put(g, CountryOf(a), prev + [a]);
      PutGet(g, CountryOf(a), prev + [a], c);
      InitLast(alerts);
      FilterSnoc(init, a, p);
      var f, h := Filter(init, p), Filter(alerts, p);
      if CountryOf(a) == c {
        assert h == f + [a];
        assert Get(GroupByCountry(alerts), c) == Some(f + [a]);
      } else {
        assert h == f;
        assert Get(GroupByCountry(alerts), c) == Get(g, c);
      }
    }
  }

  /** A country is grouped exactly when some alert is from there. */
  lemma GroupedCountries(alerts: seq<Alert>, c: string)
    ensures HasKey(GroupByCountry(alerts), c) <==> exists i :: 0 <= i < |alerts| && CountryOf(alerts[i]) == c
  {
    GroupIsFilter(alerts, c);
    FilterNonEmpty(alerts, InCountry(c));
    assert forall i :: 0 <= i < |alerts| ==> (InCountry(c)(alerts[i]) <==> CountryOf(alerts[i]) == c);
  }

  function GroupSize(e: (string, seq<Alert>)): int {
    |e.1|
  }

  /** Replacing the list under a key changes the total by the difference in lengths. */
  lemma {:induction false} SizePut(g: Groups, c: string, v: seq<Alert>)
    ensures SumOf(Put(g, c, v), GroupSize) == SumOf(g, GroupSize) - |Get(g, c).GetOr([])| + |v|
  {
    if |g| > 0 && g[0].0 != c {
      SizePut(g[1..], c, v);
      assert Put(g, c, v)[1..] == Put(g[1..], c, v);
    } else if |g| > 0 {
      assert Put(g, c, v)[1..] == g[1..];
    }
  }

  /** The groups partition the alerts: their sizes add up to the number of alerts. */
  lemma {:induction false} GroupSizesSum(alerts: seq<Alert>)
    ensures SumOf(GroupByCountry(alerts), GroupSize) == |alerts|
  {
    if |alerts| > 0 {
      var init, a := alerts[..|alerts| - 1], alerts[|alerts| - 1];
      var g := GroupByCountry(init);
      GroupSizesSum(init);
      SizePut(g, CountryOf(a), Get(g, CountryOf(a)).GetOr([]) + [a]);
    }
  }

  function BySize(e: (string, seq<Alert>)): Rank {
    Rank(|e.1|, 0)
  }

  /** `Object.entries(grouped).sort((a, b) => b.length - a.length).slice(0, 5)`. */
  function TopCountries(alerts: seq<Alert>): (r: Groups)
    ensures var g := GroupByCountry(alerts); |r| == if |g| < 5 then |g| else 5
    ensures forall i, j :: 0 <= i < j < |r| ==> |r[i].1| >= |r[j].1|
    ensures forall i :: 0 <= i < |r| ==> r[i] in GroupByCountry(alerts)
    ensures UniqueKeys(r)
  {
    var g := GroupByCountry(alerts);
    var r := FirstN(SortDesc(g, BySize), 5);
    TopOfSort(g, BySize, 5);
    assert UniqueKeys(r) by {
      SortDescCorrect(g, BySize);
      UniqueKeysPermutation(g, SortDesc(g, BySize));
    }
    assert forall i, j :: 0 <= i < j < |r| ==> |r[i].1| >= |r[j].1| by {
      forall i, j | 0 <= i < j < |r| ensures |r[i].1| >= |r[j].1| {
        assert AtLeast(BySize(r[i]), BySize(r[j]));
      }
    }
    r
  }

  /** The countries left out are no larger than any shown. */
  lemma TopAreLargest(alerts: seq<Alert>, e: (string, seq<Alert>))
    requires e in GroupByCountry(alerts) && e !in TopCountries(alerts)
    ensures forall i :: 0 <= i < |TopCountries(alerts)| ==> |TopCountries(alerts)[i].1| >= |e.1|
  {
    var g := GroupByCountry(alerts);
    var sorted := SortDesc(g, BySize);
    SortDescCorrect(g, BySize);
    assert e in multiset(sorted);
    var j :| 0 <= j < |sorted| && sorted[j] == e;
    var top := TopCountries(alerts);
    assert top == FirstN(sorted, 5);
    forall i | 0 <= i < |top| ensures |top[i].1| >= |e.1| {
      assert AtLeast(BySize(sorted[i]), BySize(sorted[j]));
    }
  }

  /** `alert.attempts || 1`: a missing or zero count is one attempt. */
  function AttemptsOf(a: Alert): (n: int)
    ensures a.attempts.None? || a.attempts == Some(0) ==> n == 1
    ensures a.attempts.Some? && a.attempts.value != 0 ==> n == a.attempts.value
  {
    match a.attempts
    case Some(n) => if n == 0 then 1 else n
    case None => 1
  }

  /** `a.severity === 'high'`, case-sensitive. */
  predicate IsHigh(a: Alert) {
    a.severity == Some("high")
  }

  /** A country card: the name, the summed attempts, the high-severity count and
      the group size (labelled as unique addresses, though it counts alerts). */
  datatype CountryCard = CountryCard(country: string, totalAttempts: int, highSeverity: nat, alertCount: nat)

  function Card(e: (string, seq<Alert>)): (r: CountryCard)
    ensures r.country == e.0 && r.alertCount == |e.1|
    ensures r.highSeverity <= r.alertCount
    ensures (forall i :: 0 <= i < |e.1| ==> e.1[i].attempts.None? || e.1[i].attempts.value >= 0)
      ==> r.totalAttempts >= r.alertCount
  {
    var total := SumOf(e.1, AttemptsOf);
    assert (forall i :: 0 <= i < |e.1| ==> e.1[i].attempts.None? || e.1[i].attempts.value >= 0)
      ==> total >= |e.1| by {
      if forall i :: 0 <= i < |e.1| ==> e.1[i].attempts.None? || e.1[i].attempts.value >= 0 {
        SumOfAtLeast(e.1, AttemptsOf, 1);
      }
    }
    CountryCard(e.0, total, |Filter(e.1, IsHigh)|, |e.1|)
  }

  /** The colour family of a severity badge. */
  datatype Tone = Red | Yellow | Blue | Gray

  /** `getSeverityColor`: compares the lower-cased severity. */
  function SeverityTone(severity: Option<string>): (t: Tone)
    ensures severity.None? ==> t == Gray
    ensures severity.Some? ==> (t == Red <==> ToLower(severity.value) == "high")
    ensures severity.Some? ==> (t == Yellow <==> ToLower(severity.value) == "medium")
    ensures severity.Some? ==> (t == Blue <==> ToLower(severity.value) == "low")
  {
    match severity
    case None => Gray
    case Some(s) =>
      var l := ToLower(s);
      if l == "high" then Red else if l == "medium" then Yellow else if l == "low" then Blue else Gray
  }

  /** Every alert the card counts as high gets the red badge. */
  lemma CountedHighIsRed(a: Alert)
    ensures IsHigh(a) ==> SeverityTone(a.severity) == Red
  {
    if IsHigh(a) {
      assert ToLower("high") == "high";
    }
  }

  /** The converse fails: 'HIGH' gets the red badge but is not counted. */
  lemma UpperCaseHighNotCounted()
    ensures var a := Alert(None, None, Some("HIGH")); SeverityTone(a.severity) == Red && !IsHigh(a)
  {
    assert ToLower("HIGH") == "high";
  }

  /** What the panel shows. */
  datatype Panel = Panel(total: nat, countries: seq<CountryCard>, recent: seq<Alert>, overflowNote: bool)

  /** The component: nothing without alerts; otherwise the top-country cards,
      the first five alerts, and the note exactly when more exist. */
  function Render(alerts: Option<seq<Alert>>): (r: Option<Panel>)
    ensures r.None? <==> alerts.None? || |alerts.value| == 0
    ensures r.Some? ==> (
      && r.value.total == |alerts.value|
      && |r.value.recent| == (if |alerts.value| < 5 then |alerts.value| else 5)
      && (forall i :: 0 <= i < |r.value.recent| ==> r.value.recent[i] == alerts.value[i])
      && (r.value.overflowNote <==> |alerts.value| > 5))
    ensures r.Some? ==> (
      && |r.value.countries| == |TopCountries(alerts.value)| <= 5
      && forall i :: 0 <= i < |r.value.countries| ==> r.value.countries[i] == Card(TopCountries(alerts.value)[i]))
  {
    match alerts
    case None => None
    case Some(s) =>
      if |s| == 0 then None
      else
        var top := TopCountries(s);
        var cards := seq(|top|, i requires 0 <= i < |top| => Card(top[i]));
        Some(Panel(|s|, cards, FirstN(s, 5), |s| > 5))
  }
}

=== FILE: server_status.dfy ===
/** The three server-status cards: the compact card of the current frontend
    (which keeps stale data on a failed refresh), the real-time card of the
    legacy frontend (threshold classification, uptime, service and container
    indicators), and the legacy overview card (colour map, labels, percentage
    tones and derived statuses). */
module ServerStatus {
  import opened Prelude
  import opened Text
  import opened JsValue

  /** The colour families the cards use. */
  datatype Tone = Green | Yellow | Orange | Red | Blue | Gray

  /** How a fetch of `/api/server/status` ends: a parsed body from an `ok`
      response, a non-`ok` status (thrown as "HTTP error! status: N"), or any
      other exception with its message. */
  datatype Fetched = Body(v: Value) | HttpStatus(code: int) | Thrown(message: string)

  /** The message of the exception a failed fetch throws. */
  function FailureMessage(f: Fetched): string
    requires !f.Body?
  {
    match f
    case HttpStatus(c) => "HTTP error! status: " + IntToString(c)
    case Thrown(m) => m
  }

  // ---------------------------------------------------------------------------
  // The compact card

  /** The compact `MetricCard` colour: by the backend's status, blue by default
      (a missing status is the default 'normal'). */
  function CompactMetricTone(status: string): (t: Tone)
    ensures t == Yellow <==> status == "warning"
    ensures t == Red <==> status == "critical"
    ensures t == Green <==> status == "good"
    ensures t == Blue <==> status != "warning" && status != "critical" && status != "good"
  {
    if status == "warning" then Yellow
    else if status == "critical" then Red
    else if status == "good" then Green
    else Blue
  }

  /** The dot next to a service (`up` is 'active') or a container (`up` is
      'running'): green exactly for the status meaning up, red for any other. */
  function Dot(status: string, up: string): (t: Tone)
    ensures t == Green || t == Red
    ensures t == Green <==> status == up
  {
    if status == up then Green else Red
  }

  datatype CompactState = CompactState(data: Value, loading: bool, error: Option<string>, isUpdating: bool)

  function CompactInitial(): CompactState {
    CompactState(Null, true, None, false)
  }

  const ConnectPrefix: string := "Error conectando con el servidor: "

  /** A fetch starts (the first one with `isInitialLoad`), a fetch ends, or the
      500 ms timer a later fetch leaves behind fires. */
  datatype CompactEvent = Begin(initial: bool) | Settle(initial: bool, outcome: Fetched) | UpdateTimer

  function CompactStep(s: CompactState, e: CompactEvent): (r: CompactState)
    ensures e.Begin? && e.initial ==> r == s.(loading := true)
    ensures e.Begin? && !e.initial ==> r == s.(isUpdating := true)
    ensures e.Settle? && e.outcome.Body? ==> r.data == e.outcome.v && r.error.None?
    ensures e.Settle? && !e.outcome.Body? ==>
      r.data == s.data && r.error == Some(ConnectPrefix + FailureMessage(e.outcome))
    ensures e.Settle? && e.initial ==> !r.loading && r.isUpdating == s.isUpdating
    ensures e.Settle? && !e.initial ==> r.loading == s.loading && r.isUpdating == s.isUpdating
    ensures e.UpdateTimer? ==> r == s.(isUpdating := false)
  {
    match e
    case Begin(initial) => if initial then s.(loading := true) else s.(isUpdating := true)
    case Settle(initial, outcome) =>
      var t := match outcome
        case Body(v) => s.(data := v, error := None)
        case _ => s.(error := Some(ConnectPrefix + FailureMessage(outcome)));
      if initial then t.(loading := false) else t
    case UpdateTimer => s.(isUpdating := false)
  }

  function CompactRun(s: CompactState, es: seq<CompactEvent>): CompactState
    decreases |es|
  {
    if |es| == 0 then s else CompactRun(CompactStep(s, es[0]), es[1..])
  }

  /** The body of the last successful fetch among `es`, if any. */
  function LastBody(es: seq<CompactEvent>): Option<Value>
    decreases |es|
  {
    if |es| == 0 then None
    else match LastBody(es[1..])
      case Some(v) => Some(v)
      case None => if es[0].Settle? && es[0].outcome.Body? then Some(es[0].outcome.v) else None
  }

  /** The data shown is always the body of the last successful fetch: failures
      in between change nothing. */
  lemma {:induction false} CompactDataIsLastBody(s: CompactState, es: seq<CompactEvent>)
    ensures CompactRun(s, es).data == LastBody(es).GetOr(s.data)
    decreases |es|
  {
    if |es| > 0 {
      CompactDataIsLastBody(CompactStep(s, es[0]), es[1..]);
    }
  }

  /** The reads of the compact card's render that throw on a body without them:
      the four metrics' `value` and `status`, the security counters and the
      `map` over its services, the Docker counters and the `map` over its
      containers. */
  predicate CompactRenders(d: Value) {
    && Readable(d, ["metrics", "cpu"]) && Readable(d, ["metrics", "memory"])
    && Readable(d, ["metrics", "disk"]) && Readable(d, ["metrics", "load"])
    && Readable(d, ["security"]) && MapsOver(At(d, ["security", "services"]))
    && Readable(d, ["system", "docker"]) && MapsOver(At(d, ["system", "docker", "containers"]))
  }

  /** What the compact card shows. `Broken` is a render that throws on a body
      lacking one of the fields it reads. */
  datatype CompactView = Skeleton | NoDataPanel | Broken | Card(data: Value, updating: bool, warning: Option<string>)

  function CompactViewOf(s: CompactState): (v: CompactView)
    ensures v.Skeleton? <==> s.loading
    ensures v.NoDataPanel? <==> !s.loading && !Truthy(s.data)
    ensures v.Broken? <==> !s.loading && Truthy(s.data) && !CompactRenders(s.data)
    ensures v.Card? ==> v.data == s.data && v.updating == s.isUpdating && v.warning == s.error
  {
    if s.loading then Skeleton
    else if !Truthy(s.data) then NoDataPanel
    else if !CompactRenders(s.data) then CompactView.Broken
    else Card(s.data, s.isUpdating, s.error)
  }

  /** The body `{}` is truthy but has no `metrics`, so the card throws. */
  lemma EmptyObjectBreaksCompact(s: CompactState)
    requires !s.loading && s.data == Obj([])
    ensures CompactViewOf(s) == CompactView.Broken
  {
    assert Field(Obj([]), "metrics") == Some(Undefined);
  }

  /** From the first render, the no-data panel appears only when no fetch has
      delivered data, or the last one delivered an empty body. */
  lemma NoDataPanelOnlyWithoutData(es: seq<CompactEvent>)
    requires CompactViewOf(CompactRun(CompactInitial(), es)).NoDataPanel?
    ensures LastBody(es).None? || !Truthy(LastBody(es).value)
  {
    CompactDataIsLastBody(CompactInitial(), es);
    var r := CompactRun(CompactInitial(), es);
    assert !Truthy(r.data);
    if LastBody(es).Some? {
      assert r.data == LastBody(es).value;
    }
  }

  /** A failed refresh keeps the card with the previous data, under a warning
      banner carrying the message (and a body the card could not draw stays
      undrawable). */
  lemma FailedRefreshKeepsStaleData(s: CompactState, f: Fetched)
    requires !s.loading && Truthy(s.data) && !f.Body?
    ensures CompactRenders(s.data) ==> (
      CompactViewOf(CompactStep(s, Settle(false, f)))
        == Card(s.data, s.isUpdating, Some(ConnectPrefix + FailureMessage(f))))
    ensures !CompactRenders(s.data) ==> CompactViewOf(CompactStep(s, Settle(false, f))) == CompactView.Broken
  {
  }

  // ---------------------------------------------------------------------------
  // The real-time card

  /** The classes of `getMetricStatus`, least to most severe. */
  datatype Level = Excellent | Good | Warning | Critical

  function Severity(l: Level): nat {
    match l
    case Excellent => 0
    case Good => 1
    case Warning => 2
    case Critical => 3
  }

  datatype Thresholds = Thresholds(good: real, warning: real, critical: real)

  const CpuThresholds := Thresholds(40.0, 70.0, 85.0)
  const MemoryThresholds := Thresholds(50.0, 75.0, 90.0)
  const DiskThresholds := Thresholds(60.0, 80.0, 95.0)
  const LoadThresholds := Thresholds(1.0, 2.0, 4.0)

  /** `getMetricStatus`: the most severe class whose threshold the value reaches.
      A missing value compares false with every threshold and is therefore
      'excellent'. */
  function MetricStatus(value: Option<real>, t: Thresholds): (l: Level)
    ensures value.None? ==> l == Excellent
    ensures value.Some? ==> (l == Critical <==> value.value >= t.critical)
    ensures value.Some? ==> (l == Warning <==> t.warning <= value.value < t.critical)
    ensures value.Some? ==> (l == Good <==> t.good <= value.value && value.value < t.warning && value.value < t.critical)
    ensures value.Some? ==> (l == Excellent <==> value.value < t.good && value.value < t.warning && value.value < t.critical)
  {
    match value
    case None => Excellent
    case Some(v) =>
      if v >= t.critical then Critical
      else if v >= t.warning then Warning
      else if v >= t.good then Good
      else Excellent
  }

  /** A larger value is never classed less severe, whatever the thresholds. */
  lemma MetricStatusMonotone(a: real, b: real, t: Thresholds)
    requires a <= b
    ensures Severity(MetricStatus(Some(a), t)) <= Severity(MetricStatus(Some(b), t))
  {
  }

  /** With the card's ordered thresholds each band is the half-open interval
      between consecutive thresholds; e.g. CPU: below 40, 40 to 70, 70 to 85, 85 up. */
  lemma CpuBands(v: real)
    ensures MetricStatus(Some(v), CpuThresholds) == Excellent <==> v < 40.0
    ensures MetricStatus(Some(v), CpuThresholds) == Good <==> 40.0 <= v < 70.0
    ensures MetricStatus(Some(v), CpuThresholds) == Warning <==> 70.0 <= v < 85.0
    ensures MetricStatus(Some(v), CpuThresholds) == Critical <==> 85.0 <= v
  {
  }

  /** The indicator and metric colours of the real-time card. */
  function LevelTone(l: Level): (t: Tone)
    ensures t == Green <==> l == Excellent
    ensures t == Yellow <==> l == Good
    ensures t == Orange <==> l == Warning
    ensures t == Red <==> l == Critical
  {
    match l
    case Excellent => Green
    case Good => Yellow
    case Warning => Orange
    case Critical => Red
  }

  /** `Math.floor(h / 24)`. */
  function UptimeDays(h: int): int {
    h / 24
  }

  /** `h % 24` with JavaScript's `%`, whose result takes the dividend's sign. */
  function UptimeHours(h: int): int {
    if h >= 0 then h % 24 else -((-h) % 24)
  }

  /** For a non-negative uptime the two parts are the days and the remaining
      hours: they recombine to the uptime and the hours are below a day. */
  lemma UptimeSplit(h: int)
    requires h >= 0
    ensures UptimeDays(h) * 24 + UptimeHours(h) == h
    ensures 0 <= UptimeHours(h) < 24
  {
  }

  /** The two roundings differ below zero: an uptime of -1 hours shows as
      "-1d -1h", which recombines to -25. */
  lemma UptimeSplitNegative()
    ensures UptimeDays(-1) == -1 && UptimeHours(-1) == -1
    ensures UptimeDays(-1) * 24 + UptimeHours(-1) != -1
  {
  }

  /** A service is excellent when 'active' and critical otherwise. */
  function ServiceLevel(status: string): (l: Level)
    ensures l == Excellent || l == Critical
    ensures l == Excellent <==> status == "active"
  {
    if status == "active" then Excellent else Critical
  }

  /** A container is excellent when 'running' and only a warning otherwise. */
  function ContainerLevel(state: string): (l: Level)
    ensures l == Excellent || l == Warning
    ensures l == Excellent <==> state == "running"
  {
    if state == "running" then Excellent else Warning
  }

  /** The container indicators: the first three containers, in order; none
      when the list is missing. */
  function ContainerIndicators(containers: Option<seq<string>>): (r: seq<Level>)
    ensures containers.None? ==> r == []
    ensures containers.Some? ==> |r| == if |containers.value| < 3 then |containers.value| else 3
    ensures forall i :: 0 <= i < |r| ==> r[i] == ContainerLevel(containers.value[i])
  {
    match containers
    case None => []
    case Some(cs) =>
      var shown := FirstN(cs, 3);
      seq(|shown|, i requires 0 <= i < |shown| => ContainerLevel(shown[i]))
  }

  /** A stopped container never looks as bad as a stopped service. */
  lemma StoppedContainerMilderThanService(state: string, status: string)
    requires state != "running" && status != "active"
    ensures Severity(ContainerLevel(state)) < Severity(ServiceLevel(status))
  {
  }

  datatype RealState = RealState(data: Value, loading: bool, error: Option<string>)

  function RealInitial(): RealState {
    RealState(Null, true, None)
  }

  /** `fetchServerStatus` starting: the error is cleared before the request. */
  function RealStart(s: RealState): (r: RealState)
    ensures r.error.None? && r.data == s.data && r.loading == s.loading
  {
    s.(error := None)
  }

  /** `fetchServerStatus` ending: the data or the exception's message, and
      `loading` off either way. */
  function RealSettle(s: RealState, f: Fetched): (r: RealState)
    ensures !r.loading
    ensures f.Body? ==> r.data == f.v && r.error == s.error
    ensures !f.Body? ==> r.data == s.data && r.error == Some(FailureMessage(f))
  {
    match f
    case Body(v) => RealState(v, false, s.error)
    case _ => RealState(s.data, false, Some(FailureMessage(f)))
  }

  /** The alert block: `critical_alerts.length` is always read; `warnings.length`
      only when there are no critical alerts; when either is positive both lists
      are mapped. */
  predicate AlertsRender(d: Value) {
    var c := At(d, ["critical_alerts"]);
    var w := At(d, ["warnings"]);
    && !Nullish(c)
    && (LengthPositive(c) || !Nullish(w))
    && ((LengthPositive(c) || LengthPositive(w)) ==> c.Arr? && w.Arr?)
  }

  /** The reads of the real-time card's render that throw on a body without
      them: the alert block, the service counters and the `map` over a truthy
      service list, the container counters and the `slice(0, 3).map` over a
      truthy container list. */
  predicate RealRenders(d: Value) {
    var svc := At(d, ["services", "services"]);
    var ctr := At(d, ["docker_containers", "containers"]);
    && AlertsRender(d)
    && Readable(d, ["services"]) && (Truthy(svc) ==> MapsOver(svc))
    && Readable(d, ["docker_containers"]) && (Truthy(ctr) ==> ctr.Arr? && ItemsReadable(FirstN(ctr.items, 3)))
  }

  /** What the real-time card shows: checked in the order loading, error
      (a truthy message), missing data. `Broken` is a render that throws on a
      body lacking one of the fields it reads. */
  datatype RealView = Spinner | ErrorPanel(message: string) | NoData | Broken | Metrics(data: Value)

  function RealViewOf(s: RealState): (v: RealView)
    ensures v.Spinner? <==> s.loading
    ensures v.ErrorPanel? <==> !s.loading && s.error.Some? && |s.error.value| > 0
    ensures v.ErrorPanel? ==> v.message == s.error.value
    ensures v.NoData? <==> !v.Spinner? && !v.ErrorPanel? && !Truthy(s.data)
    ensures v.Broken? <==> !v.Spinner? && !v.ErrorPanel? && Truthy(s.data) && !RealRenders(s.data)
    ensures v.Metrics? ==> v.data == s.data && Truthy(s.data) && RealRenders(s.data)
  {
    if s.loading then Spinner
    else if s.error.Some? && |s.error.value| > 0 then ErrorPanel(s.error.value)
    else if !Truthy(s.data) then NoData
    else if !RealRenders(s.data) then RealView.Broken
    else Metrics(s.data)
  }

  /** The body `{}` is truthy but has no `critical_alerts`, so the card throws. */
  lemma EmptyObjectBreaksReal(s: RealState)
    requires !s.loading && (s.error.None? || |s.error.value| == 0) && s.data == Obj([])
    ensures RealViewOf(s) == RealView.Broken
  {
    assert Field(Obj([]), "critical_alerts") == Some(Undefined);
  }

  /** Without alerts the warnings are still read, and then only their length:
      empty lists render, a missing warning list throws. */
  lemma NoCriticalReadsWarnings(d: Value)
    requires Path(d, ["critical_alerts"]) == Some(Arr([]))
    ensures Path(d, ["warnings"]) == Some(Arr([])) ==> AlertsRender(d)
    ensures Path(d, ["warnings"]) == Some(Undefined) ==> !AlertsRender(d)
  {
  }

  /** Unlike the compact card, a failed refresh hides the data it still holds
      behind the error panel; the next refresh shows the data again as soon as
      it starts. */
  lemma RealFailureHidesData(s: RealState, code: int)
    requires Truthy(s.data)
    ensures var r := RealSettle(RealStart(s), HttpStatus(code));
      && r.data == s.data
      && RealViewOf(r).ErrorPanel?
      && (RealRenders(s.data) ==> RealViewOf(RealStart(r)) == Metrics(s.data))
      && (!RealRenders(s.data) ==> RealViewOf(RealStart(r)) == RealView.Broken)
  {
  }

  /** An exception with an empty message sets an error the card ignores. */
  lemma EmptyMessageNotShown(s: RealState)
    requires Truthy(s.data)
    ensures var r := RealSettle(s, Thrown(""));
      && r.error == Some("")
      && (RealRenders(s.data) ==> RealViewOf(r) == Metrics(s.data))
      && (!RealRenders(s.data) ==> RealViewOf(r) == RealView.Broken)
  {
  }

  // ---------------------------------------------------------------------------
  // The overview card

  /** The overview `StatusIndicator` colour map. */
  function StatusTone(status: string): (t: Tone)
    ensures t == Green <==> status in {"active", "healthy", "online"}
    ensures t == Yellow <==> status in {"warning", "degraded"}
    ensures t == Red <==> status in {"error", "offline", "critical"}
    ensures t == Gray <==> status !in {"active", "healthy", "online", "warning", "degraded", "error", "offline", "critical"}
  {
    if status == "active" || status == "healthy" || status == "online" then Green
    else if status == "warning" || status == "degraded" then Yellow
    else if status == "error" || status == "offline" || status == "critical" then Red
    else Gray
  }

  /** The overview card's label. */
  function CardLabel(status: string): string {
    if status == "active" then "Activo" else if status == "warning" then "Advertencia" else "Error"
  }

  /** The label agrees with the colour only for 'active' and 'warning': every
      red or grey status is labelled 'Error', but so are the green 'healthy'
      and 'online' and the yellow 'degraded'. */
  lemma LabelAgainstTone(status: string)
    ensures CardLabel(status) == "Activo" ==> StatusTone(status) == Green
    ensures CardLabel(status) == "Advertencia" ==> StatusTone(status) == Yellow
    ensures StatusTone(status) == Red || StatusTone(status) == Gray ==> CardLabel(status) == "Error"
    ensures CardLabel("healthy") == "Error" && StatusTone("healthy") == Green
    ensures CardLabel("degraded") == "Error" && StatusTone("degraded") == Yellow
  {
  }

  /** How a metric value is printed. */
  datatype ValueTone = Alarm | Caution | Plain

  /** A percentage metric is red above 80 and yellow above 60; a value without
      a number in front, and any metric that is not a percentage, is plain. */
  function PercentTone(isPercentage: bool, value: string): (t: ValueTone)
    ensures !isPercentage || ParseFloat(value).None? ==> t == Plain
    ensures isPercentage && ParseFloat(value).Some? ==>
      var x := ParseFloat(value).value;
      && (t == Alarm <==> x > 80.0)
      && (t == Caution <==> 60.0 < x <= 80.0)
      && (t == Plain <==> x <= 60.0)
  {
    var x := ParseFloat(value);
    if isPercentage && x.Some? && x.value > 80.0 then Alarm
    else if isPercentage && x.Some? && x.value > 60.0 then Caution
    else Plain
  }

  /** The infrastructure card warns exactly when the disk is over 85 percent. */
  function InfraStatus(disk: string): (status: string)
    ensures status == "warning" <==> ParseFloat(disk).Some? && ParseFloat(disk).value > 85.0
    ensures status == "warning" || status == "active"
  {
    var x := ParseFloat(disk);
    if x.Some? && x.value > 85.0 then "warning" else "active"
  }

  /** A disk the infrastructure card warns about is also printed red, and a
      printed usage such as "90%" is read as its number. */
  lemma InfraWarningIsAlarm(disk: string, n: nat)
    ensures InfraStatus(disk) == "warning" ==> PercentTone(true, disk) == Alarm
    ensures InfraStatus(NatToString(n) + "%") == "warning" <==> n > 85
  {
    ParseFloatOfNat(n, "%");
  }

  /** The monitoring card: critical alerts first, then warnings. */
  function MonitoringStatus(critical: int, warnings: int): (status: string)
    ensures status == "critical" <==> critical > 0
    ensures status == "warning" <==> critical <= 0 && warnings > 0
    ensures status == "active" <==> critical <= 0 && warnings <= 0
  {
    if critical > 0 then "critical" else if warnings > 0 then "warning" else "active"
  }

  /** The monitoring card is never grey, and is labelled 'Error' exactly when
      there are critical alerts. */
  lemma MonitoringCardShown(critical: int, warnings: int)
    ensures StatusTone(MonitoringStatus(critical, warnings)) != Gray
    ensures CardLabel(MonitoringStatus(critical, warnings)) == "Error" <==> critical > 0
  {
  }
}

=== FILE: sorting.dfy ===
/** A stable sort into descending order of a two-level rank, the shape of every
    `Array.prototype.sort` comparator in the dashboard (`b.key - a.key`, optionally
    after a group test). JavaScript's sort is stable, so the result is fixed by
    "ordered, a permutation, equal ranks in input order" — all three are proved. */
module Sorting {
  import opened Prelude

  /** Compared lexicographically: `primary` first, then `secondary`. */
  datatype Rank = Rank(primary: int, secondary: int)

  /** `a` may come before `b` in descending order. */
  predicate AtLeast(a: Rank, b: Rank) {
    a.primary > b.primary || (a.primary == b.primary && a.secondary >= b.secondary)
  }

  predicate SortedDesc<T>(s: seq<T>, key: T -> Rank) {
    forall i, j :: 0 <= i < j < |s| ==> AtLeast(key(s[i]), key(s[j]))
  }

  /** Put `x` before the first element it ranks at least as high as. */
  function Insert<T>(x: T, s: seq<T>, key: T -> Rank): (r: seq<T>)
    ensures |r| == |s| + 1
  {
    if |s| == 0 then [x]
    else if AtLeast(key(x), key(s[0])) then [x] + s
    else [s[0]] + Insert(x, s[1..], key)
  }

  /** Insertion sort, inserting earlier elements into the sorted rest so that ties keep input order. */
  function SortDesc<T>(s: seq<T>, key: T -> Rank): (r: seq<T>)
    ensures |r| == |s|
  {
    if |s| == 0 then [] else Insert(s[0], SortDesc(s[1..], key), key)
  }

  lemma {:induction false} InsertSorted<T>(x: T, s: seq<T>, key: T -> Rank)
    requires SortedDesc(s, key)
    ensures SortedDesc(Insert(x, s, key), key)
    ensures multiset(Insert(x, s, key)) == multiset(s) + multiset{x}
  {
    InsertPerm(x, s, key);
    if |s| > 0 && !AtLeast(key(x), key(s[0])) {
      var t := Insert(x, s[1..], key);
      InsertSorted(x, s[1..], key);
      InsertMembers(x, s[1..], key);
      forall y | y in t ensures AtLeast(key(s[0]), key(y)) {
        if y in s[1..] {
          var m :| 0 <= m < |s[1..]| && s[1..][m] == y;
          assert s[m + 1] == y;
        }
      }
      ConsSorted(s[0], t, key);
    }
  }

  /** Inserting adds exactly `x`. */
  lemma {:induction false} InsertPerm<T>(x: T, s: seq<T>, key: T -> Rank)
    ensures multiset(Insert(x, s, key)) == multiset(s) + multiset{x}
  {
    if |s| > 0 && !AtLeast(key(x), key(s[0])) {
      InsertPerm(x, s[1..], key);
      assert s == [s[0]] + s[1..];
    }
  }

  /** A head ranking at least as high as everything in a sorted tail keeps it sorted. */
  lemma ConsSorted<T>(h: T, t: seq<T>, key: T -> Rank)
    requires SortedDesc(t, key)
    requires forall y :: y in t ==> AtLeast(key(h), key(y))
    ensures SortedDesc([h] + t, key)
  {
    var r := [h] + t;
    forall i, j | 0 <= i < j < |r| ensures AtLeast(key(r[i]), key(r[j])) {
      assert r[j] == t[j - 1];
      if i > 0 {
        assert r[i] == t[i - 1];
      }
    }
  }

  lemma {:induction false} InsertMembers<T>(x: T, s: seq<T>, key: T -> Rank)
    ensures forall y :: y in Insert(x, s, key) ==> y == x || y in s
  {
    if |s| > 0 && !AtLeast(key(x), key(s[0])) {
      InsertMembers(x, s[1..], key);
    }
  }

  /** The sort orders its input and is a permutation of it. */
  lemma {:induction false} SortDescCorrect<T>(s: seq<T>, key: T -> Rank)
    ensures SortedDesc(SortDesc(s, key), key)
    ensures multiset(SortDesc(s, key)) == multiset(s)
  {
    if |s| > 0 {
      SortDescCorrect(s[1..], key);
      InsertSorted(s[0], SortDesc(s[1..], key), key);
      assert s == [s[0]] + s[1..];
    }
  }

  /** The first `n` of the sorted sequence are in order and come from the input. */
  lemma TopOfSort<T>(s: seq<T>, key: T -> Rank, n: nat)
    ensures SortedDesc(FirstN(SortDesc(s, key), n), key)
    ensures forall i :: 0 <= i < |FirstN(SortDesc(s, key), n)| ==> FirstN(SortDesc(s, key), n)[i] in s
  {
    var sorted := SortDesc(s, key);
    var r := FirstN(sorted, n);
    SortDescCorrect(s, key);
    forall i | 0 <= i < |r| ensures r[i] in s {
      assert r[i] in multiset(sorted);
    }
    forall i, j | 0 <= i < j < |r| ensures AtLeast(key(r[i]), key(r[j])) {
      assert r[i] == sorted[i] && r[j] == sorted[j];
    }
  }

  /** The elements of rank `k`, in order. */
  function WithRank<T>(s: seq<T>, key: T -> Rank, k: Rank): seq<T> {
    if |s| == 0 then []
    else (if key(s[0]) == k then [s[0]] else []) + WithRank(s[1..], key, k)
  }

  lemma {:induction false} InsertWithRank<T>(x: T, s: seq<T>, key: T -> Rank, k: Rank)
    ensures WithRank(Insert(x, s, key), key, k) ==
      if key(x) == k then [x] + WithRank(s, key, k) else WithRank(s, key, k)
  {
    if |s| == 0 {
      assert Insert(x, s, key) == [x];
    } else if AtLeast(key(x), key(s[0])) {
      var r := [x] + s;
      assert Insert(x, s, key) == r && r[0] == x && r[1..] == s;
    } else {
      var t := Insert(x, s[1..], key);
      var r := [s[0]] + t;
      assert Insert(x, s, key) == r && r[0] == s[0] && r[1..] == t;
      InsertWithRank(x, s[1..], key, k);
      // s[0] ranks strictly above x, so it is not of x's rank
      assert key(x) == k ==> key(s[0]) != k;
      assert WithRank(s, key, k) == (if key(s[0]) == k then [s[0]] else []) + WithRank(s[1..], key, k);
    }
  }

  /** Stability: for every rank, the elements of that rank keep their input order. */
  lemma {:induction false} SortDescStable<T>(s: seq<T>, key: T -> Rank, k: Rank)
    ensures WithRank(SortDesc(s, key), key, k) == WithRank(s, key, k)
  {
    if |s| > 0 {
      SortDescStable(s[1..], key, k);
      InsertWithRank(s[0], SortDesc(s[1..], key), key, k);
    }
  }

  /** Insertion adds the inserted element to every filter count it passes. */
  lemma {:induction false} InsertFilterCount<T>(x: T, s: seq<T>, key: T -> Rank, p: T -> bool)
    ensures |Filter(Insert(x, s, key), p)| == |Filter(s, p)| + (if p(x) then 1 else 0)
  {
    if |s| == 0 {
    } else if AtLeast(key(x), key(s[0])) {
      assert ([x] + s)[1..] == s;
    } else {
      InsertFilterCount(x, s[1..], key, p);
      assert ([s[0]] + Insert(x, s[1..], key))[1..] == Insert(x, s[1..], key);
    }
  }

  /** Sorting keeps how many elements satisfy any predicate. */
  lemma {:induction false} SortDescFilterCount<T>(s: seq<T>, key: T -> Rank, p: T -> bool)
    ensures |Filter(SortDesc(s, key), p)| == |Filter(s, p)|
  {
    if |s| > 0 {
      SortDescFilterCount(s[1..], key, p);
      InsertFilterCount(s[0], SortDesc(s[1..], key), key, p);
    }
  }
}

=== FILE: ssh_log.dfy ===
/** Classification of `sshd` journal lines into attack and successful-login
    records, as the backend's SSH log reader does line by line. */
module SshLog {
  import opened Prelude
  import opened Text
  import opened Lines

  datatype AuthType = Password | PublicKey

  /** The `ip`, `user` and `auth_type` fields of a record; the timestamp and the
      raw line are not modelled. */
  datatype SshEntry =
    | Attack(ip: string, user: string)
    | Success(ip: string, user: string, authType: AuthType)

  /** `'Failed password' in line or 'Invalid user' in line` */
  predicate AttackWords(line: string) {
    Contains(line, "Failed password") || Contains(line, "Invalid user")
  }

  /** `'Accepted' in line and ('password' in line or 'publickey' in line)` */
  predicate SuccessWords(line: string) {
    Contains(line, "Accepted") && (Contains(line, "password") || Contains(line, "publickey"))
  }

  /** `from ` followed by a dotted quad occurs somewhere in the line. */
  predicate HasSourceIp(line: string) {
    exists j :: 0 <= j <= |line| && QuadAt(line, j, "from ")
  }

  /** A nonempty run of `\w` characters. */
  predicate IsWord(u: string) {
    |u| > 0 && forall k :: 0 <= k < |u| ==> InClass(u[k], Word)
  }

  /** `re.search(prefix + r'(\w+)', line)` finds nothing. */
  predicate NoWordAfter(line: string, prefix: string) {
    forall j :: 0 <= j <= |line| ==> !MatchAt(line, j, prefix, Word, "")
  }

  /** `re.search(r'user (\w+)', line) or re.search(r'for (\w+)', line)`, else 'unknown':
      the first maximal word after `user `, failing that the first after `for `. */
  function AttackUser(line: string): (u: string)
    ensures u == "unknown" || IsWord(u)
    ensures !NoWordAfter(line, "user ") ==> exists i: nat :: FirstGroupAt(line, i, "user ", Word, "", u)
    ensures NoWordAfter(line, "user ") && !NoWordAfter(line, "for ") ==>
      exists i: nat :: FirstGroupAt(line, i, "for ", Word, "", u)
    ensures NoWordAfter(line, "user ") && NoWordAfter(line, "for ") ==> u == "unknown"
  {
    match Search(line, "user ", Word, "")
    case Some(u) => u
    case None =>
      match Search(line, "for ", Word, "")
      case Some(u) => u
      case None => "unknown"
  }

  /** `re.search(r'for (\w+)', line)`, else 'unknown': the first maximal word after `for `. */
  function SuccessUser(line: string): (u: string)
    ensures u == "unknown" || IsWord(u)
    ensures !NoWordAfter(line, "for ") ==> exists i: nat :: FirstGroupAt(line, i, "for ", Word, "", u)
    ensures NoWordAfter(line, "for ") ==> u == "unknown"
  {
    match Search(line, "for ", Word, "")
    case Some(u) => u
    case None => "unknown"
  }

  /** The record one journal line yields, if any. */
  function ClassifyLine(line: string): (r: Option<SshEntry>)
    ensures (r.Some? && r.value.Attack?) <==> AttackWords(line) && HasSourceIp(line)
    ensures (r.Some? && r.value.Success?) <==>
      !AttackWords(line) && SuccessWords(line) && HasSourceIp(line)
    ensures r.Some? ==> IsDottedQuad(r.value.ip) && exists i: nat :: FirstQuadAt(line, i, "from ", r.value.ip)
    ensures r.Some? && r.value.Success? ==> (r.value.authType == PublicKey <==> Contains(line, "publickey"))
    ensures r.Some? ==> r.value.user == "unknown" || IsWord(r.value.user)
    ensures r.Some? ==> r.value.user == if r.value.Attack? then AttackUser(line) else SuccessUser(line)
  {
    KeywordLineNotBlank(line);
    if |Strip(line)| == 0 then None
    else if AttackWords(line) then
      match SearchQuad(line, "from ")
      case Some(ip) => Some(Attack(ip, AttackUser(line)))
      case None => None
    else if SuccessWords(line) then
      match SearchQuad(line, "from ")
      case Some(ip) =>
        Some(Success(ip, SuccessUser(line), if Contains(line, "publickey") then PublicKey else Password))
      case None => None
    else None
  }

  /** A line carrying any of the keywords is not blank, so `line.strip()` passes it. */
  lemma KeywordLineNotBlank(line: string)
    ensures AttackWords(line) || SuccessWords(line) ==> !IsBlank(line)
  {
    if Contains(line, "Failed password") {
      NotBlankOfContains(line, "Failed password");
    } else if Contains(line, "Invalid user") {
      NotBlankOfContains(line, "Invalid user");
    } else if Contains(line, "Accepted") {
      NotBlankOfContains(line, "Accepted");
    }
  }

  /** All records of a journal output, in line order. */
  function ParseSshLog(out: string): (r: seq<SshEntry>)
    ensures forall k :: 0 <= k < |r| ==> IsDottedQuad(r[k].ip)
    ensures forall k :: 0 <= k < |r| ==> r[k].user == "unknown" || IsWord(r[k].user)
    ensures '\n' !in out ==> r == Found(out, ClassifyLine)
  {
    ParseLines(out, ClassifyLine)
  }

  /** The records of two outputs joined by a newline are those of the first,
      then those of the second: with the one-line case, every journal line
      contributes exactly its own record, in order. */
  lemma ParseSshLogAppend(a: string, b: string)
    ensures ParseSshLog(a + "\n" + b) == ParseSshLog(a) + ParseSshLog(b)
  {
    ParseLinesAppend(a, b, ClassifyLine);
  }

  predicate IsAttack(e: SshEntry) { e.Attack? }

  predicate IsSuccess(e: SshEntry) { e.Success? }

  /** `[e for e in entries if e['type'] == 'attack']` and its `'success'` twin
      split the records between them. */
  lemma AttacksAndSuccesses(entries: seq<SshEntry>)
    ensures |Filter(entries, IsAttack)| + |Filter(entries, IsSuccess)| == |entries|
  {
    FilterPartition(entries, IsAttack, IsSuccess);
  }

  /** A line counts as an attack when it also reports an accepted login:
      the attack test comes first. */
  lemma AttackTakesPriority(line: string)
    requires AttackWords(line) && SuccessWords(line) && HasSourceIp(line)
    ensures ClassifyLine(line).Some? && ClassifyLine(line).value.Attack?
  {
  }
}

=== FILE: text.dfy ===
/** String operations the backend relies on: Python's `in`, `strip()`, `split(c)`,
    `split()`, `rsplit(c, 1)`, `int()` and `str(n)`, and the small regular
    expressions it uses to pull tokens out of log lines. Characters are treated as
    ASCII where Python would be Unicode-aware (`\w`, `\d`, `\s`). */
module Text {
  import opened Prelude

  predicate IsDigit(c: char) { '0' <= c <= '9' }

  /** Regex `\s` and the separators of `str.split()` / `str.strip()`. */
  predicate IsSpace(c: char) {
    c == ' ' || c == '\t' || c == '\n' || c == '\r' || c == '\U{B}' || c == '\U{C}'
  }

  /** Regex `\w`. */
  predicate IsWordChar(c: char) {
    IsDigit(c) || ('a' <= c <= 'z') || ('A' <= c <= 'Z') || c == '_'
  }

  /** The character classes that appear inside the backend's capture groups. */
  datatype CharClass =
    | Digits       // \d
    | Word         // \w
    | NonSpace     // [^\s]
    | NonQuote     // [^']
    | DigitsDots   // [0-9.]
    | StampChars   // [0-9-T:.]
    | DateChars    // [0-9-]
    | ClockChars   // [0-9:]

  predicate InClass(c: char, cls: CharClass) {
    match cls
    case Digits => IsDigit(c)
    case Word => IsWordChar(c)
    case NonSpace => !IsSpace(c)
    case NonQuote => c != '\''
    case DigitsDots => IsDigit(c) || c == '.'
    case StampChars => IsDigit(c) || c == '-' || c == 'T' || c == ':' || c == '.'
    case DateChars => IsDigit(c) || c == '-'
    case ClockChars => IsDigit(c) || c == ':'
  }

  predicate AllDigits(s: string) { forall i :: 0 <= i < |s| ==> IsDigit(s[i]) }

  predicate IsBlank(s: string) { forall i :: 0 <= i < |s| ==> IsSpace(s[i]) }

  predicate NoSpace(w: string) { forall i :: 0 <= i < |w| ==> !IsSpace(w[i]) }

  predicate StartsWith(s: string, p: string) { |p| <= |s| && s[..|p|] == p }

  /** Python `p in s`. */
  predicate Contains(s: string, p: string)
    decreases |s|
  {
    StartsWith(s, p) || (|s| > 0 && Contains(s[1..], p))
  }

  /** `t` occurs in `s` at position `i`. */
  predicate InfixAt(s: string, i: nat, t: string) {
    i + |t| <= |s| && s[i..i + |t|] == t
  }

  /** `p in s` holds exactly when `p` occurs at some position. */
  lemma {:induction false} ContainsAt(s: string, p: string)
    ensures Contains(s, p) <==> exists i: nat :: InfixAt(s, i, p)
    decreases |s|
  {
    if StartsWith(s, p) {
      assert InfixAt(s, 0, p);
    }
    if |s| > 0 {
      ContainsAt(s[1..], p);
      if exists i: nat :: InfixAt(s[1..], i, p) {
        var i: nat :| InfixAt(s[1..], i, p);
        InfixTail(s, i + 1, p);
      }
      if exists i: nat :: InfixAt(s, i, p) {
        var i: nat :| InfixAt(s, i, p);
        if i > 0 {
          InfixTail(s, i, p);
        } else {
          assert s[..|p|] == s[0..|p|];
        }
      }
    } else if exists i: nat :: InfixAt(s, i, p) {
      assert s[..|p|] == p;
    }
  }

  /** An occurrence past the first character is one in the tail. */
  lemma InfixTail(s: string, i: nat, p: string)
    requires 0 < i && 0 < |s|
    ensures InfixAt(s, i, p) <==> InfixAt(s[1..], i - 1, p)
  {
    if i + |p| <= |s| {
      assert s[i..i + |p|] == s[1..][i - 1..i - 1 + |p|];
    }
  }

  /** A line containing a word that starts with a visible character is not blank. */
  lemma NotBlankOfContains(s: string, p: string)
    requires Contains(s, p) && |p| > 0 && !IsSpace(p[0])
    ensures !IsBlank(s)
  {
    ContainsAt(s, p);
    var i: nat :| InfixAt(s, i, p);
    assert s[i] == p[0];
  }

  // ---------------------------------------------------------------------------
  // strip()

  function TrimStart(s: string): (r: string)
    ensures |r| <= |s| && r == s[|s| - |r|..]
    ensures |r| > 0 ==> !IsSpace(r[0])
    ensures IsBlank(s[..|s| - |r|])
  {
    if |s| > 0 && IsSpace(s[0]) then TrimStart(s[1..]) else s
  }

  /** Nothing is trimmed from a string that starts with a non-space. */
  lemma TrimStartKeeps(s: string)
    requires |s| > 0 && !IsSpace(s[0])
    ensures TrimStart(s) == s
  {
  }

  function TrimEnd(s: string): (r: string)
    ensures |r| <= |s| && r == s[..|r|]
    ensures |r| > 0 ==> !IsSpace(r[|r| - 1])
    ensures IsBlank(s[|r|..])
  {
    if |s| > 0 && IsSpace(s[|s| - 1]) then TrimEnd(s[..|s| - 1]) else s
  }

  /** Python `s.strip()`: leading and trailing whitespace removed. A line is
      "truthy after strip" exactly when it is not blank. */
  function Strip(s: string): (r: string)
    ensures |r| == 0 <==> IsBlank(s)
    ensures |r| > 0 ==> !IsSpace(r[0]) && !IsSpace(r[|r| - 1])
  {
    StripBlank(s);
    TrimEnd(TrimStart(s))
  }

  lemma StripBlank(s: string)
    ensures |TrimEnd(TrimStart(s))| == 0 <==> IsBlank(s)
  {
    var t := TrimStart(s);
    assert s == s[..|s| - |t|] + t;
    if |TrimEnd(t)| == 0 {
      assert t[0..] == t;
      assert |t| == 0;
      assert s[..|s|] == s;
    }
  }

  // ---------------------------------------------------------------------------
  // split(c) and its inverse

  function IndexOf(s: string, c: char): (k: nat)
    requires c in s
    ensures k < |s| && s[k] == c && c !in s[..k]
  {
    if s[0] == c then 0
    else
      var k := 1 + IndexOf(s[1..], c);
      assert s[..k] == [s[0]] + s[1..][..k - 1];
      k
  }

  /** Python `s.split(c)`: the pieces between occurrences of `c`, empty pieces kept. */
  function SplitOn(s: string, c: char): (r: seq<string>)
    ensures |r| >= 1
    ensures forall i :: 0 <= i < |r| ==> c !in r[i]
    decreases |s|
  {
    if c !in s then [s]
    else
      var k := IndexOf(s, c);
      [s[..k]] + SplitOn(s[k + 1..], c)
  }

  /** Python `c.join(parts)`. */
  function JoinWith(parts: seq<string>, c: char): string
  {
    if |parts| == 0 then []
    else if |parts| == 1 then parts[0]
    else parts[0] + [c] + JoinWith(parts[1..], c)
  }

  /** Splitting and re-joining on the same separator gives the string back. */
  lemma {:induction false} SplitJoin(s: string, c: char)
    ensures JoinWith(SplitOn(s, c), c) == s
    decreases |s|
  {
    if c in s {
      var k := IndexOf(s, c);
      var rest := SplitOn(s[k + 1..], c);
      assert SplitOn(s, c) == [s[..k]] + rest;
      assert ([s[..k]] + rest)[1..] == rest;
      SplitJoin(s[k + 1..], c);
      assert s == s[..k] + [c] + s[k + 1..];
    }
  }

  /** `s.split(c)` has one more piece than `s` has occurrences of `c`. */
  lemma {:induction false} SplitCount(s: string, c: char)
    ensures |SplitOn(s, c)| == multiset(s)[c] + 1
    decreases |s|
  {
    if c in s {
      var k := IndexOf(s, c);
      assert s == s[..k] + [c] + s[k + 1..];
      assert multiset(s) == multiset(s[..k]) + multiset([c]) + multiset(s[k + 1..]);
      assert multiset(s[..k])[c] == 0;
      SplitCount(s[k + 1..], c);
    } else {
      assert multiset(s)[c] == 0;
    }
  }

  /** `s.split(c)[0]`: everything before the first `c`. */
  function FirstPiece(s: string, c: char): (r: string)
    ensures c !in r && StartsWith(s, r)
    ensures |r| < |s| ==> s[|r|] == c
  {
    if c in s then s[..IndexOf(s, c)] else s
  }

  // ---------------------------------------------------------------------------
  // rsplit(c, 1)

  function LastIndexOf(s: string, c: char): (k: nat)
    requires c in s
    ensures k < |s| && s[k] == c && c !in s[k + 1..]
  {
    if s[|s| - 1] == c then |s| - 1
    else
      var t := s[..|s| - 1];
      assert c in t by {
        var j :| 0 <= j < |s| && s[j] == c;
        assert t[j] == c;
      }
      var k := LastIndexOf(t, c);
      assert s[k + 1..] == t[k + 1..] + [s[|s| - 1]];
      k
  }

  /** `a, b = s.rsplit(c, 1)`: the split at the LAST `c`; the unpacking raises
      (here: `None`) when `c` does not occur. */
  function RSplitOnce(s: string, c: char): (r: Option<(string, string)>)
    ensures r.None? <==> c !in s
    ensures r.Some? ==> r.value.0 + [c] + r.value.1 == s && c !in r.value.1
  {
    if c in s then
      var k := LastIndexOf(s, c);
      assert s == s[..k] + [c] + s[k + 1..];
      Some((s[..k], s[k + 1..]))
    else None
  }

  /** `s.split(c)[-1]`: everything after the last `c`, or all of `s`. */
  function LastPiece(s: string, c: char): (r: string)
    ensures c !in r
    ensures c !in s ==> r == s
    ensures c in s ==> exists a :: a + [c] + r == s
  {
    match RSplitOnce(s, c)
    case Some((a, b)) => b
    case None => s
  }

  // ---------------------------------------------------------------------------
  // split() on whitespace

  /** The end of the maximal run of `cls` characters starting at `i`. */
  function RunEnd(s: string, i: nat, cls: CharClass): (j: nat)
    requires i <= |s|
    ensures i <= j <= |s|
    ensures j < |s| ==> !InClass(s[j], cls)
    decreases |s| - i
  {
    if i < |s| && InClass(s[i], cls) then RunEnd(s, i + 1, cls) else i
  }

  /** Every character of a run is in its class. */
  lemma {:induction false} RunEndClass(s: string, i: nat, cls: CharClass)
    requires i <= |s|
    ensures forall k :: i <= k < RunEnd(s, i, cls) ==> InClass(s[k], cls)
    decreases |s| - i
  {
    if i < |s| && InClass(s[i], cls) {
      RunEndClass(s, i + 1, cls);
    }
  }

  /** Python `s.split()`: the maximal non-whitespace runs, in order. */
  function Fields(s: string): (r: seq<string>)
    ensures forall i :: 0 <= i < |r| ==> |r[i]| > 0 && NoSpace(r[i])
    decreases |s|
  {
    if |s| == 0 then []
    else if IsSpace(s[0]) then Fields(s[1..])
    else
      var k := RunEnd(s, 0, NonSpace);
      RunEndClass(s, 0, NonSpace);
      [s[..k]] + Fields(s[k..])
  }

  /** A blank string has no fields. */
  lemma {:induction false} FieldsOfBlank(s: string)
    ensures IsBlank(s) ==> Fields(s) == []
    decreases |s|
  {
    if |s| > 0 && IsBlank(s) {
      FieldsOfBlank(s[1..]);
    }
  }

  function Concat(parts: seq<string>): string {
    if |parts| == 0 then [] else parts[0] + Concat(parts[1..])
  }

  /** The characters of `s` that are not whitespace. */
  function Visible(s: string): string {
    if |s| == 0 then [] else (if IsSpace(s[0]) then [] else [s[0]]) + Visible(s[1..])
  }

  lemma {:induction false} VisibleSplit(s: string, k: nat)
    requires k <= |s|
    ensures Visible(s) == Visible(s[..k]) + Visible(s[k..])
  {
    if k > 0 {
      assert s[1..][..k - 1] == s[..k][1..];
      assert s[1..][k - 1..] == s[k..];
      VisibleSplit(s[1..], k - 1);
    }
  }

  lemma {:induction false} VisibleOfNoSpace(w: string)
    requires NoSpace(w)
    ensures Visible(w) == w
  {
    if |w| > 0 {
      VisibleOfNoSpace(w[1..]);
    }
  }

  /** `split()` loses exactly the whitespace: its fields, concatenated, are the
      visible characters of the input. */
  lemma {:induction false} FieldsKeepVisible(s: string)
    ensures Concat(Fields(s)) == Visible(s)
    decreases |s|
  {
    if |s| > 0 {
      if IsSpace(s[0]) {
        FieldsKeepVisible(s[1..]);
      } else {
        var k := RunEnd(s, 0, NonSpace);
        var rest := Fields(s[k..]);
        assert Fields(s) == [s[..k]] + rest;
        assert ([s[..k]] + rest)[1..] == rest;
        FieldsKeepVisible(s[k..]);
        VisibleSplit(s, k);
        VisibleOfNoSpace(s[..k]);
      }
    }
  }

  /** A single word without whitespace is its own only field. */
  lemma FieldsOfWord(w: string)
    requires |w| > 0 && NoSpace(w)
    ensures Fields(w) == [w]
  {
    var k := RunEnd(w, 0, NonSpace);
    assert k == |w|;
    assert w[..k] == w;
    assert Fields(w[k..]) == [];
  }

  /** Splitting on whitespace splits around a space: the fields of the two sides, in order. */
  lemma {:induction false} FieldsSpaceAppend(a: string, b: string)
    ensures Fields(a + " " + b) == Fields(a) + Fields(b)
    decreases |a|
  {
    var s := a + " " + b;
    if |a| == 0 {
      assert s[1..] == b;
    } else if IsSpace(a[0]) {
      assert s[1..] == a[1..] + " " + b;
      FieldsSpaceAppend(a[1..], b);
    } else {
      var k := RunEnd(a, 0, NonSpace);
      assert s == a + (" " + b);
      RunEndExtend(a, " " + b, 0, NonSpace);
      assert s[..k] == a[..k];
      assert s[k..] == a[k..] + " " + b;
      FieldsSpaceAppend(a[k..], b);
      assert s[0] == a[0];
      assert Fields(s) == [a[..k]] + Fields(s[k..]);
      assert Fields(a) == [a[..k]] + Fields(a[k..]);
    }
  }

  /** Words without whitespace, joined by single spaces, split back into the same words. */
  lemma {:induction false} FieldsOfJoin(ws: seq<string>)
    requires forall i :: 0 <= i < |ws| ==> |ws[i]| > 0 && NoSpace(ws[i])
    ensures Fields(JoinWith(ws, ' ')) == ws
  {
    if |ws| == 1 {
      FieldsOfWord(ws[0]);
    } else if |ws| > 1 {
      assert JoinWith(ws, ' ') == ws[0] + " " + JoinWith(ws[1..], ' ');
      FieldsSpaceAppend(ws[0], JoinWith(ws[1..], ' '));
      FieldsOfWord(ws[0]);
      FieldsOfJoin(ws[1..]);
    }
  }

  // ---------------------------------------------------------------------------
  // Regular-expression searches

  /** `re.search(prefix + '(CLASS+)' + suffix, s)` matches at position `i`, the
      group being the maximal run of `cls` after the prefix. That is exact for
      the backend's patterns, whose suffix never starts with a class character. */
  predicate MatchAt(s: string, i: nat, prefix: string, cls: CharClass, suffix: string)
  {
    i + |prefix| < |s| && s[i..i + |prefix|] == prefix && InClass(s[i + |prefix|], cls)
    && StartsWith(s[RunEnd(s, i + |prefix|, cls)..], suffix)
  }

  /** A match spans the prefix, the captured run and the suffix. */
  lemma MatchSpan(s: string, i: nat, prefix: string, cls: CharClass, suffix: string)
    requires MatchAt(s, i, prefix, cls, suffix)
    ensures InfixAt(s, i, prefix + s[i + |prefix|..RunEnd(s, i + |prefix|, cls)] + suffix)
  {
    var e := RunEnd(s, i + |prefix|, cls);
    InfixThen(s, i, prefix, e);
    InfixThen(s, i, prefix + s[i + |prefix|..e], e + |suffix|);
    assert s[e..e + |suffix|] == suffix;
  }

  /** The leftmost match position at or after `i`. */
  function FindMatch(s: string, i: nat, prefix: string, cls: CharClass, suffix: string): (r: Option<nat>)
    requires i <= |s|
    ensures r.Some? ==> i <= r.value < |s| && MatchAt(s, r.value, prefix, cls, suffix)
    ensures r.Some? ==> forall j :: i <= j < r.value ==> !MatchAt(s, j, prefix, cls, suffix)
    ensures r.None? ==> forall j :: i <= j <= |s| ==> !MatchAt(s, j, prefix, cls, suffix)
    decreases |s| - i
  {
    if i == |s| then None
    else if MatchAt(s, i, prefix, cls, suffix) then Some(i)
    else FindMatch(s, i + 1, prefix, cls, suffix)
  }

  /** At `i` stand `prefix`, then `w` — a non-empty run of `cls` that the next
      character does not continue — then `suffix`: the regex matches at `i` with
      `w` as its group. */
  ghost predicate GroupAt(s: string, i: nat, prefix: string, cls: CharClass, suffix: string, w: string)
  {
    var a := i + |prefix|;
    var e := a + |w|;
    && e <= |s| && |w| > 0
    && s[i..a] == prefix && s[a..e] == w
    && (forall k :: 0 <= k < |w| ==> InClass(w[k], cls))
    && (e == |s| || !InClass(s[e], cls))
    && StartsWith(s[e..], suffix)
  }

  /** `GroupAt`, and no match starts further left: what `re.search` returns. */
  ghost predicate FirstGroupAt(s: string, i: nat, prefix: string, cls: CharClass, suffix: string, w: string)
  {
    && GroupAt(s, i, prefix, cls, suffix, w)
    && forall j: nat, v: string :: j < i ==> !GroupAt(s, j, prefix, cls, suffix, v)
  }

  /** A group match is a match whose group is the whole run after the prefix. */
  lemma GroupAtMatch(s: string, i: nat, prefix: string, cls: CharClass, suffix: string, w: string)
    requires GroupAt(s, i, prefix, cls, suffix, w)
    ensures MatchAt(s, i, prefix, cls, suffix)
    ensures w == s[i + |prefix|..RunEnd(s, i + |prefix|, cls)]
  {
    var a := i + |prefix|;
    assert forall k :: a <= k < a + |w| ==> s[k] == w[k - a];
    RunOf(s, a, |w|, cls);
    assert s[a] == w[0];
  }

  /** A match, with the run after the prefix as its group, is a group match. */
  lemma MatchGroupAt(s: string, i: nat, prefix: string, cls: CharClass, suffix: string)
    requires MatchAt(s, i, prefix, cls, suffix)
    ensures GroupAt(s, i, prefix, cls, suffix, s[i + |prefix|..RunEnd(s, i + |prefix|, cls)])
  {
    var a := i + |prefix|;
    var e := RunEnd(s, a, cls);
    RunEndClass(s, a, cls);
    assert e == RunEnd(s, a + 1, cls);
    var w := s[a..e];
    assert a + |w| == e;
    assert forall k :: 0 <= k < |w| ==> w[k] == s[a + k];
  }

  /** The captured group of the leftmost match, `m.group(1)` when `m` is not None. */
  function Search(s: string, prefix: string, cls: CharClass, suffix: string): (r: Option<string>)
    ensures r.Some? ==> |r.value| > 0 && forall k :: 0 <= k < |r.value| ==> InClass(r.value[k], cls)
    ensures r.Some? ==> exists i: nat :: InfixAt(s, i, prefix + r.value)
    ensures r.Some? ==> exists i: nat :: FirstGroupAt(s, i, prefix, cls, suffix, r.value)
    ensures r.None? <==> forall j :: 0 <= j <= |s| ==> !MatchAt(s, j, prefix, cls, suffix)
  {
    match FindMatch(s, 0, prefix, cls, suffix)
    case None => None
    case Some(i) =>
      var a := i + |prefix|;
      var e := RunEnd(s, a, cls);
      RunEndClass(s, a, cls);
      InfixThen(s, i, prefix, e);
      FirstMatchGroup(s, i, prefix, cls, suffix);
      Some(s[a..e])
  }

  /** The leftmost match, read as a group match, is the first one. */
  lemma FirstMatchGroup(s: string, i: nat, prefix: string, cls: CharClass, suffix: string)
    requires FindMatch(s, 0, prefix, cls, suffix) == Some(i)
    ensures FirstGroupAt(s, i, prefix, cls, suffix, s[i + |prefix|..RunEnd(s, i + |prefix|, cls)])
  {
    MatchGroupAt(s, i, prefix, cls, suffix);
    forall j: nat, v: string | j < i
      ensures !GroupAt(s, j, prefix, cls, suffix, v)
    {
      if GroupAt(s, j, prefix, cls, suffix, v) {
        GroupAtMatch(s, j, prefix, cls, suffix, v);
      }
    }
  }

  /** At most one position and group are the first group match. */
  lemma FirstGroupUnique(s: string, i: nat, j: nat, prefix: string, cls: CharClass, suffix: string, w: string, v: string)
    requires FirstGroupAt(s, i, prefix, cls, suffix, w) && FirstGroupAt(s, j, prefix, cls, suffix, v)
    ensures i == j && w == v
  {
    if i == j {
      GroupAtMatch(s, i, prefix, cls, suffix, w);
      GroupAtMatch(s, i, prefix, cls, suffix, v);
      assert |w| == |v|;
    }
  }

  /** Conversely, the group of the first group match is what `Search` returns. */
  lemma SearchFindsFirstGroup(s: string, i: nat, prefix: string, cls: CharClass, suffix: string, w: string)
    requires FirstGroupAt(s, i, prefix, cls, suffix, w)
    ensures Search(s, prefix, cls, suffix) == Some(w)
  {
    GroupAtMatch(s, i, prefix, cls, suffix, w);
    var r := Search(s, prefix, cls, suffix);
    assert r.Some?;
    var j: nat :| FirstGroupAt(s, j, prefix, cls, suffix, r.value);
    FirstGroupUnique(s, i, j, prefix, cls, suffix, w, r.value);
  }

  /** The pattern matches somewhere in `s`. */
  ghost predicate HasGroup(s: string, prefix: string, cls: CharClass, suffix: string)
  {
    exists j: nat, v: string :: GroupAt(s, j, prefix, cls, suffix, v)
  }

  /** `Search` finds a group exactly when the pattern matches somewhere. */
  lemma SearchFindsSome(s: string, prefix: string, cls: CharClass, suffix: string)
    ensures Search(s, prefix, cls, suffix).Some? <==> HasGroup(s, prefix, cls, suffix)
  {
    if Search(s, prefix, cls, suffix).None? {
      forall j: nat, v: string ensures !GroupAt(s, j, prefix, cls, suffix, v) {
        if GroupAt(s, j, prefix, cls, suffix, v) {
          GroupAtMatch(s, j, prefix, cls, suffix, v);
        }
      }
    } else {
      var i :| 0 <= i <= |s| && MatchAt(s, i, prefix, cls, suffix);
      MatchGroupAt(s, i, prefix, cls, suffix);
    }
  }

  /** `w` is what `m.group(1) if m else dflt` gives for `m = re.search(pattern, s)`:
      the leftmost group when the pattern matches anywhere, else the default. */
  ghost predicate GroupOr(s: string, prefix: string, cls: CharClass, suffix: string, dflt: string, w: string)
  {
    && (HasGroup(s, prefix, cls, suffix) ==> exists i: nat :: FirstGroupAt(s, i, prefix, cls, suffix, w))
    && (!HasGroup(s, prefix, cls, suffix) ==> w == dflt)
  }

  /** `Search` with a default is the group-or-default of the line. */
  lemma SearchOr(s: string, prefix: string, cls: CharClass, suffix: string, dflt: string)
    ensures GroupOr(s, prefix, cls, suffix, dflt, Search(s, prefix, cls, suffix).GetOr(dflt))
  {
    SearchFindsSome(s, prefix, cls, suffix);
  }

  /** The end of `\d+(\.\d+){n-1}` starting at `i`, if it matches there. */
  function GroupsEnd(s: string, i: nat, n: nat): (r: Option<nat>)
    requires i <= |s| && n >= 1
    ensures r.Some? ==> i < r.value <= |s|
    decreases n
  {
    var j := RunEnd(s, i, Digits);
    if j == i then None
    else if n == 1 then Some(j)
    else if j < |s| && s[j] == '.' then GroupsEnd(s, j + 1, n - 1)
    else None
  }

  /** The number of groups in an IPv4 address. */
  const Quad: nat := 4

  /** Regex `^\d+\.\d+\.\d+\.\d+$` (the whole string is a dotted quad). */
  predicate IsDottedQuad(s: string) { GroupsEnd(s, 0, Quad) == Some(|s|) }

  /** Regex `^\d+\.\d+\.\d+\.\d+` (the string starts with a dotted quad). */
  predicate StartsWithDottedQuad(s: string) { GroupsEnd(s, 0, Quad).Some? }

  /** Non-empty digit groups joined by dots match `\d+(\.\d+){n-1}` exactly;
      in particular four of them form a dotted quad. */
  lemma {:induction false} GroupsOfJoin(gs: seq<string>)
    requires |gs| >= 1
    requires forall k :: 0 <= k < |gs| ==> |gs[k]| > 0 && AllDigits(gs[k])
    ensures GroupsEnd(JoinWith(gs, '.'), 0, |gs|) == Some(|JoinWith(gs, '.')|)
  {
    var s := JoinWith(gs, '.');
    var g := gs[0];
    if |gs| == 1 {
      RunOf(s, 0, |g|, Digits);
    } else {
      GroupsOfJoin(gs[1..]);
      GroupsJoinStep(g, JoinWith(gs[1..], '.'), |gs| - 1);
    }
  }

  /** A digit group and a dot in front of matching groups make one more group. */
  lemma GroupsJoinStep(g: string, rest: string, n: nat)
    requires |g| > 0 && AllDigits(g) && n >= 1
    requires GroupsEnd(rest, 0, n) == Some(|rest|)
    ensures GroupsEnd(g + ['.'] + rest, 0, n + 1) == Some(|g| + 1 + |rest|)
  {
    var s := g + ['.'] + rest;
    assert s[|g|] == '.' && s[|g| + 1..] == rest;
    RunOf(s, 0, |g|, Digits);
    GroupsSuffix(s, |g| + 1, 0, n);
  }

  lemma DottedQuadOfGroups(a: string, b: string, c: string, d: string)
    requires |a| > 0 && |b| > 0 && |c| > 0 && |d| > 0
    requires AllDigits(a) && AllDigits(b) && AllDigits(c) && AllDigits(d)
    ensures IsDottedQuad(JoinWith([a, b, c, d], '.'))
  {
    GroupsOfJoin([a, b, c, d]);
  }

  /** A run inside the suffix `s[k..]` is the same run in `s`, shifted by `k`. */
  lemma {:induction false} RunEndSuffix(s: string, k: nat, i: nat, cls: CharClass)
    requires k + i <= |s|
    ensures RunEnd(s, k + i, cls) == k + RunEnd(s[k..], i, cls)
    decreases |s| - (k + i)
  {
    if k + i < |s| {
      assert s[k..][i] == s[k + i];
      if InClass(s[k + i], cls) {
        RunEndSuffix(s, k, i + 1, cls);
      }
    }
  }

  /** Group matching inside the suffix `s[k..]` is group matching in `s`, shifted by `k`. */
  lemma {:induction false} GroupsSuffix(s: string, k: nat, i: nat, n: nat)
    requires k + i <= |s| && n >= 1
    ensures GroupsEnd(s, k + i, n).Some? <==> GroupsEnd(s[k..], i, n).Some?
    ensures GroupsEnd(s[k..], i, n).Some? ==> GroupsEnd(s, k + i, n).value == k + GroupsEnd(s[k..], i, n).value
    decreases n
  {
    RunEndSuffix(s, k, i, Digits);
    var j := RunEnd(s[k..], i, Digits);
    if n > 1 && j > i && k + j < |s| {
      assert s[k..][j] == s[k + j];
      GroupsSuffix(s, k, j + 1, n - 1);
    }
  }

  /** A run of `n` characters of `cls` at `i`, followed by one outside it (or the end). */
  lemma RunOf(s: string, i: nat, n: nat, cls: CharClass)
    requires i + n <= |s|
    requires forall k :: i <= k < i + n ==> InClass(s[k], cls)
    requires i + n < |s| ==> !InClass(s[i + n], cls)
    ensures RunEnd(s, i, cls) == i + n
    decreases n
  {
    if n > 0 {
      RunOf(s, i + 1, n - 1, cls);
    }
  }

  /** What `\d+(\.\d+){n-1}` spans is made of digits and dots only. */
  lemma {:induction false} GroupsChars(s: string, i: nat, n: nat)
    requires i <= |s| && n >= 1 && GroupsEnd(s, i, n).Some?
    ensures forall k :: i <= k < GroupsEnd(s, i, n).value ==> IsDigit(s[k]) || s[k] == '.'
    decreases n
  {
    var j := RunEnd(s, i, Digits);
    RunEndClass(s, i, Digits);
    if n > 1 {
      GroupsChars(s, j + 1, n - 1);
    }
  }

  /** A dotted quad has no ':' in it and starts with a digit. */
  lemma DottedQuadChars(q: string)
    requires IsDottedQuad(q)
    ensures ':' !in q && |q| > 0 && IsDigit(q[0])
  {
    GroupsChars(q, 0, 4);
  }

  /** A run ends at the same place once text not continuing it is appended. */
  lemma {:induction false} RunEndExtend(s: string, t: string, i: nat, cls: CharClass)
    requires i <= |s|
    requires |t| == 0 || !InClass(t[0], cls)
    ensures RunEnd(s + t, i, cls) == RunEnd(s, i, cls)
    decreases |s| - i
  {
    var u := s + t;
    if i < |s| {
      assert u[i] == s[i];
      if InClass(s[i], cls) {
        RunEndExtend(s, t, i + 1, cls);
      }
    } else if |t| > 0 {
      assert u[i] == t[0];
    }
  }

  /** Groups spanning all of `s` still match once text not starting with a digit is appended. */
  lemma {:induction false} GroupsExtend(s: string, t: string, i: nat, n: nat)
    requires i <= |s| && n >= 1 && GroupsEnd(s, i, n) == Some(|s|)
    requires |t| == 0 || !IsDigit(t[0])
    ensures GroupsEnd(s + t, i, n) == Some(|s|)
    decreases n
  {
    RunEndExtend(s, t, i, Digits);
    var j := RunEnd(s, i, Digits);
    if n > 1 {
      assert (s + t)[j] == s[j];
      GroupsExtend(s, t, j + 1, n - 1);
    }
  }

  /** `re.match(r'^\d+\.\d+\.\d+\.\d+', q + rest)` succeeds when `q` is a dotted quad
      and `rest` does not continue its last group. */
  lemma StartsWithQuad(q: string, rest: string)
    requires IsDottedQuad(q) && (|rest| == 0 || !IsDigit(rest[0]))
    ensures StartsWithDottedQuad(q + rest)
  {
    GroupsExtend(q, rest, 0, Quad);
  }

  /** `prefix` followed by a dotted quad starts at position `i`. */
  predicate QuadAt(s: string, i: nat, prefix: string)
  {
    i + |prefix| < |s| && s[i..i + |prefix|] == prefix && GroupsEnd(s, i + |prefix|, Quad).Some?
  }

  /** Leftmost position where `prefix` is followed by a dotted quad:
      `re.search(prefix + r'(\d+\.\d+\.\d+\.\d+)', s)`. */
  function FindQuad(s: string, i: nat, prefix: string): (r: Option<nat>)
    requires i <= |s|
    ensures r.Some? ==> i <= r.value && QuadAt(s, r.value, prefix)
    ensures r.Some? ==> forall j :: i <= j < r.value ==> !QuadAt(s, j, prefix)
    ensures r.None? ==> forall j :: i <= j <= |s| ==> !QuadAt(s, j, prefix)
    decreases |s| - i
  {
    if i == |s| then None
    else if QuadAt(s, i, prefix) then Some(i)
    else FindQuad(s, i + 1, prefix)
  }

  /** At `i` stand `prefix` and the dotted quad `q`, whose last group the next
      character does not continue: `prefix + r'(\d+\.\d+\.\d+\.\d+)'` matches at `i`
      with `q` as its group. */
  ghost predicate QuadGroupAt(s: string, i: nat, prefix: string, q: string)
  {
    var a := i + |prefix|;
    var e := a + |q|;
    && e <= |s| && s[i..a] == prefix && s[a..e] == q && IsDottedQuad(q)
    && (e == |s| || !IsDigit(s[e]))
  }

  /** `QuadGroupAt`, and no match starts further left. */
  ghost predicate FirstQuadAt(s: string, i: nat, prefix: string, q: string)
  {
    QuadGroupAt(s, i, prefix, q) && forall j: nat, v: string :: j < i ==> !QuadGroupAt(s, j, prefix, v)
  }

  /** Matched groups end where no further digit follows. */
  lemma {:induction false} GroupsEndStops(s: string, i: nat, n: nat)
    requires i <= |s| && n >= 1 && GroupsEnd(s, i, n).Some?
    ensures GroupsEnd(s, i, n).value == |s| || !IsDigit(s[GroupsEnd(s, i, n).value])
    decreases n
  {
    if n > 1 {
      GroupsEndStops(s, RunEnd(s, i, Digits) + 1, n - 1);
    }
  }

  /** A prefix-then-quad match, with the span it covers as its group, is a quad group match. */
  lemma QuadAtGroup(s: string, i: nat, prefix: string)
    requires QuadAt(s, i, prefix)
    ensures QuadGroupAt(s, i, prefix, s[i + |prefix|..GroupsEnd(s, i + |prefix|, Quad).value])
  {
    var a := i + |prefix|;
    var e := GroupsEnd(s, a, Quad).value;
    QuadOfMatch(s, a);
    GroupsEndStops(s, a, Quad);
    assert a + |s[a..e]| == e;
  }

  /** A quad group match is a prefix-then-quad match spanning exactly the group. */
  lemma QuadGroupAtQuad(s: string, i: nat, prefix: string, q: string)
    requires QuadGroupAt(s, i, prefix, q)
    ensures QuadAt(s, i, prefix) && GroupsEnd(s, i + |prefix|, Quad) == Some(i + |prefix| + |q|)
  {
    DottedQuadChars(q);
    GroupsThenStop(s, i + |prefix|, q, Quad);
  }

  /** Groups at `a` spanning all of `q` that the next character does not
      continue are what the groups starting at `a` span. */
  lemma GroupsThenStop(s: string, a: nat, q: string, n: nat)
    requires a + |q| <= |s| && s[a..a + |q|] == q && n >= 1 && GroupsEnd(q, 0, n) == Some(|q|)
    requires a + |q| == |s| || !IsDigit(s[a + |q|])
    ensures GroupsEnd(s, a, n) == Some(a + |q|)
  {
    var rest := s[a + |q|..];
    SplitAfter(s, a, q);
    assert |rest| == 0 || rest[0] == s[a + |q|];
    GroupsExtend(q, rest, 0, n);
    GroupsSuffix(s, a, 0, n);
  }

  /** The text from `a` on is `q` followed by the rest when `q` stands at `a`. */
  lemma SplitAfter(s: string, a: nat, q: string)
    requires a + |q| <= |s| && s[a..a + |q|] == q
    ensures s[a..] == q + s[a + |q|..]
  {
  }


  /** The dotted quad captured after `prefix`, if any. */
  function SearchQuad(s: string, prefix: string): (r: Option<string>)
    ensures r.Some? ==> IsDottedQuad(r.value)
    ensures r.Some? ==> exists i: nat :: InfixAt(s, i, prefix + r.value)
    ensures r.Some? ==> exists i: nat :: FirstQuadAt(s, i, prefix, r.value)
    ensures r.None? <==> forall j :: 0 <= j <= |s| ==> !QuadAt(s, j, prefix)
  {
    match FindQuad(s, 0, prefix)
    case None => None
    case Some(i) =>
      var e := GroupsEnd(s, i + |prefix|, Quad).value;
      QuadSpan(s, i, prefix, e);
      FirstQuadMatch(s, i, prefix);
      Some(s[i + |prefix|..e])
  }

  /** The leftmost prefix-then-quad match, read as a quad group match, is the first one. */
  lemma FirstQuadMatch(s: string, i: nat, prefix: string)
    requires FindQuad(s, 0, prefix) == Some(i)
    ensures FirstQuadAt(s, i, prefix, s[i + |prefix|..GroupsEnd(s, i + |prefix|, Quad).value])
  {
    QuadAtGroup(s, i, prefix);
    forall j: nat, v: string | j < i
      ensures !QuadGroupAt(s, j, prefix, v)
    {
      if QuadGroupAt(s, j, prefix, v) {
        QuadGroupAtQuad(s, j, prefix, v);
      }
    }
  }

  /** At most one position and quad are the first quad group match. */
  lemma FirstQuadUnique(s: string, i: nat, j: nat, prefix: string, q: string, v: string)
    requires FirstQuadAt(s, i, prefix, q) && FirstQuadAt(s, j, prefix, v)
    ensures i == j && q == v
  {
    if i == j {
      QuadGroupSame(s, i, prefix, q, v);
    }
  }

  /** Two quad group matches at one position capture the same quad. */
  lemma QuadGroupSame(s: string, i: nat, prefix: string, q: string, v: string)
    requires QuadGroupAt(s, i, prefix, q) && QuadGroupAt(s, i, prefix, v)
    ensures q == v
  {
    QuadGroupAtQuad(s, i, prefix, q);
    QuadGroupAtQuad(s, i, prefix, v);
    var a := i + |prefix|;
    assert |q| == |v|;
    assert q == s[a..a + |q|];
  }

  /** Conversely, the quad of the first quad group match is what `SearchQuad` returns. */
  lemma SearchQuadFindsFirst(s: string, i: nat, prefix: string, q: string)
    requires FirstQuadAt(s, i, prefix, q)
    ensures SearchQuad(s, prefix) == Some(q)
  {
    QuadGroupAtQuad(s, i, prefix, q);
    var r := SearchQuad(s, prefix);
    assert r.Some?;
    var j: nat :| FirstQuadAt(s, j, prefix, r.value);
    FirstQuadUnique(s, i, j, prefix, q, r.value);
  }

  /** `prefix` and a dotted quad occur somewhere in `s`. */
  ghost predicate HasQuadGroup(s: string, prefix: string)
  {
    exists j: nat, v: string :: QuadGroupAt(s, j, prefix, v)
  }

  /** `SearchQuad` finds an address exactly when one follows `prefix` somewhere. */
  lemma SearchQuadFindsSome(s: string, prefix: string)
    ensures SearchQuad(s, prefix).Some? <==> HasQuadGroup(s, prefix)
  {
    if SearchQuad(s, prefix).None? {
      forall j: nat, v: string ensures !QuadGroupAt(s, j, prefix, v) {
        if QuadGroupAt(s, j, prefix, v) {
          QuadGroupAtQuad(s, j, prefix, v);
        }
      }
    }
  }

  /** A prefix-then-quad match spans the prefix and a dotted quad. */
  lemma QuadSpan(s: string, i: nat, prefix: string, e: nat)
    requires QuadAt(s, i, prefix) && e == GroupsEnd(s, i + |prefix|, Quad).value
    ensures IsDottedQuad(s[i + |prefix|..e]) && InfixAt(s, i, prefix + s[i + |prefix|..e])
  {
    QuadOfMatch(s, i + |prefix|);
    InfixThen(s, i, prefix, e);
  }

  /** `p` at `i`, followed by whatever comes up to `e`, occurs at `i`. */
  lemma InfixThen(s: string, i: nat, p: string, e: nat)
    requires InfixAt(s, i, p) && i + |p| <= e <= |s|
    ensures InfixAt(s, i, p + s[i + |p|..e])
  {
    assert s[i..e] == s[i..i + |p|] + s[i + |p|..e];
  }

  /** The text a dotted-quad match spans is itself a dotted quad. */
  lemma QuadOfMatch(s: string, a: nat)
    requires a <= |s| && GroupsEnd(s, a, Quad).Some?
    ensures IsDottedQuad(s[a..GroupsEnd(s, a, Quad).value])
  {
    WholeWindow(s, a, GroupsEnd(s, a, Quad).value, Quad);
  }

  /** The text `n` groups span, taken on its own, is exactly `n` groups. */
  lemma WholeWindow(s: string, a: nat, e: nat, n: nat)
    requires a <= e <= |s| && n >= 1 && GroupsEnd(s, a, n) == Some(e)
    ensures GroupsEnd(s[a..e], 0, n) == Some(|s[a..e]|)
  {
    GroupsWindow(s, a, e, a, n);
  }

  /** A digit run seen through the window `s[a..e]` ends where it ends in `s`. */
  lemma {:induction false} RunEndWindow(s: string, a: nat, e: nat, i: nat, cls: CharClass)
    requires a <= i <= e <= |s| && RunEnd(s, i, cls) <= e
    ensures RunEnd(s[a..e], i - a, cls) == RunEnd(s, i, cls) - a
    decreases e - i
  {
    if i < e {
      assert s[a..e][i - a] == s[i];
      if InClass(s[i], cls) {
        RunEndWindow(s, a, e, i + 1, cls);
      }
    }
  }

  /** Matching the groups through the window `s[a..e]` gives the same end. */
  lemma {:induction false} GroupsWindow(s: string, a: nat, e: nat, i: nat, n: nat)
    requires a <= i <= e <= |s| && n >= 1
    requires GroupsEnd(s, i, n).Some? && GroupsEnd(s, i, n).value <= e
    ensures GroupsEnd(s[a..e], i - a, n) == Some(GroupsEnd(s, i, n).value - a)
    decreases n
  {
    if n == 1 {
      GroupsWindowOne(s, a, e, i);
    } else {
      GroupsNext(s, i, n);
      GroupsWindow(s, a, e, RunEnd(s, i, Digits) + 1, n - 1);
      GroupsWindowMore(s, a, e, i, n);
    }
  }

  /** A single group seen through the window. */
  lemma GroupsWindowOne(s: string, a: nat, e: nat, i: nat)
    requires a <= i <= e <= |s|
    requires GroupsEnd(s, i, 1).Some? && GroupsEnd(s, i, 1).value <= e
    ensures GroupsEnd(s[a..e], i - a, 1) == Some(GroupsEnd(s, i, 1).value - a)
  {
    GroupsLast(s, i);
    RunEndWindow(s, a, e, i, Digits);
    GroupsLast(s[a..e], i - a);
  }

  /** The first of several groups seen through the window, given that the rest are. */
  lemma GroupsWindowMore(s: string, a: nat, e: nat, i: nat, n: nat)
    requires a <= i <= e <= |s| && n > 1
    requires GroupsEnd(s, i, n).Some? && GroupsEnd(s, i, n).value <= e
    requires var j := RunEnd(s, i, Digits);
      j < |s| && GroupsEnd(s[a..e], j + 1 - a, n - 1) == Some(GroupsEnd(s, i, n).value - a)
    ensures GroupsEnd(s[a..e], i - a, n) == Some(GroupsEnd(s, i, n).value - a)
  {
    var w := s[a..e];
    var j := RunEnd(s, i, Digits);
    GroupsNext(s, i, n);
    assert s[j] == '.' && j < e;
    RunEndWindow(s, a, e, i, Digits);
    var jw := j - a;
    assert w[jw] == s[j];
    GroupsNextBack(w, i - a, n, jw);
  }

  /** One group ends where its digit run ends. */
  lemma GroupsLast(s: string, i: nat)
    requires i <= |s|
    ensures GroupsEnd(s, i, 1) == if RunEnd(s, i, Digits) == i then None else Some(RunEnd(s, i, Digits))
  {
  }

  /** A match of several groups continues after the first group's dot. */
  lemma GroupsNext(s: string, i: nat, n: nat)
    requires i <= |s| && n > 1 && GroupsEnd(s, i, n).Some?
    ensures var j := RunEnd(s, i, Digits);
      i < j < |s| && s[j] == '.' && GroupsEnd(s, i, n) == GroupsEnd(s, j + 1, n - 1)
  {
  }

  /** A first group followed by a dot and a match of the rest is a match of all. */
  lemma GroupsNextBack(s: string, i: nat, n: nat, j: nat)
    requires i <= |s| && n > 1
    requires j == RunEnd(s, i, Digits) && i < j < |s| && s[j] == '.'
    ensures GroupsEnd(s, i, n) == GroupsEnd(s, j + 1, n - 1)
  {
  }

  // ---------------------------------------------------------------------------
  // Decimal numbers: str(n), int(s)

  function DigitChar(d: nat): (c: char)
    requires d < 10
    ensures IsDigit(c)
  {
    (('0' as int) + d) as char
  }

  function DigitValue(c: char): (d: nat)
    requires IsDigit(c)
    ensures d < 10
  {
    (c as int) - ('0' as int)
  }

  /** Decimal digits of `n` with no leading zero (Python `str(n)`, JavaScript `n.toString()`). */
  function NatToString(n: nat): (r: string)
    ensures |r| > 0 && AllDigits(r)
    ensures |r| > 1 ==> r[0] != '0'
  {
    if n < 10 then [DigitChar(n)]
    else NatToString(n / 10) + [DigitChar(n % 10)]
  }

  function IntToString(n: int): string {
    if n < 0 then "-" + NatToString(-n) else NatToString(n)
  }

  /** The value of a digit string, most significant digit first. */
  function DigitsValue(s: string): nat
    requires AllDigits(s)
  {
    if |s| == 0 then 0 else DigitsValue(s[..|s| - 1]) * 10 + DigitValue(s[|s| - 1])
  }

  /** Python `int(s)` on an already stripped string: an optional sign then at
      least one digit; anything else raises (here: `None`). */
  function ParseInt(s: string): Option<int> {
    if |s| > 0 && (s[0] == '-' || s[0] == '+') then
      if |s| > 1 && AllDigits(s[1..]) then
        var v: int := DigitsValue(s[1..]);
        Some(if s[0] == '-' then -v else v)
      else None
    else if |s| > 0 && AllDigits(s) then Some(DigitsValue(s))
    else None
  }

  /** The value of the digits after a decimal point: `.d1d2...` is `(d1 + .d2...) / 10`. */
  function FracValue(s: string): (r: real)
    requires AllDigits(s)
    ensures 0.0 <= r < 1.0
  {
    if |s| == 0 then 0.0 else (DigitValue(s[0]) as real + FracValue(s[1..])) / 10.0
  }

  /** JavaScript `parseFloat`: leading whitespace skipped, an optional sign,
      then the longest `digits[.digits]` prefix (at least one digit); the rest
      of the string is ignored. No number at the front is `NaN` (`None`). */
  function ParseFloat(s: string): (r: Option<real>)
  {
    var t := TrimStart(s);
    var signed := |t| > 0 && (t[0] == '-' || t[0] == '+');
    match Magnitude(if signed then t[1..] else t)
    case None => None
    case Some(m) => Some(if signed && t[0] == '-' then -m else m)
  }

  /** The value of the longest `digits[.digits]` prefix with at least one digit. */
  function Magnitude(u: string): (r: Option<real>)
    ensures r.Some? ==> r.value >= 0.0
  {
    var w := RunEnd(u, 0, Digits);
    var f := if w < |u| && u[w] == '.' then RunEnd(u, w + 1, Digits) else w;
    if f == 0 then None
    else
      RunEndClass(u, 0, Digits);
      if f == w then Some(DigitsValue(u[..w]) as real)
      else
        RunEndClass(u, w + 1, Digits);
        Some(DigitsValue(u[..w]) as real + FracValue(u[w + 1..f]))
  }

  /** A printed whole number followed by a unit (or nothing) reads back as that number. */
  lemma ParseFloatOfNat(n: nat, unit: string)
    requires |unit| == 0 || (!IsDigit(unit[0]) && unit[0] != '.')
    ensures ParseFloat(NatToString(n) + unit) == Some(n as real)
  {
    ParseFloatOfDigits(NatToString(n), unit);
    DigitsValueOfNatToString(n);
  }

  /** Digits followed by a unit (or nothing) read back as their value. */
  lemma ParseFloatOfDigits(d: string, unit: string)
    requires |d| > 0 && AllDigits(d)
    requires |unit| == 0 || (!IsDigit(unit[0]) && unit[0] != '.')
    ensures ParseFloat(d + unit) == Some(DigitsValue(d) as real)
  {
    var u := d + unit;
    assert u[0] == d[0];
    TrimStartKeeps(u);
    MagnitudeOfDigits(d, unit);
  }

  /** Digits followed by a unit (or nothing) measure their value. */
  lemma MagnitudeOfDigits(d: string, unit: string)
    requires |d| > 0 && AllDigits(d)
    requires |unit| == 0 || (!IsDigit(unit[0]) && unit[0] != '.')
    ensures Magnitude(d + unit) == Some(DigitsValue(d) as real)
  {
    var u := d + unit;
    RunOf(d, 0, |d|, Digits);
    RunEndExtend(d, unit, 0, Digits);
    assert u[..|d|] == d;
    assert |d| < |u| ==> u[|d|] == unit[0];
  }

  lemma {:induction false} DigitsValueOfNatToString(n: nat)
    ensures DigitsValue(NatToString(n)) == n
  {
    var r := NatToString(n);
    if n >= 10 {
      assert r[..|r| - 1] == NatToString(n / 10);
      DigitsValueOfNatToString(n / 10);
    }
  }

  /** Reading back a printed integer gives the integer. */
  lemma ParseIntToString(n: int)
    ensures ParseInt(IntToString(n)) == Some(n)
  {
    var d := NatToString(if n < 0 then -n else n);
    DigitsValueOfNatToString(if n < 0 then -n else n);
    if n < 0 {
      assert IntToString(n)[1..] == d;
    }
  }

  /** Distinct integers print differently, so `id.toString() === s` holds for at most one `id`. */
  lemma IntToStringInjective(a: int, b: int)
    requires IntToString(a) == IntToString(b)
    ensures a == b
  {
    ParseIntToString(a);
    ParseIntToString(b);
  }

  /** JavaScript `s.toLowerCase()` restricted to ASCII letters. */
  function ToLower(s: string): (r: string)
    ensures |r| == |s|
    ensures forall i :: 0 <= i < |s| ==> r[i] == if 'A' <= s[i] <= 'Z' then ((s[i] as int) + 32) as char else s[i]
  {
    if |s| == 0 then []
    else [if 'A' <= s[0] <= 'Z' then ((s[0] as int) + 32) as char else s[0]] + ToLower(s[1..])
  }
}

=== FILE: user_directory.dfy ===
/** The backend's readers of the OpenProject user table (`psql -t` rows with
    '|'-separated cells) and of the failed-login lines of the application log. */
module UserDirectory {
  import opened Prelude
  import opened Text
  import opened Lines
  import opened OrderedMap

  /** A row of the users table as the backend keeps it. */
  datatype DbUser = DbUser(id: int, login: string, displayName: string, email: string, lastLogin: Option<string>)

  /** `[p.strip() for p in line.split('|')]` */
  function Cells(line: string): (r: seq<string>)
    ensures |r| == |SplitOn(line, '|')|
    ensures forall k :: 0 <= k < |r| ==> r[k] == Strip(SplitOn(line, '|')[k])
  {
    var ps := SplitOn(line, '|');
    seq(|ps|, k requires 0 <= k < |ps| => Strip(ps[k]))
  }

  /** `parts[1] if parts[1] else f"user_{user_id}"`: never empty. */
  function LoginOf(cell: string, id: int): (r: string)
    ensures |r| > 0
    ensures |cell| > 0 ==> r == cell
  {
    if |cell| > 0 then cell else "user_" + IntToString(id)
  }

  /** "first last" when both are present, else the login, else "User {id}". */
  function DisplayName(first: string, last: string, login: string, id: int): string {
    if |first| > 0 && |last| > 0 then first + " " + last
    else if |login| > 0 then login
    else "User " + IntToString(id)
  }

  /** With the login defaulted, the display name is never empty, is the full
      name exactly when both name cells are filled, and is otherwise the login. */
  lemma DisplayNameOfRow(first: string, last: string, cell: string, id: int)
    ensures var d := DisplayName(first, last, LoginOf(cell, id), id);
      && |d| > 0
      && (|first| > 0 && |last| > 0 ==> d == first + " " + last)
      && (|first| == 0 || |last| == 0 ==> d == LoginOf(cell, id))
  {
  }

  /** A row of `get_openproject_users_from_db`: a '|' in the line, at least seven
      cells, and an integer id in the first; any other line is skipped. */
  function UserRow(line: string): (r: Option<DbUser>)
    ensures r.Some? <==> '|' in line && |Cells(line)| >= 7 && ParseInt(Cells(line)[0]).Some?
    ensures r.Some? ==> ParseInt(Cells(line)[0]) == Some(r.value.id)
    ensures r.Some? ==> (
      && r.value.login == LoginOf(Cells(line)[1], r.value.id)
      && r.value.displayName == DisplayName(Cells(line)[2], Cells(line)[3], r.value.login, r.value.id))
    ensures r.Some? ==> r.value.email == Cells(line)[4]
    ensures r.Some? ==> (r.value.lastLogin.None? <==> |Cells(line)[6]| == 0)
    ensures r.Some? && r.value.lastLogin.Some? ==> r.value.lastLogin.value == Cells(line)[6]
  {
    if |Strip(line)| == 0 || '|' !in line then None
    else
      var c := Cells(line);
      if |c| < 7 then None
      else
        match ParseInt(c[0])
        case None => None
        case Some(id) =>
          var login := LoginOf(c[1], id);
          Some(DbUser(id, login, DisplayName(c[2], c[3], login, id), c[4],
                      if |c[6]| > 0 then Some(c[6]) else None))
  }

  function RowId(u: DbUser): int { u.id }

  /** `get_openproject_users_from_db`: `users[user_id] = {...}` for each
      accepted row, in output order. */
  function Directory(out: string): (d: Dict<int, DbUser>)
    ensures UniqueKeys(d)
    ensures forall i :: 0 <= i < |d| ==> d[i].1.id == d[i].0
  {
    IndexBy(ParseLines(out, UserRow), RowId)
  }

  /** A later row with the same id overwrites an earlier one: the directory
      entry for `k` is the last accepted row whose id is `k`. */
  lemma LaterRowOverwrites(out: string, k: int, u: DbUser)
    ensures Get(Directory(out), k) == Some(u)
        <==> exists i :: LastWith(ParseLines(out, UserRow), RowId, k, i) && ParseLines(out, UserRow)[i] == u
  {
    IndexLastWins(ParseLines(out, UserRow), RowId, k, u);
  }

  /** Every accepted row's id is in the directory, and nothing else is. */
  lemma DirectoryKeys(out: string, k: int)
    ensures HasKey(Directory(out), k) <==> exists i :: 0 <= i < |ParseLines(out, UserRow)| && ParseLines(out, UserRow)[i].id == k
  {
    IndexKeys(ParseLines(out, UserRow), RowId, k);
  }

  /** A row of `get_openproject_successful_logins`. */
  datatype LoginRecord = LoginRecord(userId: int, username: string, login: string, lastLogin: string)

  /** At least five cells and an integer id; the username is the display name. */
  function LoginRow(line: string): (r: Option<LoginRecord>)
    ensures r.Some? <==> '|' in line && |Cells(line)| >= 5 && ParseInt(Cells(line)[0]).Some?
    ensures r.Some? ==> (
      && ParseInt(Cells(line)[0]) == Some(r.value.userId)
      && |r.value.username| > 0
      && r.value.lastLogin == Cells(line)[4])
    ensures r.Some? ==> (
      && r.value.login == LoginOf(Cells(line)[1], r.value.userId)
      && r.value.username == DisplayName(Cells(line)[2], Cells(line)[3], r.value.login, r.value.userId))
  {
    if |Strip(line)| == 0 || '|' !in line then None
    else
      var c := Cells(line);
      if |c| < 5 then None
      else
        match ParseInt(c[0])
        case None => None
        case Some(id) =>
          var login := LoginOf(c[1], id);
          DisplayNameOfRow(c[2], c[3], c[1], id);
          Some(LoginRecord(id, DisplayName(c[2], c[3], login, id), login, c[4]))
  }

  function SuccessfulLogins(out: string): seq<LoginRecord> {
    ParseLines(out, LoginRow)
  }

  // ---------------------------------------------------------------------------
  // The `at ([0-9-]+ [0-9:]+)` timestamp of a failed login

  /** `re.search(r'at ([0-9-]+ [0-9:]+)', s)` matches at `i`: 'at ', then a run
      of date characters that a space ends, then a clock character. The date run
      is taken whole, since a shorter one would be followed by a date character
      rather than the space. */
  predicate StampAt(s: string, i: nat) {
    && MatchAt(s, i, "at ", DateChars, " ")
    && RunEnd(s, i + 3, DateChars) + 1 < |s|
    && InClass(s[RunEnd(s, i + 3, DateChars) + 1], ClockChars)
  }

  /** A match at `i` and none further left. */
  predicate FirstStampAt(s: string, i: nat) {
    StampAt(s, i) && forall k :: 0 <= k < i ==> !StampAt(s, k)
  }

  /** A date run, one space, and a clock run, both non-empty. */
  ghost predicate StampShaped(w: string) {
    exists e :: 0 < e < |w| - 1 && w[e] == ' '
      && (forall k :: 0 <= k < e ==> InClass(w[k], DateChars))
      && (forall k :: e < k < |w| ==> InClass(w[k], ClockChars))
  }

  /** The group of a match at `i`: the date run, the space and the whole clock run
      that follows it. */
  function StampGroup(s: string, i: nat): (w: string)
    requires StampAt(s, i)
    ensures StampShaped(w)
    ensures InfixAt(s, i, "at " + w)
    ensures i + 3 + |w| == |s| || !InClass(s[i + 3 + |w|], ClockChars)
  {
    var f := RunEnd(s, RunEnd(s, i + 3, DateChars) + 1, ClockChars);
    StampRuns(s, i);
    InfixThen(s, i, "at ", f);
    s[i + 3..f]
  }

  /** The date run of a match is non-empty, a space ends it, and a non-empty
      clock run follows. */
  lemma StampRuns(s: string, i: nat)
    requires StampAt(s, i)
    ensures var e := RunEnd(s, i + 3, DateChars);
      && e + 1 < RunEnd(s, e + 1, ClockChars)
      && StampShaped(s[i + 3..RunEnd(s, e + 1, ClockChars)])
  {
    var a := i + 3;
    var e := RunEnd(s, a, DateChars);
    var f := RunEnd(s, e + 1, ClockChars);
    RunEndClass(s, a, DateChars);
    RunEndClass(s, e + 1, ClockChars);
    assert e == RunEnd(s, a + 1, DateChars);
    assert f == RunEnd(s, e + 2, ClockChars);
    assert s[e..][0] == ' ';
    RunsShaped(s, a, e, f);
  }

  /** Two adjacent runs around a space have the shape of a timestamp. */
  lemma RunsShaped(s: string, a: nat, e: nat, f: nat)
    requires a < e && e + 1 < f <= |s| && s[e] == ' '
    requires forall k :: a <= k < e ==> InClass(s[k], DateChars)
    requires forall k :: e < k < f ==> InClass(s[k], ClockChars)
    ensures StampShaped(s[a..f])
  {
    var w := s[a..f];
    assert forall k :: 0 <= k < |w| ==> w[k] == s[a + k];
    assert w[e - a] == ' ';
  }

  /** The leftmost match position at or after `i`. */
  function FindStamp(s: string, i: nat): (r: Option<nat>)
    requires i <= |s|
    ensures r.Some? ==> i <= r.value < |s| && StampAt(s, r.value)
    ensures r.Some? ==> forall k :: i <= k < r.value ==> !StampAt(s, k)
    ensures r.None? ==> forall k :: i <= k <= |s| ==> !StampAt(s, k)
    decreases |s| - i
  {
    if i == |s| then None
    else if StampAt(s, i) then Some(i)
    else FindStamp(s, i + 1)
  }

  /** `time_match.group(1) if time_match else 'unknown'` without the default:
      the group of the leftmost match, and nothing iff no position matches. */
  function AtStamp(s: string): (r: Option<string>)
    ensures r.None? <==> forall k :: 0 <= k <= |s| ==> !StampAt(s, k)
    ensures r.Some? ==> exists i: nat :: FirstStampAt(s, i) && r.value == StampGroup(s, i)
  {
    match FindStamp(s, 0)
    case None => None
    case Some(i) => Some(StampGroup(s, i))
  }

  /** `m.group(1) if m else 'unknown'` for the timestamp search. */
  ghost predicate StampOr(s: string, t: string) {
    && ((exists k :: 0 <= k <= |s| && StampAt(s, k)) ==> exists i: nat :: FirstStampAt(s, i) && t == StampGroup(s, i))
    && ((forall k :: 0 <= k <= |s| ==> !StampAt(s, k)) ==> t == "unknown")
  }

  lemma AtStampOr(s: string)
    ensures StampOr(s, AtStamp(s).GetOr("unknown"))
  {
  }

  /** A found timestamp is a date and a clock reading, so never the default. */
  lemma StampNotUnknown(s: string)
    requires AtStamp(s).Some?
    ensures StampShaped(AtStamp(s).value) && AtStamp(s).value != "unknown"
  {
    var w := AtStamp(s).value;
    var e :| 0 < e < |w| - 1 && w[e] == ' '
      && (forall k :: 0 <= k < e ==> InClass(w[k], DateChars))
      && (forall k :: e < k < |w| ==> InClass(w[k], ClockChars));
    assert InClass(w[0], DateChars);
    assert !InClass("unknown"[0], DateChars);
  }

  /** A record of `get_openproject_failed_logins`. */
  datatype FailedLogin = FailedLogin(username: string, ip: string, timestamp: string, country: string)

  /** A line with 'Failed login', a quoted user after "Failed login for " and a
      source address after "from ". */
  function FailedLine(line: string, env: Env): (r: Option<FailedLogin>)
    ensures r.Some? <==>
      && Contains(line, "Failed login")
      && HasGroup(line, "Failed login for '", NonQuote, "'")
      && HasQuadGroup(line, "from ")
    ensures r.Some? ==> (
      && |r.value.username| > 0
      && '\'' !in r.value.username
      && exists i: nat :: InfixAt(line, i, "Failed login for '" + r.value.username + "'"))
    ensures r.Some? ==> exists i: nat :: FirstGroupAt(line, i, "Failed login for '", NonQuote, "'", r.value.username)
    ensures r.Some? ==> exists i: nat :: FirstQuadAt(line, i, "from ", r.value.ip)
    ensures r.Some? ==> IsDottedQuad(r.value.ip) && r.value.country == env.country(r.value.ip)
    ensures r.Some? ==> StampOr(line, r.value.timestamp)
  {
    AtStampOr(line);
    SearchFindsSome(line, "Failed login for '", NonQuote, "'");
    SearchQuadFindsSome(line, "from ");
    FailedWordNotBlank(line);
    if |Strip(line)| == 0 || !Contains(line, "Failed login") then None
    else
      match Search(line, "Failed login for '", NonQuote, "'")
      case None => None
      case Some(u) =>
        match SearchQuad(line, "from ")
        case None => None
        case Some(ip) =>
          QuotedUser(line, u);
          Some(FailedLogin(u, ip, AtStamp(line).GetOr("unknown"), env.country(ip)))
  }

  /** A line saying 'Failed login' is not blank, so `line.strip()` passes it. */
  lemma FailedWordNotBlank(line: string)
    ensures Contains(line, "Failed login") ==> !IsBlank(line)
  {
    if Contains(line, "Failed login") {
      NotBlankOfContains(line, "Failed login");
    }
  }

  /** The captured user is followed by its closing quote. */
  lemma QuotedUser(line: string, u: string)
    requires Search(line, "Failed login for '", NonQuote, "'") == Some(u)
    ensures '\'' !in u && exists i: nat :: InfixAt(line, i, "Failed login for '" + u + "'")
  {
    var p := "Failed login for '";
    var i := FindMatch(line, 0, p, NonQuote, "'").value;
    MatchSpan(line, i, p, NonQuote, "'");
  }

  function FailedLogins(out: string, env: Env): seq<FailedLogin> {
    ParseLines(out, l => FailedLine(l, env))
  }
}
